=== FILE: README.md ===
# MathLabs lessons in Dafny

A model of the logic inside MathLabs, a React app that teaches primary-school arithmetic
and patterns. The model covers four parts of the app:

- **Hand-arithmetic lessons.** These build the column work a pupil writes:
  - digit extraction, ripple carries and borrows;
  - partial products, as numbers and as digit rows with carries;
  - the grid widths of the multiplication visualiser;
  - two long-division step builders;
  - factorial intermediates and the tens/ones poster;
  - the four problem generators.
- **Step cursors.** Next, Previous and Reset on every lesson, plus the counting, shapes,
  fraction-section and quiz screens.
- **Pattern games.** Four games:
  - Create a Pattern: palette, editing and period detection.
  - Complete the Pattern: tiling a base, a gap, and the answer check.
  - Find the Next Shape.
  - Growing Patterns: arithmetic and geometric rows.

  They share the distractor loop, the Fisher-Yates shuffle and the scoring rule.
- **Sidebar.** The expand/collapse toggle and the route table.

Each `Math.random()` draw is a parameter restricted to the values the draw can take. So
every operation is a pure function of its inputs and its draws. JavaScript behaviour is
written out where it differs from mathematics, in module `Js`:

- `%` truncates toward zero;
- `getDigit` divides as floating point before `%`;
- `parseInt` stops at the first non-digit;
- `Array.from({length: n})` treats a negative `n` as 0.

The generators in `Problems` also write out that `switch` compares with `===`, so a
difficulty string never matches a numeric case.

Lesson narration is modelled as step datatypes that carry the numbers spoken, not the
sentences.

One module per source component, plus shared modules:

| module | purpose |
|---|---|
| `Wrappers` | options |
| `Digits` | powers of ten, digit lists, digit strings |
| `Js` | the JavaScript semantics listed above |
| `Columns` | column lengths and digits |
| `OperationCursor` | the `handleNextStep` the operation screens share (addition, subtraction, multiplication, division, factorial) |
| `Shuffle` | Fisher-Yates, the distractor loop, the options |
| `PatternItems` | shapes, colours, tiling |
| `AnswerState` | the games' answer and score state |

## Model

| member | source | states |
|---|---|---|
| AdditionOp.CarriesList | src/operations/AdditionOperation.tsx:39-46 | after `n` passes the carries array holds `n` flags, entry `k` being the carry out of column `n-1-k` (each new carry is put at the front) |
| AdditionOp.CarryInArith | src/operations/AdditionOperation.tsx:39-46 | the rippled carry into place `i` is the overflow of the low `i` places, `(a mod 10^i + b mod 10^i) div 10^i`, so it is always 0 or 1 |
| AdditionOp.SumDigit | src/operations/AdditionOperation.tsx:39-46 | the sum's digit at place `i` is the two column digits plus the carry into that column, modulo 10 |
| AdditionOp.DropMarked | src/operations/AdditionOperation.tsx:49 | filtering out -1 from a list of marks keeps exactly the marked positions, in strictly increasing order |
| AdditionOp.CarryValuesSpec | src/operations/AdditionOperation.tsx:31-50 | the returned indices are strictly increasing, lie in `[0, maxLength)`, and `k` is returned exactly when column `maxLength-1-k` carries out |
| AdditionOp.ZeroMeansNewDigit | src/operations/AdditionOperation.tsx:39-49 | index 0 is returned exactly when `a + b >= 10^maxLength`, that is, when the sum gains a digit |
| AdditionOp.StepsShape | src/operations/AdditionOperation.tsx:52-81 | the step list has `4 + [carries non-empty] + [0 in carries]` steps, opens with the intro and closes with the total |
| AdditionOp.OnesColumn | src/operations/AdditionOperation.tsx:57-60 | the ones step speaks the ones digit of the sum, and announces a carry exactly when the ones column carries |
| AdditionOp.TensColumn | src/operations/AdditionOperation.tsx:67-70 | with the true carry from the ones, the tens step speaks the tens digit of the sum, and the column overflows exactly when the ripple carries into the hundreds |
| AdditionOp.TensDigit | src/operations/AdditionOperation.tsx:69 | `Math.floor((n % 100) / 10)` is the tens digit of `n` |
| AdditionOp.AsWrittenAgreesIff | src/operations/AdditionOperation.tsx:49-81 | for two-column problems the narration built from the returned indices equals the correct one exactly when a carry out of the tens implies a carry out of the ones |
| AdditionOp.AsWrittenWrongForThreeColumns | src/operations/AdditionOperation.tsx:61-76 | for 150 + 150 the returned indices are `[1]`, so the narration announces a carry to the tens and "plus the carried 1" although the ones do not carry, and omits the carry to the hundreds that does happen |
| AdditionOp.CorrectedStepsSound | src/operations/AdditionOperation.tsx:52-81 | the step list driven by the true column carries speaks the right ones and tens digits, announces each carry exactly when its column overflows, and ends with the total |
| AdditionOp.NewProblem | src/operations/AdditionOperation.tsx:22-29 | a new problem has `sum = num1 + num2`, the carry indices of its operands and the cursor at the start |
| AdditionOp.ScreenSteps | src/operations/AdditionOperation.tsx:52-81 | the list the screen renders is rebuilt from the stored carry indices: `4 + [carries non-empty] + [0 in carries]` steps, intro first and total last |
| AdditionOp.NextStep | src/operations/AdditionOperation.tsx:83-93 | a click below the end of the rendered list moves the cursor one step on and keeps a reachable cursor reachable; at or past the end nothing changes; the problem is never touched |
| AdditionOp.NextStepFixed | src/operations/AdditionOperation.tsx:83-93 | the same click bounded by the corrected narration's length instead |
| AdditionOp.ScreenMatchesCorrectedIff | src/operations/AdditionOperation.tsx:52-81 | on two-column problems the rendered list equals the corrected one exactly when a tens carry comes with a ones carry |
| AdditionOp.ScreenLengthsDiffer | src/operations/AdditionOperation.tsx:45-93 | `9 + 1` renders six steps where five are right and `155 + 155` five where six are right, so `onComplete` fires one click early or late |
| OperationCursor.HandleNextStep | src/operations/AdditionOperation.tsx:83-93 | a click at or past the end changes nothing; below the end it moves the cursor one step on, speaks the current step, and fires `onComplete` exactly when the click is made on the last step |
| OperationCursor.NextPreservesValid | src/operations/AdditionOperation.tsx:83-93 | from a reachable cursor a click leads to a reachable cursor: never past the end, completed exactly at the end |
| OperationCursor.ClicksTrace | src/operations/AdditionOperation.tsx:83-93 | after `k` clicks from the start the cursor is at `min(k, len)`, completed exactly when `k >= len`, and `onComplete` fired once if the end was reached and never otherwise |
| OperationCursor.InstructionIndex | src/operations/AdditionOperation.tsx:123 | the heading reads a real step: the current one while in range, otherwise the last |
| OperationCursor.SpeakerIndex | src/operations/AdditionOperation.tsx:115 | the speaker button reads a real step: the current one while in range, otherwise the first |
| Columns.MaxLength | src/operations/AdditionOperation.tsx:35-37 | the column count is the larger of the two digit counts, and at least 1 |
| Columns.ColumnDigit | src/operations/AdditionOperation.tsx:40-41 | the digit parsed from column `i` of `n.toString()` is a decimal digit, and the `'0'` default gives 0 past the left end of the string |
| Columns.ColumnDigitIsGetDigit | src/operations/AdditionOperation.tsx:40-41 | the digit read from column `i` of `n.toString()` is `(n div 10^i) mod 10` |
| Columns.ParseCharDigit | src/operations/AdditionOperation.tsx:40 | every character of `n.toString()` is a digit and `parseInt` of it is the digit at that position |
| Columns.BelowMaxLength | src/operations/AdditionOperation.tsx:37 | both operands are below `10^maxLength` |
| SubtractionOp.PlacesWhereSpec | src/operations/SubtractionOperation.tsx:40-50 | the places pushed are exactly those below the column count whose borrow flag is set, in strictly increasing order |
| SubtractionOp.BorrowedPlacesSpec | src/operations/SubtractionOperation.tsx:31-53 | the returned places are strictly increasing, below `maxLength`, and are exactly the columns that borrow |
| SubtractionOp.BorrowRuleStandard | src/operations/SubtractionOperation.tsx:44 | the written test (`dA < dB`, or equal digits with a borrow pending) is the textbook rule `dA - borrowIn < dB` |
| SubtractionOp.BorrowingArith | src/operations/SubtractionOperation.tsx:40-50 | place `i` borrows exactly when the low `i` places of `a` are below those of `b` |
| SubtractionOp.TopNeverBorrowed | src/operations/SubtractionOperation.tsx:40-50 | when `a >= b` the leftmost column `maxLength-1` is never returned |
| SubtractionOp.DifferenceDigit | src/operations/SubtractionOperation.tsx:72-88 | for `a >= b` the difference's digit at place `i` is the top digit less the borrow in, less the bottom digit, plus 10 when the column borrows |
| SubtractionOp.StepsShape | src/operations/SubtractionOperation.tsx:60-93 | the step list has `5 + [0 borrowed] + [1 borrowed]` steps, from the intro to the final difference |
| SubtractionOp.LayoutSound | src/operations/SubtractionOperation.tsx:60-93 | when each column's spoken figures satisfy the column arithmetic, every step of the list speaks a true subtraction and every borrow it announces is justified |
| SubtractionOp.NarrationArith | src/operations/SubtractionOperation.tsx:65-88 | with the floating `getDigit`, the ones, tens and hundreds narrations of a three-digit problem with `a >= b` state true column subtractions, and each borrow announced has a smaller top figure |
| SubtractionOp.NarrationSound | src/operations/SubtractionOperation.tsx:60-93 | for `b <= a < 1000` every step of the narration is sound: each spoken subtraction is true and each announced borrow is needed |
| SubtractionOp.PlaceArith | src/operations/SubtractionOperation.tsx:73-83 | one column with the floating `getDigit`: the borrow rule and the spoken digit of the difference |
| SubtractionOp.BorrowFacts | src/operations/SubtractionOperation.tsx:65-87 | for `b <= a < 1000`, place 0 (1) is listed exactly when the ones (tens) column borrows, and nothing borrows into the ones or out of the hundreds |
| SubtractionOp.NoBorrowPastLength | src/operations/SubtractionOperation.tsx:40-50 | for `a >= b` no column at or beyond `maxLength - 1` borrows |
| SubtractionOp.NewProblem | src/operations/SubtractionOperation.tsx:22-29 | a new problem has `difference = num1 - num2`, the borrowed places of its operands and the cursor at the start |
| SubtractionOp.NextStep | src/operations/SubtractionOperation.tsx:95-105 | a click below the end of the rendered list moves the cursor one step on and keeps a reachable cursor reachable; at or past the end nothing changes; only the cursor ever changes |
| MultiplicationOp.ProductsEntries | src/operations/MultiplicationOperation.tsx:35-39 | entry `i` is `a` times the digit of `b` at place `i`, times `10^i` |
| MultiplicationOp.SumProductsUpTo | src/operations/MultiplicationOperation.tsx:35-39 | the first `n` partial products add up to `a * (b mod 10^n)` |
| MultiplicationOp.PartialProductsSpec | src/operations/MultiplicationOperation.tsx:31-42 | there is one partial product per digit of `b`, entry `i` is `a * digit_i(b) * 10^i`, and they add up to `a * b` |
| MultiplicationOp.LayoutShape | src/operations/MultiplicationOperation.tsx:49-78 | the step list has `4 + [b >= 10] + [b >= 100]` steps in the written order, the sum and final steps last |
| MultiplicationOp.StepsShape | src/operations/MultiplicationOperation.tsx:49-78 | for a real problem the list opens with the intro and its sum step lists partial products that add up to the final product |
| MultiplicationOp.NarratesOnes | src/operations/MultiplicationOperation.tsx:54-57 | the ones step speaks the ones digit of `b` and `partialProducts[0] = a * digit` |
| MultiplicationOp.NarratesTens | src/operations/MultiplicationOperation.tsx:58-63 | when `b >= 10` the tens step speaks the tens digit, `a` times it, and `partialProducts[1]`, which is that times 10 |
| MultiplicationOp.NarratesHundreds | src/operations/MultiplicationOperation.tsx:64-69 | when `b >= 100` the hundreds step speaks the hundreds digit, `a` times it, and `partialProducts[2]`, which is that times 100 |
| MultiplicationOp.SpokenPartial | src/operations/MultiplicationOperation.tsx:44-46 | for a place `b` has, the floating `getDigit` is the decimal digit and `partialProducts[i]` is in range and equals `a * digit * 10^i` |
| MultiplicationOp.NewProblem | src/operations/MultiplicationOperation.tsx:22-29 | a new problem has `product = num1 * num2` and one partial product per digit of `num2`, adding up to the product |
| MultiplicationOp.NextStep | src/operations/MultiplicationOperation.tsx:80-90 | a click below the end of the rendered list moves the cursor one step on and keeps a reachable cursor reachable; at or past the end nothing changes; only the cursor ever changes |
| FactorialOp.ProductsSpec | src/operations/FactorialOperation.tsx:36-42 | after `k` passes the running product is `k!`, and `results` has `k` entries with entry `i` equal to `(i+1)!` |
| FactorialOp.Generate | src/operations/FactorialOperation.tsx:26-51 | a number outside `[0, 10]` leaves the screen unchanged; any other gives a consistent screen for that number with the cursor reset |
| FactorialOp.Initial | src/operations/FactorialOperation.tsx:14-24 | the mounted screen shows 5!, whose last running product is 120 |
| FactorialOp.EditNumber | src/operations/FactorialOperation.tsx:57-62 | a value that does not parse is ignored; a parsed one becomes the editable number |
| FactorialOp.StepsSpec | src/operations/FactorialOperation.tsx:65-78 | the lesson has `n + 2` steps, and step `i` multiplies `(i-1)!` by `i` to get `i!` |
| FactorialOp.FinalNarration | src/operations/FactorialOperation.tsx:74-77 | the last step reads `n!` when `n >= 1` and reads past the start of the empty list when `n = 0` |
| FactorialOp.ZeroFactorialUndefined | src/operations/FactorialOperation.tsx:76 | choosing 0 gives a two-step lesson whose final value is missing, although `0! = 1` |
| FactorialOp.FinalValueFixedSpec | src/operations/FactorialOperation.tsx:76 | reading an empty list of products as 1 makes the final narration `n!` for every `n`, 0 included |
| FactorialOp.NextStep | src/operations/FactorialOperation.tsx:80-90 | a click keeps a reachable cursor reachable over the `n + 2` steps and never changes the problem |
| FactorialOp.LessonLength | src/operations/FactorialOperation.tsx:26-90 | after generating `n`, the lesson completes exactly at the `(n+2)`-th click |
| CountingOp.Generate | src/operations/CountingOperation.tsx:25-41 | a number outside `[1, 100]` leaves the screen unchanged; any other gives a reachable screen counting from 0 to it |
| CountingOp.Initial | src/operations/CountingOperation.tsx:14-23 | the mounted screen counts from 0 to 10 |
| CountingOp.EditNumber | src/operations/CountingOperation.tsx:47-52 | a value that does not parse is ignored; a parsed one becomes the editable number |
| CountingOp.CustomPreservesValid | src/operations/CountingOperation.tsx:43-52 | typing anything and pressing the custom button keeps the screen reachable |
| CountingOp.NextNumber | src/operations/CountingOperation.tsx:54-64 | below the target the count rises by exactly one, at the target nothing happens, and `onComplete` fires exactly on the click that reaches the target |
| CountingOp.NextPreservesValid | src/operations/CountingOperation.tsx:54-64 | a click keeps `0 <= current <= target`, with completed exactly at the target |
| CountingOp.ClicksFromStart | src/operations/CountingOperation.tsx:54-64 | `k` clicks from 0 show `min(k, target)` and complete exactly when `k >= target` |
| AdditionPoster.SplitSpec | src/components/addVisual2/AdditionPoster.tsx:24-27 | a non-negative addend is ten times its tens plus its ones, and the ones are a single digit |
| AdditionPoster.SplitNegative | src/components/addVisual2/AdditionPoster.tsx:24-27 | for a negative addend the floor and the truncating remainder do not recombine (-3 splits into -1 tens and -3 ones) |
| AdditionPoster.ExplanationIdentity | src/components/addVisual2/AdditionPoster.tsx:30-95 | for non-negative addends, tens total times ten plus ones total is the answer, and the ones total is at most 18 |
| AdditionPoster.OnesNotRegrouped | src/components/addVisual2/AdditionPoster.tsx:91 | the ones are not regrouped: 38 + 24 is explained as 5 tens and 12 ones |
| AdditionPoster.ToggleAnswer | src/components/addVisual2/AdditionPoster.tsx:38-101 | the button flips the answer, and hiding the answer hides the explanation |
| AdditionPoster.TimerFires | src/components/addVisual2/AdditionPoster.tsx:32-37 | the timer, armed only while the answer is shown, shows the explanation |
| AdditionPoster.ViewStaysOk | src/components/addVisual2/AdditionPoster.tsx:32-41 | the explanation is never on screen without the answer |
| Digits.NumDigits | src/components/MultiplicationVisualizer.tsx:117-118 | the length of `n.toString()` is the least `r >= 1` with `n < 10^r` |
| Digits.NumDigitsBound | src/components/MultiplicationVisualizer.tsx:117-118 | `n` has at most `k` digits exactly when `k >= 1` and `n < 10^k` |
| Digits.ToDigits | src/components/MultiplicationVisualizer.tsx:117-118 | `n.toString().split('').map(Number)` is a canonical digit list of `NumDigits(n)` entries that denotes `n` |
| Digits.ToDigitsOfValue | src/components/MultiplicationVisualizer.tsx:117-118 | round trip: a canonical digit list is the digit list of the number it denotes |
| Digits.ValueBound | src/components/MultiplicationVisualizer.tsx:117-118 | a list of `k` digits denotes a number below `10^k`, and at least `10^(k-1)` when it has no leading zero |
| Digits.DigitAtToDigits | src/operations/AdditionOperation.tsx:40-41 | reading place `i` of the digit string from the right, with 0 past its left end, gives `(n div 10^i) mod 10` |
| Digits.HighDigitZero | src/operations/AdditionOperation.tsx:104-106 | the places above a number's length read 0 |
| Digits.NatToString | src/components/MultiplicationVisualizer.tsx:117 | `n.toString()` is a digit string of `NumDigits(n)` characters spelling the digits of `n` |
| Digits.StrValueOfNatToString | src/components/MultiplicationVisualizer.tsx:117 | round trip: the decimal string of `n` denotes `n` |
| Digits.QuotientDigit | src/components/LongDivisionVisualizer.tsx:113-117 | a running value below the divisor, with one digit brought down, has a one-digit quotient |
| Js.JsRem | src/components/MultiplicationVisualizer.tsx:238-239 | the remainder of `%` takes the sign of the dividend: Euclidean for non-negative values, in `(-m, 0]` for negative ones, and in both cases `a - r` is a multiple of `m`, which pins the value |
| Js.Lookup | src/components/MultiplicationVisualizer.tsx:239 | an array read is defined exactly for an index in range, and then is that element |
| Js.OrElse | src/components/MultiplicationVisualizer.tsx:239 | the fallback read keeps a defined value and otherwise gives the default |
| Js.ArrayFromLength | src/operations/FactorialOperation.tsx:70 | `Array.from({ length: n })` has `n` entries, none for a negative `n` |
| Js.JsGetDigitAgrees | src/operations/AdditionOperation.tsx:104-106 | on a non-negative number the floating `getDigit` equals the decimal digit `(n div 10^p) mod 10`, which is in `[0, 9]` |
| Js.JsGetDigitNegative | src/operations/AdditionOperation.tsx:104-106 | on a negative number `getDigit` keeps the sign: the units digit of -5 reads -5 |
| Js.FilterDigits | src/components/MultiplicationVisualizer.tsx:65-70 | `replace(/[^0-9]/g, '')` leaves a digit string no longer than its input |
| Js.FilterDigitsKeeps | src/components/MultiplicationVisualizer.tsx:65-70 | a digit string passes the filter unchanged |
| Js.FilterDigitsIdempotent | src/components/MultiplicationVisualizer.tsx:65-70 | filtering twice is filtering once |
| Js.DigitPrefixLength | src/components/MultiplicationVisualizer.tsx:85-86 | the digits `parseInt` reads are the longest digit prefix: all digits, and the next character is not one |
| Js.TrimStart | src/components/MultiplicationVisualizer.tsx:85-86 | the leading white space and line terminators `parseInt` skips: what is left is a suffix of the input not starting with one |
| Js.ParseIntDigits | src/components/MultiplicationVisualizer.tsx:85-88 | a non-empty digit string parses to the number it spells; an empty one is `NaN` |
| Js.ParseIntToString | src/operations/AdditionOperation.tsx:40-41 | round trip: parsing the decimal string of a number gives that number back |
| Js.ParseIntStopsAtNonDigit | src/operations/FactorialOperation.tsx:57-62 | the text after the digits is ignored: `parseInt("12ab")` is 12 |
| Js.CharAtOr | src/operations/AdditionOperation.tsx:40-41 | a string read with a default is the character at `i` in range and the default otherwise |
| MultiplicationVisualizer.RippleAfter | src/components/MultiplicationVisualizer.tsx:149-158 | after the rightmost `n` columns, `n` digits have been written, each in `[0, 9]`, and the running carry is at most 8 |
| MultiplicationVisualizer.ColumnProduct | src/components/MultiplicationVisualizer.tsx:156 | a column's product, digit times digit plus carry, is at most 89 |
| MultiplicationVisualizer.RippleValue | src/components/MultiplicationVisualizer.tsx:149-192 | inner-loop invariant: the digits written plus the carry at the next place equal the rightmost `n` digits of the multiplicand times the multiplier digit |
| MultiplicationVisualizer.ColumnsClosed | src/components/MultiplicationVisualizer.tsx:154-192 | in the inner loop's steps every `carry` step directly follows the product it carries, and every two-digit product is directly followed by its `carry` step |
| MultiplicationVisualizer.RowDigits | src/components/MultiplicationVisualizer.tsx:191-196 | a finished row has the multiplicand's length of digits, or one more when a final carry is put in front |
| MultiplicationVisualizer.RowValue | src/components/MultiplicationVisualizer.tsx:149-196 | a finished row's digits denote the multiplicand times the multiplier digit |
| MultiplicationVisualizer.RowClosed | src/components/MultiplicationVisualizer.tsx:139-217 | one outer iteration's steps keep every `carry` step next to its product |
| MultiplicationVisualizer.Loop | src/components/MultiplicationVisualizer.tsx:132-218 | the outer loop pushes one row per iteration |
| MultiplicationVisualizer.LoopRows | src/components/MultiplicationVisualizer.tsx:132-209 | after `n` iterations the rows are exactly the `n` rows pushed, in order |
| MultiplicationVisualizer.LoopFacts | src/components/MultiplicationVisualizer.tsx:134-218 | when every iteration's steps are closed and hold one finished-row step, so do the loop's, with `n` such steps |
| MultiplicationVisualizer.RowsSpec | src/components/MultiplicationVisualizer.tsx:134-209 | row `k` is digits followed by exactly `k` "X" cells, has the multiplicand's length or one more before them, and is worth the multiplicand times the multiplier digit `k` places from the right, times `10^k` |
| MultiplicationVisualizer.RowCellsSpec | src/components/MultiplicationVisualizer.tsx:150-196 | one finished row: digits, then `k` "X" cells, worth the multiplicand times `d` shifted `k` places |
| MultiplicationVisualizer.StripRow | src/components/MultiplicationVisualizer.tsx:150-191 | reading each "X" as a zero, digits followed by `k` placeholders are worth the digits times `10^k` |
| MultiplicationVisualizer.RowsStepFacts | src/components/MultiplicationVisualizer.tsx:134-218 | the outer loop's steps keep carries next to their products and hold exactly one `partialProduct` step per multiplier digit |
| MultiplicationVisualizer.RowStepOk | src/components/MultiplicationVisualizer.tsx:134-218 | one outer iteration emits exactly one `partialProduct` step and keeps carries next to their products |
| MultiplicationVisualizer.CountRow | src/components/MultiplicationVisualizer.tsx:209-217 | one outer iteration emits exactly one `partialProduct` step |
| MultiplicationVisualizer.AssembleRows | src/components/MultiplicationVisualizer.tsx:115-233 | the full list opens with the intro, ends with the final sum over all rows, and has one `partialProduct` step per multiplier digit |
| MultiplicationVisualizer.CalculationStepsEnds | src/components/MultiplicationVisualizer.tsx:121-230 | the first step is the intro and the last is `finalSum` with one row per multiplier digit and the canonical digits of `a * b` |
| MultiplicationVisualizer.CalculationStepsCarries | src/components/MultiplicationVisualizer.tsx:134-218 | the steps hold one `partialProduct` step per multiplier digit, and a `carry` step follows a digit multiplication exactly when its product has a tens digit |
| MultiplicationVisualizer.FinalSumAddsRows | src/components/MultiplicationVisualizer.tsx:209-230 | the rows of the final sum are the partial products of the lesson screen, and they add up to the final product |
| MultiplicationVisualizer.OrdinalSuffixRule | src/components/MultiplicationVisualizer.tsx:236-240 | the array-and-remainder trick gives "th" for 11-13 modulo 100, otherwise "st", "nd", "rd" for a last digit of 1, 2, 3, else "th" |
| MultiplicationVisualizer.LowSuffix | src/components/MultiplicationVisualizer.tsx:238-239 | below 20 the first array read is `undefined` or the "th" at index 0, and the second read settles 1st, 2nd and 3rd |
| MultiplicationVisualizer.HighSuffix | src/components/MultiplicationVisualizer.tsx:238-239 | from 20 on the first array read is the last digit's suffix, or `undefined` past "rd" |
| MultiplicationVisualizer.ProcessMultiplication | src/components/MultiplicationVisualizer.tsx:75-112 | an empty input is rejected as missing; otherwise the state holds both values, starts at step 0, is in range, and ends with the digits of the product |
| MultiplicationVisualizer.TypedInputProcessed | src/components/MultiplicationVisualizer.tsx:64-83 | typed text is filtered to digits first, and processing succeeds exactly when both filtered inputs are non-empty |
| MultiplicationVisualizer.NextStep | src/components/MultiplicationVisualizer.tsx:243-258 | `nextStep` keeps the index on a step and the completion flag on the last one, and changes nothing else |
| MultiplicationVisualizer.PrevStep | src/components/MultiplicationVisualizer.tsx:260-269 | `prevStep` keeps the index on a step, clears the completion flag when it moves, and changes nothing else |
| MultiplicationVisualizer.Reset | src/components/MultiplicationVisualizer.tsx:271-278 | reset puts the index at 0 and clears the completion flag |
| MultiplicationVisualizer.NextTimesFromStart | src/components/MultiplicationVisualizer.tsx:243-258 | `k` presses of Next from the start land on `min(k, len-1)`, complete exactly on reaching the last step, and never change the steps |
| MultiplicationVisualizer.PrevUndoesNext | src/components/MultiplicationVisualizer.tsx:243-269 | Previous undoes Next, except that it clears the completion flag |
| DigitGrid.Longest | src/components/DigitGrid.tsx:96 | the longest partial-product line: no line is longer, it is one of them, and 0 when there are none |
| DigitGrid.MaxWidth | src/components/DigitGrid.tsx:92-100 | the width is one more than the longest of the multiplicand, the multiplier and every partial product, so it exceeds each of them |
| DigitGrid.PushNothingKeeps | src/components/DigitGrid.tsx:130-138 | the padding loop calls `push()` with no argument, so the padded product is the product itself |
| DigitGrid.CarryRow | src/components/DigitGrid.tsx:229-258 | the carry row has exactly `maxWidth` cells, and cell `i` shows the carry filed under `i` when there is one and nothing otherwise |
| DigitGrid.RowPads | src/components/DigitGrid.tsx:128-160 | every partial-product line gets at least one blank cell, and blank cells plus the line fill the grid's width |
| DigitGrid.Layout | src/components/DigitGrid.tsx:92-295 | the multiplicand gets at least one blank cell and fills the width, the multiplier leaves room for the sign, each product line is padded by at least one cell, the carry row has `maxWidth` cells, and the sum line appears exactly on the final step |
| DigitGrid.ProductDigits | src/components/DigitGrid.tsx:193-194 | a product has at most as many digits as its two factors together |
| DigitGrid.RowsWidth | src/components/DigitGrid.tsx:92-100 | with the rows of a real calculation the grid is at least as wide as the two factors' lengths together |
| DigitGrid.FinalSumFits | src/components/DigitGrid.tsx:188-197 | for the steps of a real calculation the final line's blank run is non-negative: blank cells plus the answer's digits fill the width |
| DigitGrid.AnswerFits | src/components/DigitGrid.tsx:193-194 | the answer has no more digits than the grid is wide |
| LongDivision.Run | src/components/LongDivisionVisualizer.tsx:97-148 | loop invariant: the running dividend is a digit string whose value is below the divisor, and after `n` passes the quotient has `n` characters and `n` steps were pushed |
| LongDivision.RunSteps | src/components/LongDivisionVisualizer.tsx:97-148 | every pushed step is well formed: a bring-down only before the last digit with a value below the divisor, a divide with one quotient digit, `multiply = digit * divisor` and `0 <= subtract < divisor` |
| LongDivision.Iteration | src/components/LongDivisionVisualizer.tsx:98-147 | one pass keeps the running dividend below the divisor, adds one quotient character and appends exactly one step |
| LongDivision.IterationStep | src/components/LongDivisionVisualizer.tsx:103-143 | the step one pass pushes is well formed for its position |
| LongDivision.RunInvariant | src/components/LongDivisionVisualizer.tsx:97-148 | after `n` passes, quotient times divisor plus the running dividend is the value of the first `n` dividend digits |
| LongDivision.IterationValue | src/components/LongDivisionVisualizer.tsx:98-147 | one pass carries that division invariant one dividend digit further |
| LongDivision.BringDownValue | src/components/LongDivisionVisualizer.tsx:103-119 | a pass that only brings a digit down writes a 0 in the quotient and keeps the invariant |
| LongDivision.DivideValue | src/components/LongDivisionVisualizer.tsx:122-147 | a pass that divides writes the quotient digit, keeps the remainder as the running dividend, and keeps the invariant |
| LongDivision.CalculateStepsShape | src/components/LongDivisionVisualizer.tsx:97-157 | there are `dividend.length + 1` steps, every loop step is well formed, the last digit always divides, and only the last step is `final` |
| LongDivision.CalculateStepsResult | src/components/LongDivisionVisualizer.tsx:150-157 | the final quotient has `dividend.length` characters and parses to `dividend div divisor`, and the final remainder is `dividend mod divisor` |
| LongDivision.ValidateInput | src/components/LongDivisionVisualizer.tsx:51-82 | an empty box is reported as missing, and the input passes only with a non-negative dividend and a positive divisor |
| LongDivision.CheckParsed | src/components/LongDivisionVisualizer.tsx:57-78 | the checks on the parsed numbers pass only when both parsed, the dividend is non-negative and the divisor positive |
| LongDivision.ValidateDigits | src/components/LongDivisionVisualizer.tsx:51-269 | with both boxes holding digit strings, the input passes exactly when both are filled and the divisor is not 0, and a zero divisor reads "Cannot divide by zero" |
| LongDivision.Initial | src/components/LongDivisionVisualizer.tsx:43-49 | the empty form is a reachable screen |
| LongDivision.SetDividend | src/components/LongDivisionVisualizer.tsx:250-251 | typing in the dividend box stores the digits of what was typed and changes nothing else |
| LongDivision.SetDivisor | src/components/LongDivisionVisualizer.tsx:268-269 | typing in the divisor box stores the digits of what was typed and changes nothing else |
| LongDivision.Calculate | src/components/LongDivisionVisualizer.tsx:84-162 | invalid input only sets the error; valid input shows `dividend.length + 1` steps from step 0, the last being `final` |
| LongDivision.NextStep | src/components/LongDivisionVisualizer.tsx:164-175 | Next keeps the index on a step and never changes the steps; below the last step it moves one on and celebrates exactly when it arrives at the last step; on the last step nothing happens |
| LongDivision.PrevStep | src/components/LongDivisionVisualizer.tsx:177-182 | Previous keeps the index on a step and never changes the steps |
| LongDivision.ResetCalculation | src/components/LongDivisionVisualizer.tsx:184-188 | reset returns to the form with no steps, keeping what was typed |
| LongDivision.PrevUndoesNext | src/components/LongDivisionVisualizer.tsx:164-182 | Previous undoes a Next that moved |
| LongDivision.NextTimesFromStart | src/components/LongDivisionVisualizer.tsx:164-175 | `k` presses of Next from the first step reach step `min(k, length - 1)` and never change the steps |
| DivisionOp.GenerateDivisionSteps | src/operations/DivisionOperation.tsx:43-68 | every lesson opens with the introduction, and the easy one has exactly three steps, one subtraction entry and one remainder entry |
| DivisionOp.Iteration | src/operations/DivisionOperation.tsx:79-109 | a pass only appends to the steps and the two entry arrays |
| DivisionOp.IterationInv | src/operations/DivisionOperation.tsx:79-109 | a pass before the last keeps the loop invariant: the running value is the digits read so far modulo the divisor, every divide step is followed by a bring-down, and each entry pair points at its divide step |
| DivisionOp.PassValue | src/operations/DivisionOperation.tsx:80 | after bringing down digit `i`, the running value is congruent to the first `i + 1` digits modulo the divisor and no larger than them |
| DivisionOp.GuardHolds | src/operations/DivisionOperation.tsx:86-89 | once the running value reaches the divisor, the quotient has enough digits, so `digitIndex >= 0` |
| DivisionOp.DivideEntry | src/operations/DivisionOperation.tsx:86-99 | the quotient digit is a single digit and the new running value is the old one modulo the divisor |
| DivisionOp.RunInv | src/operations/DivisionOperation.tsx:76-109 | all passes but the last keep the loop invariant |
| DivisionOp.LastPass | src/operations/DivisionOperation.tsx:79-109 | the last pass always divides and brings nothing down, the two entry arrays stay equally long with twice as many steps as entries, and the last remainder is `dividend mod divisor` |
| DivisionOp.LongLessonSpec | src/operations/DivisionOperation.tsx:70-116 | for `quotient = dividend div divisor`, the long lesson has `2E + 1` steps for its `E` entry pairs, opens with the introduction, ends with the final answer, every divide step speaks a digit quotient with `subtraction = divisor * digit` and a remainder below the divisor, and the last remainder is the problem's |
| DivisionOp.EasyDotsSpec | src/operations/DivisionOperation.tsx:146-150 | the easy picture has one dot per unit of the dividend: `divisor * quotient` purple ones and `remainder` pink ones |
| DivisionOp.ScreenFor | src/operations/DivisionOperation.tsx:24-41 | a drawn problem's screen satisfies `dividend = divisor * quotient + remainder` with the remainder below the divisor, and its cursor is at the start |
| DivisionOp.ScreenForLesson | src/operations/DivisionOperation.tsx:24-150 | an easy screen's picture accounts for the whole dividend, and a long screen's entries are consistent and end with the problem's remainder |
| DivisionOp.NextStep | src/operations/DivisionOperation.tsx:119-129 | a click keeps a reachable cursor reachable and never changes the lesson |
| DivisionOp.NewProblem | src/operations/DivisionOperation.tsx:24-41 | a new difficulty draws a problem with a divisor of at least 2 and a positive quotient, and puts the cursor back at the start |
| DivisionOp.RunIntro | src/operations/DivisionOperation.tsx:44-109 | the long loop only appends, so the lesson still opens with the introduction naming the dividend and the divisor |
| DivisionOp.CountPrefix | src/operations/DivisionOperation.tsx:146-150 | colouring the dots whose index is below `k` colours exactly `k` of them |
| Problems.DrawRange | src/utils/mathProblems.ts:11 | `Math.floor(Math.random() * k)` lies in `[0, k)` for positive `k`, is 0 for `k = 0` and lies in `[k, 0]` for negative `k` |
| Problems.DrawOnto | src/utils/mathProblems.ts:11 | every value in `[0, k)` is drawn by some `Math.random()` result |
| Problems.GenerateAddition | src/utils/mathProblems.ts:4-66 | every generated problem's sum is the sum of its two addends |
| Problems.AddLevel1Range | src/utils/mathProblems.ts:9-13 | level 1 poses a first addend from 1 to 9, a positive second addend and a sum of at most 10 |
| Problems.AddLevel1ReachesTen | src/utils/mathProblems.ts:9-13 | the sum 10 is reachable at level 1, although the comment promises sums below 10 |
| Problems.AddLevel3Sum | src/utils/mathProblems.ts:24-56 | levels 3 and 4 keep the target sum drawn first, which lies in `[100, 1999]`, whatever the carry adjustments do to the addends |
| Problems.AddDefaultRange | src/utils/mathProblems.ts:57-60 | any other level poses two three-digit addends |
| Problems.AddLevel2CarryNotForced | src/utils/mathProblems.ts:19-22 | the forced ones carry is not forced when the second addend ends in 0: `10 + 10` becomes `21 + 10` |
| Problems.AddLevel1FixedSpec | src/utils/mathProblems.ts:9-13 | with the first addend drawn from 1 to 8, level 1 always poses two positive addends with a sum below 10 |
| Problems.AddLevel1FixedOnto | src/utils/mathProblems.ts:9-13 | every pair of positive addends with a sum below 10 is posed by some draws of the corrected level 1 |
| Problems.AddLevel2FixedCarries | src/utils/mathProblems.ts:14-22 | the corrected level 2 poses two two-digit addends and at least one column always carries |
| Problems.ForcedCarry | src/utils/mathProblems.ts:19-22 | the corrected adjustment keeps both addends two-digit and makes the ones column reach 10 |
| Problems.ForceCarryCarries | src/utils/mathProblems.ts:19-22 | on any two two-digit addends the corrected adjustment keeps them two-digit and leaves a column that carries |
| Problems.AddLevel2FixedAgrees | src/utils/mathProblems.ts:14-22 | the corrected level 2 poses the code's problem exactly unless the adjustment fires on a second ones digit of 0 or 1 |
| Problems.GenerateSubtraction | src/utils/mathProblems.ts:69-132 | every generated problem's difference is the minuend minus the subtrahend |
| Problems.SubLevel1Range | src/utils/mathProblems.ts:74-78 | level 1 poses a subtrahend from 1 to 9 below a minuend of at most 10 |
| Problems.SubDefaultRange | src/utils/mathProblems.ts:119-126 | any other level poses a minuend larger than the subtrahend, at most 599 |
| Problems.SubLevel2Negative | src/utils/mathProblems.ts:79-97 | level 2 can pose `10 - 15`: the ones-digit swap breaks the order the earlier check established |
| Problems.SubLevel3Negative | src/utils/mathProblems.ts:98-118 | levels 3 and 4 can pose `92 - 103`: the digit adjustments make the minuend smaller than the subtrahend |
| Problems.SubLevel2Apart | src/utils/mathProblems.ts:79-97 | level 2's ones-digit swap never leaves the two numbers equal |
| Problems.SubLevel3Apart | src/utils/mathProblems.ts:98-118 | the level 3 and 4 digit adjustments always leave the minuend's ones digit different from the subtrahend's, so the numbers differ |
| Problems.GeneratedNumbersDiffer | src/utils/mathProblems.ts:72-126 | whatever the level and draws, the two numbers posed are never equal, so putting the larger first gives a strict order |
| Problems.OrderedSubtractionSound | src/utils/mathProblems.ts:84-87 | the generator with the promised order restored poses the same two numbers, the minuend strictly larger than the subtrahend, so the difference is positive |
| Problems.PageIgnoresDifficulty | src/pages/Operation.tsx:74-76 | the screens pass a difficulty string to a switch on numbers, so every difficulty gets the same three-digit problems for the same draws |
| Problems.LevelOf | src/operations/AdditionOperation.tsx:23 | the difficulties easy, medium and hard stand for class levels 1, 2 and 3, each for exactly that difficulty |
| Problems.LevelledDifficultyMatters | src/utils/mathProblems.ts:9-56 | with the level passed, easy keeps sums up to 10 and hard gives sums of at least 100, so the two never pose the same problem |
| Problems.LevelledSubtractionSound | src/utils/mathProblems.ts:69-132 | with the level passed and the order restored, every difficulty poses a non-negative difference, and easy stays within 10 |
| Problems.GenerateMultiplication | src/utils/mathProblems.ts:135-160 | every generated problem's product is the product of its factors |
| Problems.MultiplicationRanges | src/utils/mathProblems.ts:139-155 | easy draws factors in `[1,10]`, medium a two-digit by a one-digit factor, hard two two-digit factors, and any other difficulty leaves `0 * 0` |
| Problems.GenerateDivision | src/utils/mathProblems.ts:163-194 | the dividend is built as divisor times quotient plus remainder |
| Problems.DivisionProblemSpec | src/utils/mathProblems.ts:169-191 | for each difficulty the remainder is below a divisor of at least 2, so quotient and remainder are those of the dividend, within each difficulty's ranges |
| ShapesLesson.Shapes | src/operations/ShapesOperation.tsx:15-58 | the lesson's table holds six shapes, no two with the same name |
| ShapesLesson.SidesMatchVertices | src/operations/ShapesOperation.tsx:15-58 | every shape has as many corners as sides, only the circle has none, and every polygon has at least three |
| ShapesLesson.Speak | src/operations/ShapesOperation.tsx:87-96 | an instruction is spoken, word for word, exactly when the lesson is not muted |
| ShapesLesson.Advance | src/operations/ShapesOperation.tsx:77-85 | before the last shape, Next Shape shows the next one with its properties hidden; at the last it completes the lesson and reports completion; the index always names a shape |
| ShapesLesson.NextShape | src/operations/ShapesOperation.tsx:73-85 | a click that shows a new shape introduces that shape, unless muted; a click that completes says nothing new |
| ShapesLesson.ToggleMute | src/operations/ShapesOperation.tsx:105-115 | the mute button flips the flag and cancels speech exactly when it turns muting on |
| ShapesLesson.MutedIsSilent | src/operations/ShapesOperation.tsx:87-88 | once muted, no click of Next Shape speaks, and the lesson stays muted |
| ShapesLesson.Clicks | src/operations/ShapesOperation.tsx:77-85 | any number of clicks keeps the index on a shape |
| ShapesLesson.ClicksFromStart | src/operations/ShapesOperation.tsx:77-85 | `k` clicks from shape `i` show shape `min(i + k, 5)`, complete the lesson exactly when `i + k >= 6`, and report completion once then and never before |
| Sidebar.Remove | src/components/Sidebar.tsx:83 | the filtered list holds exactly the other classes, and filtering out an absent class changes nothing |
| Sidebar.Toggle | src/components/Sidebar.tsx:80-86 | toggling a class expands it exactly when it was collapsed and leaves every other class as it was |
| Sidebar.RemoveDistinct | src/components/Sidebar.tsx:83 | filtering a list without repeats leaves a list without repeats |
| Sidebar.ToggleDistinct | src/components/Sidebar.tsx:80-86 | the expanded list never holds a class twice |
| Sidebar.RemoveAppend | src/components/Sidebar.tsx:83-84 | filtering out a class that was just appended to a list not holding it gives back that list |
| Sidebar.ToggleTwice | src/components/Sidebar.tsx:80-86 | expanding a collapsed class and collapsing it again restores the list exactly |
| Sidebar.ToggleTwiceExpanded | src/components/Sidebar.tsx:80-86 | collapsing and re-expanding an expanded class moves it to the end of the list |
| Sidebar.NameInjective | src/components/Sidebar.tsx:16-74 | different operations have different labels |
| Sidebar.Operations | src/components/Sidebar.tsx:16-74 | each class's links are one per operation of the class, opening with Addition then Subtraction, no label listed twice |
| Sidebar.SlugInjective | src/components/Sidebar.tsx:16-74 | different operations have different path segments |
| Sidebar.Kinds | src/components/Sidebar.tsx:16-74 | every class lists four to six operations, starting with Addition then Subtraction |
| Sidebar.KindsDistinct | src/components/Sidebar.tsx:16-74 | no class lists an operation twice |
| Sidebar.ClassOperations | src/components/Sidebar.tsx:16-111 | the sidebar shows eight classes |
| Sidebar.PathInjective | src/components/Sidebar.tsx:16-74 | a path "/operation/class" determines both the operation and the class |
| Sidebar.PathsUnique | src/components/Sidebar.tsx:16-90 | no two links in the sidebar share a path, so each link navigates to its own page |
| Sidebar.ClassNamesDistinct | src/components/Sidebar.tsx:16-112 | the eight headings are distinct, so each is a valid React key and toggling one never affects another |
| FractionSections.Sections | src/operations/FractionOperation.tsx:24-46 | the page has four sections, all different, so their ids are distinct keys |
| FractionSections.Rendered | src/operations/FractionOperation.tsx:86-132 | with all shown every section renders; on the tour the active section renders exactly when the index names a section, and otherwise (`None`) the render reads `.id` of undefined and throws a TypeError |
| FractionSections.AutoAdvance | src/operations/FractionOperation.tsx:13-22 | as written, the timer moves the tour on while the index is below 4 and never while all sections are shown |
| FractionSections.AutoAdvancePastEnd | src/operations/FractionOperation.tsx:15-88 | from the last section the timer moves to index 4, where `sections[4].id` reads `.id` of undefined and the render throws |
| FractionSections.AutoAdvanceFixed | src/operations/FractionOperation.tsx:13-22 | the timer bounded by the number of sections moves on only before the last section and keeps the index on a section |
| FractionSections.Previous | src/operations/FractionOperation.tsx:100 | Previous moves back one section but never below the first, and keeps the index on a section |
| FractionSections.Next | src/operations/FractionOperation.tsx:112 | Next moves on one section but never past the last, and keeps the index on a section |
| FractionSections.Dot | src/operations/FractionOperation.tsx:70-73 | a navigation dot jumps to its own section and keeps the view |
| FractionSections.ToggleShowAll | src/operations/FractionOperation.tsx:57 | the view button flips between all sections and the tour and keeps the index |
| FractionSections.FixedStaysInRange | src/operations/FractionOperation.tsx:13-113 | with the bounded timer, every run of clicks and ticks keeps the active index on a section |
| FractionSections.FourTicksBreakTheTour | src/operations/FractionOperation.tsx:13-88 | as written, four ticks from the start leave the tour at index 4, where the render throws a TypeError reading `sections[4].id` |
| FractionSections.ShowAllFreezesTour | src/operations/FractionOperation.tsx:15 | while all sections are shown, the timer never moves the index, as written or bounded |
| ComparisonGame.Bank | src/components/ComparisonGame.tsx:17-28 | eight questions: the first four single-digit on a line to 10, the last four two-digit on a line to 30 |
| ComparisonGame.MaxValue | src/components/ComparisonGame.tsx:40 | a set number-line end is used as it is; a missing or zero end falls back to one covering both numbers and at least 10 |
| ComparisonGame.BankFitsNumberLine | src/components/ComparisonGame.tsx:17-40 | both numbers of every question in the bank lie on its number line |
| ComparisonGame.Trichotomy | src/components/ComparisonGame.tsx:53-56 | exactly one of `<`, `>` and `=` is judged correct for every question |
| ComparisonGame.MoveTo | src/components/ComparisonGame.tsx:42-48 | moving to another question clears the selection, the verdict and the result, and keeps the score |
| ComparisonGame.Select | src/components/ComparisonGame.tsx:173-185 | an answer button records that answer and changes nothing else |
| ComparisonGame.Check | src/components/ComparisonGame.tsx:50-74 | without a selection nothing happens; with one, the verdict is whether the relation holds, the score grows by one exactly when it does, and the result shows |
| ComparisonGame.Next | src/components/ComparisonGame.tsx:76-92 | before the last question Next moves on one and announces nothing; at the last it completes the game and announces a score; the score never changes |
| ComparisonGame.NextFixed | src/components/ComparisonGame.tsx:76-92 | the announcement that uses the score as it stands makes the same moves and announces exactly the current score |
| ComparisonGame.Reset | src/components/ComparisonGame.tsx:94-101 | Play Again restarts at question 0 with score 0 and poses a permutation of the same questions |
| ComparisonGame.ApplyKeepsScoreInv | src/components/ComparisonGame.tsx:50-222 | every move the screen offers keeps the score at most one per question answered so far |
| ComparisonGame.FinalScoreBound | src/components/ComparisonGame.tsx:76-92 | on the results screen the score is at most the number of questions |
| ComparisonGame.AnnouncementOverCounts | src/components/ComparisonGame.tsx:59-83 | as written, eight right answers are announced as "9 out of 8": the check has already counted the last answer and the announcement adds it again |
| ComparisonGame.FixedAnnouncementBound | src/components/ComparisonGame.tsx:83 | the corrected announcement equals the final score and never exceeds the number of questions |
| InteractiveFractions.Questions | src/components/fraction/InteractiveFractions.tsx:54-82 | three questions with ids 1 to 3, each answer a proper fraction with a positive numerator |
| InteractiveFractions.AnswersOfferable | src/components/fraction/InteractiveFractions.tsx:54-197 | every right answer can be entered with the buttons, and each is a proper fraction |
| InteractiveFractions.PickNumerator | src/components/fraction/InteractiveFractions.tsx:178-187 | a numerator button records that numerator and changes nothing else |
| InteractiveFractions.PickDenominator | src/components/fraction/InteractiveFractions.tsx:197-206 | a denominator button records that denominator and changes nothing else |
| InteractiveFractions.CheckAnswer | src/components/fraction/InteractiveFractions.tsx:84-134 | with a part missing nothing happens; otherwise the verdict is right exactly when both parts match, the score grows by one exactly then, the picks clear, and after the last question the round announces its score and starts over at 0 |
| InteractiveFractions.CheckKeepsScoreInv | src/components/fraction/InteractiveFractions.tsx:84-134 | checking keeps the score at most the number of questions answered in the round, so the end-of-round announcement never exceeds three |
| InteractiveFractions.OnlyTheAnswerScores | src/components/fraction/InteractiveFractions.tsx:96-99 | after picking a numerator and a denominator, the answer is accepted exactly when the pair equals the right pair, so `2/4` is not accepted for `1/2` |
| PatternItems.DrawsCoverAll | src/components/pattern/game/FindNextShape.tsx:51-52 | every shape and every colour is the result of some draw |
| PatternItems.Tile | src/components/pattern/game/FindNextShape.tsx:57-59 | the repeated pattern has the requested length and entry `i` is base entry `i mod base length` |
| PatternItems.TilePeriodic | src/components/pattern/game/FindNextShape.tsx:57-59 | a pattern at least one base long repeats with the base's length as period and starts with the base |
| PatternItems.TileExtends | src/components/pattern/game/FindNextShape.tsx:57-64 | the pattern one longer is the pattern followed by base entry `length mod base length`, which is the answer the game expects |
| Shuffle.Swap | src/components/pattern/game/FindNextShape.tsx:83 | the destructuring swap exchanges the two entries, keeps every other one and keeps the multiset |
| Shuffle.FisherYates | src/components/pattern/game/FindNextShape.tsx:80-84 | the shuffle keeps the length |
| Shuffle.FisherYatesPermutes | src/components/pattern/game/FindNextShape.tsx:80-84 | the shuffle is a permutation: every element keeps its multiplicity |
| Shuffle.NoSwaps | src/components/pattern/game/FindNextShape.tsx:81-82 | drawing `j = i` at every step is a valid run of draws |
| Shuffle.FisherYatesIdentity | src/components/pattern/game/FindNextShape.tsx:80-84 | the draws that swap nothing leave the options in their order, so the answer can end up last |
| Shuffle.Collect | src/components/pattern/game/FindNextShape.tsx:66-77 | a distractor loop that finishes holds exactly three candidates and extends what it held |
| Shuffle.CollectSpec | src/components/pattern/game/FindNextShape.tsx:66-77 | the three distractors are distinct, acceptable, different from the answer, and drawn by the loop |
| Shuffle.CollectFinishes | src/components/pattern/game/FindNextShape.tsx:66-77 | three acceptable, distinct candidates other than the answer drawn in a row finish the loop with exactly them |
| Shuffle.Options | src/components/pattern/game/FindNextShape.tsx:79-86 | the options are a permutation of the distractors followed by the answer |
| Shuffle.OptionsSpec | src/components/pattern/game/FindNextShape.tsx:63-86 | with three distinct distractors other than the answer, the four options are distinct and hold the answer exactly once |
| Shuffle.DistinctMultiset | src/components/pattern/game/FindNextShape.tsx:72-75 | a list without repeats holds each of its elements once |
| Shuffle.MultisetDistinct | src/components/pattern/game/FindNextShape.tsx:80-84 | a permutation of a list without repeats has no repeats |
| AnswerState.Fresh | src/components/pattern/game/FindNextShape.tsx:33-37 | a new puzzle clears the selection, the verdict and the hint and keeps the score |
| AnswerState.Select | src/components/pattern/game/FindNextShape.tsx:96-121 | once a verdict exists a click changes nothing; otherwise it records the option and the verdict and adds 2 points for a right answer, 1 after a hint, none for a wrong one |
| AnswerState.Hint | src/components/pattern/game/FindNextShape.tsx:124-125 | the hint sets the hint flag and changes nothing else |
| AnswerState.OneVerdict | src/components/pattern/game/FindNextShape.tsx:97 | the first answer is final: a second click never changes the state |
| AnswerState.ScoreBound | src/components/pattern/game/FindNextShape.tsx:107-111 | a puzzle is worth at most 2 points, and a wrong answer none |
| FindNextShape.RepeatLength | src/components/pattern/game/FindNextShape.tsx:47-128 | the block repeats every 2 or 3 shapes, and every 2 exactly up to level 2 |
| FindNextShape.PatternLength | src/components/pattern/game/FindNextShape.tsx:40 | from level 1 the pattern shows 3 to 7 shapes, at least one block, and 7 exactly from level 8 on |
| FindNextShape.Continuation | src/components/pattern/game/FindNextShape.tsx:64-102 | reading `pattern[pattern.length % repeatLength]` yields a shape exactly when that index lies inside the pattern |
| FindNextShape.Generate | src/components/pattern/game/FindNextShape.tsx:33-88 | a new puzzle shows the base repeated to the level's length, with a fresh answering state and four options |
| FindNextShape.GenerateSpec | src/components/pattern/game/FindNextShape.tsx:33-88 | the expected answer is the shape that continues the tiling, and it is among four distinct options |
| FindNextShape.SelectOption | src/components/pattern/game/FindNextShape.tsx:96-121 | a first answer is judged right exactly when the option equals the continuation; the puzzle is unchanged |
| FindNextShape.ExactlyOneAccepted | src/components/pattern/game/FindNextShape.tsx:63-121 | on a generated puzzle exactly one of the four options is accepted |
| FindNextShape.ShowHint | src/components/pattern/game/FindNextShape.tsx:124-125 | the hint marks the hint as used and keeps the puzzle |
| CompletePattern.RepeatLength | src/components/pattern/game/CompletePattern.tsx:47-182 | from level 1 the block repeats every 2 to 4 shapes: 2 exactly up to level 2, 4 exactly from level 5 |
| CompletePattern.PatternLength | src/components/pattern/game/CompletePattern.tsx:39 | from level 1 the pattern shows 5 to 9 shapes, at least one block |
| CompletePattern.BuildBase | src/components/pattern/game/CompletePattern.tsx:48-82 | the base loop builds one item per draw |
| CompletePattern.BuildBaseComplex | src/components/pattern/game/CompletePattern.tsx:52-74 | from level 4 on, each base item differs from the one before in exactly one of shape and colour |
| CompletePattern.DrawsFor | src/components/pattern/game/CompletePattern.tsx:48-82 | for every base there is a run of draws of its length |
| CompletePattern.DrawsForBuild | src/components/pattern/game/CompletePattern.tsx:52-82 | every base that changes one attribute per item is built by some run of draws the loops can exit with, so the invariant is exact |
| CompletePattern.WithGap | src/components/pattern/game/CompletePattern.tsx:94-96 | the shown pattern has a hole at the gap and the pattern's shape everywhere else |
| CompletePattern.Fill | src/components/pattern/game/CompletePattern.tsx:136-137 | the filled pattern holds the chosen option at the gap and the shown shape everywhere else |
| CompletePattern.FillAnswer | src/components/pattern/game/CompletePattern.tsx:94-137 | filling the gap with the shape removed from it gives the pattern back |
| CompletePattern.CheckBase | src/components/pattern/game/CompletePattern.tsx:143-147 | the extracted base has one item per block position |
| CompletePattern.AcceptsSound | src/components/pattern/game/CompletePattern.tsx:143-159 | whatever the check as written accepts repeats with the level's period |
| CompletePattern.BlockIsBase | src/components/pattern/game/CompletePattern.tsx:143-147 | when the gap's block lies inside the pattern, the extracted base is the base the pattern was tiled from |
| CompletePattern.AcceptsAnswerInBlock | src/components/pattern/game/CompletePattern.tsx:130-159 | when the gap's block lies inside the pattern, the missing shape is accepted |
| CompletePattern.WrapRejectsAll | src/components/pattern/game/CompletePattern.tsx:145 | at level 1 with the gap at index 4 the block wraps round, and every option, the missing shape included, is rejected |
| CompletePattern.AcceptsFixedSpec | src/components/pattern/game/CompletePattern.tsx:143-159 | the check that reads the base from the first block accepts exactly the fillings that repeat, and always accepts the missing shape |
| CompletePattern.AcceptsFixedUnique | src/components/pattern/game/CompletePattern.tsx:143-159 | when the gap's column occurs elsewhere in the pattern, the corrected check accepts only the missing shape |
| CompletePattern.LoneColumnAcceptsAll | src/components/pattern/game/CompletePattern.tsx:39-159 | at level 5 with the gap at index 3, the only item in its column, both checks accept every option |
| CompletePattern.Generate | src/components/pattern/game/CompletePattern.tsx:32-122 | a new puzzle has one gap in a pattern of the level's length, four options and a fresh answering state |
| CompletePattern.GenerateOptions | src/components/pattern/game/CompletePattern.tsx:95-120 | the four options are distinct and include the missing shape |
| CompletePattern.SelectOption | src/components/pattern/game/CompletePattern.tsx:130-176 | with the check as written, a second click changes nothing and an accepted first answer completes a repeating pattern |
| CompletePattern.SelectOptionFixed | src/components/pattern/game/CompletePattern.tsx:130-176 | with the corrected check, a first answer is accepted exactly when it completes a repeating pattern |
| CompletePattern.FixedAcceptsAnswer | src/components/pattern/game/CompletePattern.tsx:32-176 | with the corrected check, some option is accepted on every generated puzzle |
| CompletePattern.ShowHint | src/components/pattern/game/CompletePattern.tsx:179-196 | the hint only marks the hint as used and keeps the puzzle |
| CreatePattern.PaletteRows | src/components/pattern/game/CreatePattern.tsx:25-35 | the two palette loops list the kept colours of each shape in the order of the colour list, shape by shape |
| CreatePattern.Blocks | src/components/pattern/game/CreatePattern.tsx:29-32 | each shape keeps four different colours |
| CreatePattern.JoinBlocks | src/components/pattern/game/CreatePattern.tsx:25-35 | joining repeat-free blocks of different shapes gives a list without repeats |
| CreatePattern.CountBlock | src/components/pattern/game/CreatePattern.tsx:29-32 | a shape's block holds four items of that shape and none of any other |
| CreatePattern.CountShapeAppend | src/components/pattern/game/CreatePattern.tsx:25-35 | counting a shape over two joined lists adds the two counts |
| CreatePattern.PaletteContents | src/components/pattern/game/CreatePattern.tsx:22-35 | the palette built has sixteen distinct items, exactly the kept combinations, four of each shape |
| CreatePattern.Palette | src/components/pattern/game/CreatePattern.tsx:37-43 | the shuffled palette still has sixteen items |
| CreatePattern.PaletteSpec | src/components/pattern/game/CreatePattern.tsx:22-44 | the shuffled palette is a permutation of the sixteen pairs, has no repeats, and holds a shape-colour pair exactly when it is a kept combination |
| CreatePattern.AddShape | src/components/pattern/game/CreatePattern.tsx:48-56 | below twelve items a shape is appended and selected; at twelve nothing changes, so the pattern never grows past twelve |
| CreatePattern.RemoveLast | src/components/pattern/game/CreatePattern.tsx:58-63 | removing drops exactly the last item and does nothing to an empty pattern |
| CreatePattern.RemoveUndoesAdd | src/components/pattern/game/CreatePattern.tsx:48-63 | removing undoes an add that was not refused |
| CreatePattern.Clear | src/components/pattern/game/CreatePattern.tsx:65-69 | clearing empties the pattern and stops playback, keeping the palette and the selection |
| CreatePattern.RepeatsWith | src/components/pattern/game/CreatePattern.tsx:178-188 | the inner repeat loop succeeds exactly when the pattern repeats with that period |
| CreatePattern.MismatchNotPeriodic | src/components/pattern/game/CreatePattern.tsx:183-186 | one item that differs from its counterpart in the first block rules the period out, so the early `break` is sound |
| CreatePattern.MatchesPeriodic | src/components/pattern/game/CreatePattern.tsx:179 | starting the comparison at the period suffices, since the first block matches itself |
| CreatePattern.Detect | src/components/pattern/game/CreatePattern.tsx:134-198 | each flag holds exactly when its property does: one shape, one colour, alternating shapes or colours from four items on, and a repetition from six items on, reported with its shortest period |
| CreatePattern.Analyze | src/components/pattern/game/CreatePattern.tsx:105-131 | fewer than four items ask for more; otherwise each message is reported exactly when its property holds and no earlier one does, in the order repeat (with the smallest period), alternating colours, alternating shapes, one shape, one colour, and the general message |
| CreatePattern.Play | src/components/pattern/game/CreatePattern.tsx:72-85 | an empty pattern is refused and changes nothing; otherwise playback starts before the first item and the pattern is analysed |
| GrowingPattern.Choose | src/components/pattern/game/GrowingPattern.tsx:43-65 | the rule adds exactly up to level 4 or when the high-level draw picks it; adding steps by 1 up to level 2, by 2 up to level 4, and by 1 to 3 beyond; multiplying always doubles |
| GrowingPattern.ChooseCoversHighLevels | src/components/pattern/game/GrowingPattern.tsx:60-65 | above level 6 each of the four growths is drawn by some draw |
| GrowingPattern.Start | src/components/pattern/game/GrowingPattern.tsx:67-71 | the starting count lies in 1 to 3, and is 1 up to level 3 |
| GrowingPattern.Run | src/components/pattern/game/GrowingPattern.tsx:74-82 | the loop pushes exactly the requested number of values |
| GrowingPattern.TermStep | src/components/pattern/game/GrowingPattern.tsx:77-81 | growing the `k`-th term once gives the next term of the closed form |
| GrowingPattern.RunTerms | src/components/pattern/game/GrowingPattern.tsx:74-82 | the loop's `i`-th value is the `i`-th term of the closed form `start + k * increment` or `start * increment^k` |
| GrowingPattern.Pattern | src/components/pattern/game/GrowingPattern.tsx:74-84 | the pattern has four rows |
| GrowingPattern.PatternSpec | src/components/pattern/game/GrowingPattern.tsx:74-87 | the rows are the first four terms and the expected answer is the fifth |
| GrowingPattern.PatternValues | src/components/pattern/game/GrowingPattern.tsx:74-87 | concretely, `s, s+i, s+2i, s+3i` with answer `s+4i`, or `s, 2s, 4s, 8s` with answer `16s` |
| GrowingPattern.JudgeFallback | src/components/pattern/game/GrowingPattern.tsx:151-154 | rows that follow neither rule accept every option |
| GrowingPattern.JudgeGenerated | src/components/pattern/game/GrowingPattern.tsx:141-156 | on generated rows the verdict re-derived from the pattern accepts an option exactly when it is the expected answer |
| GrowingPattern.HintGenerated | src/components/pattern/game/GrowingPattern.tsx:175-191 | on generated rows the hint names the rule's own increment, or a ratio of 2 |
| GrowingPattern.Candidates | src/components/pattern/game/GrowingPattern.tsx:94-116 | the adding rule offers five wrong-answer candidates and the multiplying rule six |
| GrowingPattern.Picks | src/components/pattern/game/GrowingPattern.tsx:104-115 | each pick is the candidate at its drawn index |
| GrowingPattern.CandidatesSuffice | src/components/pattern/game/GrowingPattern.tsx:89-122 | for every reachable pattern the first three candidates are positive, distinct and wrong, so the distractor loop can finish |
| GrowingPattern.Rows | src/components/pattern/game/GrowingPattern.tsx:43-84 | the rows the level's draws give are positive, so every ratio the check forms is defined |
| GrowingPattern.Generate | src/components/pattern/game/GrowingPattern.tsx:29-133 | a new puzzle shows the first four terms of the chosen growth, with four options and a fresh answering state |
| GrowingPattern.GenerateSpec | src/components/pattern/game/GrowingPattern.tsx:29-172 | the options are distinct and positive, include the fifth term, and the check accepts an option exactly when it is the fifth term |
| GrowingPattern.SelectOption | src/components/pattern/game/GrowingPattern.tsx:136-172 | a second click changes nothing; on adding rows a first answer is right exactly when it continues the common difference |
| GrowingPattern.ShowHint | src/components/pattern/game/GrowingPattern.tsx:175-176 | the hint marks the hint as used and keeps the puzzle |

## Left out

- Speech synthesis, sound effects, toasts and `onComplete` callbacks are I/O. A spoken line or a completion is modelled only as a returned value or flag.
- Timers and auto-play are not modelled: auto-play in the multiplication and long-division visualisers, the staged reveal of the digit grid, the hint animations, `playPattern`'s playback loop, fireworks and confetti. Where a timer changes an index, the change is modelled as a plain event: the fraction tour's auto-advance, the fractions quiz's delayed advance, and the poster's answer timer.
- `Math.random()` is not modelled as a generator. Each draw is a parameter bounded to the draw's range.
- `DecimalOperation`, `LongDivisionSteps`, the racing and train animations, the routing and page shells, and the presentational components are not modelled. Their logic is floating-point layout or rendering only.
- `window.location.reload`, navigation, styling, icons and shape images are not modelled.
- Large inputs are out of scope: `parseInt` and JavaScript numbers lose precision above 2^53, and the model uses unbounded integers throughout.
- GrowingPattern.Candidates: `Math.floor(answer * 1.2)` and `Math.floor(answer * 0.8)` are taken as exact decimal scaling. The float products can differ only in the last place, and floors of small integers times 1.2 or 0.8 agree.
- GrowingPattern.Judge: the checker's float ratios `p1/p0 === p2/p1` are modelled as exact ratios by cross-multiplication. This is exact for the small positive counts the game produces.
- ComparisonGame.Reset: the `sort(() => Math.random() - 0.5)` shuffle is modelled as a Fisher-Yates shuffle with arbitrary draws. Its contract only promises some permutation, which is all a random comparator guarantees.
- FindNextShape.Generate, CompletePattern.Generate: each requires `level >= 1`. The level selector offers 1 to 5 and the prop defaults to 1.
- FindNextShape.Generate, CompletePattern.Generate, GrowingPattern.Generate, Shuffle.CollectSpec: the distractor loop is modelled over a given finite list of draws and required to finish. A `while` loop over random draws has no bound, and only its outcome when it ends is specified.
- DivisionOp.GenerateDivisionSteps: the long mode requires a positive divisor. The page only reaches a zero divisor through an unknown difficulty.
- DivisionOp.NewProblem: requires one of the three difficulties, for the same reason.
- DivisionOp.LongLessonSpec: requires the quotient and remainder to be those of the dividend. The generator guarantees this, as Problems.DivisionProblemSpec shows.
- LongDivision.ValidateInput: the `Number.isInteger` check is left implicit. `parseInt` only ever yields integers, so the check never fails.
- ComparisonGame.Apply, CompletePattern.SelectOption and the other handlers model a disabled or hidden button by an enabledness predicate. A press the screen does not offer is not modelled.

## Findings

| source | as written | input that shows it | evidently intended | confidence | as-written member | corrected member |
|---|---|---|---|---|---|---|
| src/components/pattern/game/CompletePattern.tsx:145 | the base block is read at `(gap - gap % r + i) % length`, which wraps past the end | level 1: five items `x y x y x`, gap at index 4, `x != y` | the missing shape completes the pattern and is accepted | high, not executed | CompletePattern.WrapRejectsAll | CompletePattern.AcceptsFixedSpec |
| src/operations/FractionOperation.tsx:15 | the auto-advance timer runs while `activeSection < 4` | four timer ticks from section 0: `sections[4].id` at line 88 then reads `.id` of undefined and the render throws a TypeError | the tour stops at the last of the four sections, index 3 | high, not executed | FractionSections.FourTicksBreakTheTour | FractionSections.FixedStaysInRange |
| src/utils/mathProblems.ts:81-96 | level 2 draws `num2` from `num1` while `num1` is 0, then swaps ones digits | level 2 draws giving 15 and 10, which become `10 - 15` | the minuend is larger than the subtrahend | high, not executed | Problems.SubLevel2Negative | Problems.OrderedSubtractionSound |
| src/operations/AdditionOperation.tsx:45-76 | carry indices are unshifted, so index 1 stands for the ones column only when there are two columns | `150 + 150`; the rendered list also has the wrong length for `9 + 1` and `155 + 155` (AdditionOp.ScreenLengthsDiffer) | the narration announces the carries the columns actually make | high, not executed | AdditionOp.AsWrittenWrongForThreeColumns | AdditionOp.CorrectedStepsSound |
| src/pages/Operation.tsx:74-76 | the difficulty string is passed to generators that switch on a class-level number | difficulty "easy" | easy problems for easy, harder ones for hard | high, not executed | Problems.PageIgnoresDifficulty | Problems.LevelledDifficultyMatters |
| src/operations/FactorialOperation.tsx:76 | the final line reads the last entry of `intermediateResults`, which is empty for `n = 0` | `n = 0` gives "The final result is undefined" | the final result is `0! = 1` | high, not executed | FactorialOp.ZeroFactorialUndefined | FactorialOp.FinalValueFixedSpec |
| src/utils/mathProblems.ts:9-13 | the first addend is drawn from 1 to 9, and the second is at least 1 | draws giving 9 and then 1: `9 + 1 = 10` | the sum stays below 10, as the code's comment says | high, not executed | Problems.AddLevel1ReachesTen | Problems.AddLevel1FixedSpec |
| src/utils/mathProblems.ts:14-22 | the adjustment gives the first addend the ones digit `10 - d + 1`, which is 11 or 10 when the second ones digit `d` is 0 or 1 | both draws 10: `10 + 10` becomes `21 + 10`, with no carry | at least one column carries | high, not executed | Problems.AddLevel2CarryNotForced | Problems.AddLevel2FixedCarries |
| src/utils/mathProblems.ts:98-118 | levels 3 and 4 adjust the digits of both numbers without restoring their order | draws giving 105 and 103: `92 - 103` | the minuend is larger than the subtrahend | high, not executed | Problems.SubLevel3Negative | Problems.OrderedSubtractionSound |
| src/components/ComparisonGame.tsx:83 | the end announcement adds the last answer to a score that already counts it | eight right answers are announced as "9 out of 8" | the announced score equals the final score | high, not executed | ComparisonGame.AnnouncementOverCounts | ComparisonGame.FixedAnnouncementBound |

=== FILE: addition.dfy ===
/**
  The column-addition lesson: which columns carry, and the narrated steps.
 */
module AdditionOp {
  import opened Digits
  import opened Columns
  import opened OperationCursor

  /**
    The carry flowing into place `i` when the loop of `calculateCarryValues` reaches it:
    0 at the ones place, then 1 exactly when the previous column's digits and carry reach 10.
   */
  function CarryIn(a: nat, b: nat, i: nat): (c: nat)
    ensures c <= 1
  {
    if i == 0 then 0
    else if ColumnDigit(a, i - 1) + ColumnDigit(b, i - 1) + CarryIn(a, b, i - 1) >= 10 then 1
    else 0
  }

  /** The `carries` array after `n` iterations: each new carry is `unshift`ed to the front. */
  function CarriesList(a: nat, b: nat, n: nat): (cs: seq<nat>)
    ensures |cs| == n
    ensures forall k :: 0 <= k < n ==> cs[k] == CarryIn(a, b, n - k)
  {
    if n == 0 then [] else [CarryIn(a, b, n)] + CarriesList(a, b, n - 1)
  }

  /** `carries.map((c, i) => c === 1 ? i : -1)`. */
  function MarkOnes(cs: seq<nat>): (m: seq<int>)
    ensures |m| == |cs|
    ensures forall k :: 0 <= k < |cs| ==> m[k] == (if cs[k] == 1 then k else -1)
  {
    seq(|cs|, k requires 0 <= k < |cs| => if cs[k] == 1 then k else -1)
  }

  /** `.filter(i => i !== -1)`. */
  function DropMinusOne(xs: seq<int>): (r: seq<int>)
    ensures |r| <= |xs|
  {
    if |xs| == 0 then []
    else if xs[0] == -1 then DropMinusOne(xs[1..])
    else [xs[0]] + DropMinusOne(xs[1..])
  }

  predicate StrictlyIncreasing(r: seq<int>) {
    forall j, k :: 0 <= j < k < |r| ==> r[j] < r[k]
  }

  /** Every entry of `xs` is either `-1` or its own position plus `off`. */
  predicate MarkedFrom(xs: seq<int>, off: nat) {
    forall k :: 0 <= k < |xs| ==> xs[k] == -1 || xs[k] == k + off
  }

  /**
    Filtering a marked list keeps exactly the marked positions, in increasing order.
   */
  lemma {:induction false} DropMarked(xs: seq<int>, off: nat)
    requires MarkedFrom(xs, off)
    ensures StrictlyIncreasing(DropMinusOne(xs))
    ensures forall v :: v in DropMinusOne(xs) ==> off <= v < off + |xs| && xs[v - off] == v
    ensures forall k :: 0 <= k < |xs| && xs[k] != -1 ==> xs[k] in DropMinusOne(xs)
    decreases |xs|
  {
    if |xs| > 0 {
      var tl := xs[1..];
      assert MarkedFrom(tl, off + 1) by {
        forall k | 0 <= k < |tl| ensures tl[k] == -1 || tl[k] == k + off + 1 {
          assert tl[k] == xs[k + 1];
        }
      }
      DropMarked(tl, off + 1);
      var rest := DropMinusOne(tl);
      forall v | v in rest ensures off + 1 <= v < off + |xs| && xs[v - off] == v {
        assert tl[v - off - 1] == xs[v - off];
      }
      forall k | 1 <= k < |xs| && xs[k] != -1 ensures xs[k] in rest {
        assert tl[k - 1] == xs[k];
      }
      DropCons(xs, off, rest, DropMinusOne(xs));
    }
  }

  /** One step of the filter: the head is dropped, or kept in front of a larger tail. */
  lemma DropCons(xs: seq<int>, off: nat, rest: seq<int>, r: seq<int>)
    requires |xs| > 0 && MarkedFrom(xs, off)
    requires r == if xs[0] == -1 then rest else [xs[0]] + rest
    requires StrictlyIncreasing(rest)
    requires forall v :: v in rest ==> off + 1 <= v < off + |xs| && xs[v - off] == v
    requires forall k :: 1 <= k < |xs| && xs[k] != -1 ==> xs[k] in rest
    ensures StrictlyIncreasing(r)
    ensures forall v :: v in r ==> off <= v < off + |xs| && xs[v - off] == v
    ensures forall k :: 0 <= k < |xs| && xs[k] != -1 ==> xs[k] in r
  {
    if xs[0] != -1 {
      assert xs[0] == off;
      forall j, k | 0 <= j < k < |r| ensures r[j] < r[k] {
        if j == 0 {
          assert r[k] == rest[k - 1] && r[k] in rest;
        } else {
          assert r[j] == rest[j - 1] && r[k] == rest[k - 1];
        }
      }
    }
  }

  /** `calculateCarryValues(a, b)`: the positions of the 1s in the carries array. */
  function CalculateCarryValues(a: nat, b: nat): seq<int> {
    DropMinusOne(MarkOnes(CarriesList(a, b, MaxLength(a, b))))
  }

  /**
    The returned positions are strictly increasing and lie in `[0, maxLength)`, and
    position `k` is returned exactly when the column `maxLength - 1 - k` carries out,
    because the carries were `unshift`ed.
   */
  lemma CarryValuesSpec(a: nat, b: nat)
    ensures StrictlyIncreasing(CalculateCarryValues(a, b))
    ensures forall v :: v in CalculateCarryValues(a, b) ==> 0 <= v < MaxLength(a, b)
    ensures forall k :: 0 <= k < MaxLength(a, b) ==>
      (k in CalculateCarryValues(a, b) <==> CarryIn(a, b, MaxLength(a, b) - k) == 1)
  {
    var n := MaxLength(a, b);
    var cs := CarriesList(a, b, n);
    var m := MarkOnes(cs);
    assert MarkedFrom(m, 0);
    DropMarked(m, 0);
    var cv := DropMinusOne(m);
    assert cv == CalculateCarryValues(a, b);
    forall k | 0 <= k < n
      ensures k in cv <==> CarryIn(a, b, n - k) == 1
    {
      assert m[k] == (if cs[k] == 1 then k else -1);
      assert cs[k] == CarryIn(a, b, n - k);
    }
  }

  /** The ripple carry agrees with arithmetic: it is the overflow of the low `i` places. */
  lemma {:induction false} CarryInArith(a: nat, b: nat, i: nat)
    ensures CarryIn(a, b, i) == (a % Pow10(i) + b % Pow10(i)) / Pow10(i)
  {
    if i > 0 {
      var j := i - 1;
      CarryInArith(a, b, j);
      var p := Pow10(j);
      var s := a % p + b % p;
      var da, db := GetDigit(a, j), GetDigit(b, j);
      ModSplit(a, j);
      ModSplit(b, j);
      assert a % Pow10(i) + b % Pow10(i) == s + da * p + db * p;
      ColumnDigitIsGetDigit(a, j);
      ColumnDigitIsGetDigit(b, j);
      OverflowStep(p, s, da, db);
      assert Pow10(i) == 10 * p;
    }
  }

  /**
    One column of ripple carry in arithmetic terms: the low places sum to `s` (below
    `2p`), and the column's digits `da`, `db` are added at weight `p`.
   */
  lemma OverflowStep(p: nat, s: nat, da: nat, db: nat)
    requires p > 0 && s < 2 * p && da < 10 && db < 10
    ensures (s + da * p + db * p) / (10 * p) == (if s / p + da + db >= 10 then 1 else 0)
  {
    Euclid(s, p);
    var c, r := s / p, s % p;
    assert c <= 1 by {
      if c >= 2 {
        MulLe(2, c, p);
      }
    }
    var q: nat := if c + da + db >= 10 then 1 else 0;
    var y: nat := c + da + db - 10 * q;
    Collect(c, da, db, p, q, y);
    Regroup(q, y, p, r);
    DivModUnique(s + da * p + db * p, 10 * p, q, y * p + r);
  }

  lemma Collect(c: nat, da: nat, db: nat, p: nat, q: nat, y: nat)
    requires c + da + db == 10 * q + y
    ensures c * p + da * p + db * p == (10 * q + y) * p
  {
  }

  /** The digit of the sum at place `i` is the column's digits plus its carry, modulo 10. */
  lemma SumDigit(a: nat, b: nat, i: nat)
    ensures GetDigit(a + b, i) == (GetDigit(a, i) + GetDigit(b, i) + CarryIn(a, b, i)) % 10
  {
    CarryInArith(a, b, i);
    DigitOfSum(a, b, Pow10(i), CarryIn(a, b, i));
  }

  /** The digit of a sum at weight `p`: the addends' digits there plus the low places' overflow. */
  lemma DigitOfSum(a: nat, b: nat, p: nat, c: nat)
    requires p > 0 && c == (a % p + b % p) / p
    ensures ((a + b) / p) % 10 == ((a / p) % 10 + (b / p) % 10 + c) % 10
  {
    SplitSum(a, b, p);
    ModAdd(a / p, b / p, c);
  }

  /** Only the units of the addends matter to the units of a sum. */
  lemma ModAdd(x: int, y: int, c: int)
    ensures (x + y + c) % 10 == (x % 10 + y % 10 + c) % 10
  {
    assert x + y + c == 10 * (x / 10 + y / 10) + (x % 10 + y % 10 + c);
    ModTen(x / 10 + y / 10, x % 10 + y % 10 + c);
  }

  /** Adding two numbers split at weight `p`: the high parts add with the low parts' overflow. */
  lemma SplitSum(a: nat, b: nat, p: nat)
    requires p > 0
    ensures (a + b) / p == a / p + b / p + (a % p + b % p) / p
  {
    var c, r := (a % p + b % p) / p, (a % p + b % p) % p;
    assert a + b == (a / p + b / p + c) * p + r;
    DivModUnique(a + b, p, a / p + b / p + c, r);
  }

  lemma ModTen(k: int, m: int)
    ensures (10 * k + m) % 10 == m % 10
  {
    DivModUnique(10 * k + m, 10, k + m / 10, m % 10);
  }

  /** Column `k` of the result is 0 exactly when the sum gains a digit beyond `maxLength`. */
  lemma ZeroMeansNewDigit(a: nat, b: nat)
    ensures 0 in CalculateCarryValues(a, b) <==> a + b >= Pow10(MaxLength(a, b))
  {
    var n := MaxLength(a, b);
    CarryValuesSpec(a, b);
    CarryInArith(a, b, n);
    BelowMaxLength(a, b);
    SmallMod(a, n);
    SmallMod(b, n);
    if a + b >= Pow10(n) {
      DivModUnique(a + b, Pow10(n), 1, a + b - Pow10(n));
    } else {
      SmallMod(a + b, n);
    }
  }

  // ---------------------------------------------------------------------
  // Narration

  /** One lesson step, holding the numbers its narration speaks. */
  datatype AddStep =
    | Intro
    | OnesPlace(ones1: nat, ones2: nat, digit: nat, carries: bool)
    | CarryToTens
    | TensPlace(tens1: nat, tens2: nat, plusCarried: bool, digit: nat)
    | CarryToHundreds
    | Total(sum: nat)

  /** The order the steps appear in; the two carry announcements are optional. */
  function Layout(ones: AddStep, carryToTens: bool, tens: AddStep, carryToHundreds: bool, sum: nat): seq<AddStep> {
    [Intro, ones]
    + (if carryToTens then [CarryToTens] else [])
    + [tens]
    + (if carryToHundreds then [CarryToHundreds] else [])
    + [Total(sum)]
  }

  function OnesStep(num1: nat, num2: nat): AddStep {
    var o1, o2 := num1 % 10, num2 % 10;
    OnesPlace(o1, o2, (o1 + o2) % 10, o1 + o2 >= 10)
  }

  function TensPlaceStep(num1: nat, num2: nat, sum: nat, plusCarried: bool): AddStep {
    TensPlace((num1 % 100) / 10, (num2 % 100) / 10, plusCarried, (sum % 100) / 10)
  }

  /**
    The `steps` array as written: "carry to the tens" whenever any column carries,
    "plus the carried 1" when position 1 of the carries is set, and "carry to the
    hundreds" when position 0 is set.
   */
  function Steps(num1: nat, num2: nat, sum: nat, carries: seq<int>): seq<AddStep> {
    Layout(OnesStep(num1, num2), |carries| > 0, TensPlaceStep(num1, num2, sum, 1 in carries),
      0 in carries, sum)
  }

  function Ind(b: bool): nat {
    if b then 1 else 0
  }

  /** Where each step sits in a layout, and which announcements it holds. */
  lemma LayoutFacts(ones: AddStep, b1: bool, tens: AddStep, b2: bool, sum: nat)
    requires ones.OnesPlace? && tens.TensPlace?
    ensures var s := Layout(ones, b1, tens, b2, sum);
      |s| == 4 + Ind(b1) + Ind(b2)
      && s[0] == Intro && s[1] == ones && s[2 + Ind(b1)] == tens && s[|s| - 1] == Total(sum)
      && (CarryToTens in s <==> b1) && (CarryToHundreds in s <==> b2)
  {
  }

  /** The step list opens with the intro, closes with the total, and has `4 + [carries] + [0 in carries]` steps. */
  lemma StepsShape(num1: nat, num2: nat, sum: nat, carries: seq<int>)
    ensures |Steps(num1, num2, sum, carries)| == 4 + Ind(|carries| > 0) + Ind(0 in carries)
    ensures Steps(num1, num2, sum, carries)[0] == Intro
    ensures Steps(num1, num2, sum, carries)[|Steps(num1, num2, sum, carries)| - 1] == Total(sum)
  {
    LayoutFacts(OnesStep(num1, num2), |carries| > 0, TensPlaceStep(num1, num2, sum, 1 in carries),
      0 in carries, sum);
  }

  /**
    The narration with the carries read from the columns they belong to: the tens are
    told of a carry exactly when the ones carry, and the hundreds when the tens do.
   */
  function CorrectedSteps(num1: nat, num2: nat): seq<AddStep> {
    var fromOnes := CarryIn(num1, num2, 1) == 1;
    var fromTens := CarryIn(num1, num2, 2) == 1;
    Layout(OnesStep(num1, num2), fromOnes, TensPlaceStep(num1, num2, num1 + num2, fromOnes),
      fromTens, num1 + num2)
  }

  /**
    Every column the corrected narration speaks is true column arithmetic: the spoken
    digit is the digits plus the carried 1 modulo 10, and the next carry is announced
    exactly when that column reaches 10.
   */
  lemma CorrectedStepsSound(num1: nat, num2: nat, s: seq<AddStep>, o: AddStep, t: AddStep)
    requires s == CorrectedSteps(num1, num2) && o == OnesStep(num1, num2)
    requires t == TensPlaceStep(num1, num2, num1 + num2, CarryIn(num1, num2, 1) == 1)
    ensures s[1] == o && o.digit == GetDigit(num1 + num2, 0)
    ensures CarryToTens in s <==> o.ones1 + o.ones2 >= 10
    ensures s[2 + Ind(CarryToTens in s)] == t
    ensures t.digit == (t.tens1 + t.tens2 + Ind(t.plusCarried)) % 10
    ensures t.plusCarried <==> CarryToTens in s
    ensures CarryToHundreds in s <==> t.tens1 + t.tens2 + Ind(t.plusCarried) >= 10
    ensures s[|s| - 1] == Total(num1 + num2)
  {
    var a, b := num1, num2;
    var c1 := CarryIn(a, b, 1);
    assert s == Layout(o, c1 == 1, t, CarryIn(a, b, 2) == 1, a + b);
    LayoutFacts(o, c1 == 1, t, CarryIn(a, b, 2) == 1, a + b);
    OnesColumn(a, b, o);
    TensColumn(a, b, t);
  }

  /** The ones step speaks the ones digit of the sum and carries exactly when the ripple does. */
  lemma OnesColumn(a: nat, b: nat, o: AddStep)
    requires o == OnesStep(a, b)
    ensures o.digit == GetDigit(a + b, 0)
    ensures CarryIn(a, b, 1) == 1 <==> o.ones1 + o.ones2 >= 10
  {
    OnesArith(a, b);
  }

  /** The tens step speaks the tens digit of the sum and overflows exactly when the ripple does. */
  lemma TensColumn(a: nat, b: nat, t: AddStep)
    requires t == TensPlaceStep(a, b, a + b, CarryIn(a, b, 1) == 1)
    ensures t.digit == (t.tens1 + t.tens2 + Ind(t.plusCarried)) % 10
    ensures CarryIn(a, b, 2) == 1 <==> t.tens1 + t.tens2 + Ind(t.plusCarried) >= 10
  {
    TensArith(a, b);
    TensCombine(t, CarryIn(a, b, 1), CarryIn(a, b, 2));
  }

  lemma TensCombine(t: AddStep, c: nat, c2: nat)
    requires t.TensPlace? && c <= 1 && (t.plusCarried <==> c == 1)
    requires t.digit == (t.tens1 + t.tens2 + c) % 10 && (c2 == 1 <==> t.tens1 + t.tens2 + c >= 10)
    ensures t.digit == (t.tens1 + t.tens2 + Ind(t.plusCarried)) % 10
    ensures c2 == 1 <==> t.tens1 + t.tens2 + Ind(t.plusCarried) >= 10
  {
  }

  lemma OnesArith(a: nat, b: nat)
    ensures CarryIn(a, b, 1) == 1 <==> a % 10 + b % 10 >= 10
    ensures (a % 10 + b % 10) % 10 == GetDigit(a + b, 0)
  {
    CarryInArith(a, b, 1);
    OnesFacts(a, b, CarryIn(a, b, 1), Pow10(1), GetDigit(a + b, 0), Pow10(0));
  }

  lemma OnesFacts(a: nat, b: nat, c: nat, p1: nat, g: nat, p0: nat)
    requires p1 == 10 && p0 == 1
    requires c == (a % p1 + b % p1) / p1 && g == ((a + b) / p0) % 10
    ensures c == 1 <==> a % 10 + b % 10 >= 10
    ensures (a % 10 + b % 10) % 10 == g
  {
    ModAdd(a, b, 0);
  }

  lemma TensArith(a: nat, b: nat)
    ensures ((a + b) % 100) / 10 == ((a % 100) / 10 + (b % 100) / 10 + CarryIn(a, b, 1)) % 10
    ensures CarryIn(a, b, 2) == 1 <==> (a % 100) / 10 + (b % 100) / 10 + CarryIn(a, b, 1) >= 10
  {
    SumDigit(a, b, 1);
    ColumnDigitIsGetDigit(a, 1);
    ColumnDigitIsGetDigit(b, 1);
    TensDigit(a);
    TensDigit(b);
    TensDigit(a + b);
  }

  /** `Math.floor((n % 100) / 10)` is the tens digit. */
  lemma TensDigit(n: nat)
    ensures (n % 100) / 10 == GetDigit(n, 1)
  {
    ModSplit(n, 1);
    ModSplit(n, 0);
  }

  /**
    For two-column problems the narration as written agrees with the corrected one
    exactly when the tens never carry without the ones carrying too.
   */
  lemma AsWrittenAgreesIff(num1: nat, num2: nat)
    requires MaxLength(num1, num2) == 2
    ensures Steps(num1, num2, num1 + num2, CalculateCarryValues(num1, num2)) == CorrectedSteps(num1, num2)
      <==> (CarryIn(num1, num2, 2) == 1 ==> CarryIn(num1, num2, 1) == 1)
  {
    CarryValuesSpec(num1, num2);
    var cv := CalculateCarryValues(num1, num2);
    var c1, c2 := CarryIn(num1, num2, 1) == 1, CarryIn(num1, num2, 2) == 1;
    assert 1 in cv <==> c1;
    assert 0 in cv <==> c2;
    assert |cv| > 0 <==> c1 || c2 by {
      if |cv| > 0 {
        assert cv[0] in cv;
      }
    }
    var o := OnesStep(num1, num2);
    var t := TensPlaceStep(num1, num2, num1 + num2, c1);
    LayoutFacts(o, |cv| > 0, t, c2, num1 + num2);
    LayoutFacts(o, c1, t, c2, num1 + num2);
  }

  /**
    Three-column operands break the narration: for 150 + 150 the tens column does not
    receive a carry, yet the written steps announce "carry the 1 to the tens place" and
    "plus the carried 1", and never announce the carry the tens make into the hundreds.
   */
  lemma AsWrittenWrongForThreeColumns()
    ensures CalculateCarryValues(150, 150) == [1]
    ensures CarryIn(150, 150, 1) == 0 && CarryIn(150, 150, 2) == 1
    ensures var s := Steps(150, 150, 300, [1]);
      s[2] == CarryToTens && s[3] == TensPlace(5, 5, true, 0) && CarryToHundreds !in s
    ensures var s := CorrectedSteps(150, 150);
      s[2] == TensPlace(5, 5, false, 0) && CarryToHundreds in s
  {
    Carries150();
    var cv := CalculateCarryValues(150, 150);
    CarryValuesSpec(150, 150);
    assert 1 in cv;
    assert cv == [1] by {
      assert |cv| == 1 && cv[0] in cv;
    }
    LayoutFacts(OnesStep(150, 150), true, TensPlaceStep(150, 150, 300, true), false, 300);
    LayoutFacts(OnesStep(150, 150), false, TensPlaceStep(150, 150, 300, false), true, 300);
  }

  /** The columns of 150 + 150: no carry out of the ones, a carry out of the tens, none out of the hundreds. */
  lemma Carries150()
    ensures MaxLength(150, 150) == 3
    ensures CarryIn(150, 150, 1) == 0 && CarryIn(150, 150, 2) == 1 && CarryIn(150, 150, 3) == 0
  {
    assert NumDigits(150) == 3 by {
      assert NumDigits(15) == 2;
    }
    ColumnDigitIsGetDigit(150, 0);
    ColumnDigitIsGetDigit(150, 1);
    ColumnDigitIsGetDigit(150, 2);
    assert Pow10(1) == 10 && Pow10(2) == 100;
  }

  // ---------------------------------------------------------------------
  // The screen

  /** A problem on screen with its carry positions and step cursor. */
  datatype Screen = Screen(num1: nat, num2: nat, sum: nat, carryValues: seq<int>, cursor: Cursor)

  /** The effect run when a new problem arrives. */
  function NewProblem(num1: nat, num2: nat): (s: Screen)
    ensures s.sum == s.num1 + s.num2 && s.cursor == Start()
    ensures s.carryValues == CalculateCarryValues(num1, num2)
  {
    Screen(num1, num2, num1 + num2, CalculateCarryValues(num1, num2), Start())
  }

  /**
    The `steps` array the screen renders and `handleNextStep` bounds its cursor by: it is
    rebuilt from the stored problem and carry positions, so its length is that of the
    as-written narration.
   */
  function ScreenSteps(s: Screen): (r: seq<AddStep>)
    ensures |r| == 4 + Ind(|s.carryValues| > 0) + Ind(0 in s.carryValues)
    ensures r[0] == Intro && r[|r| - 1] == Total(s.sum)
  {
    StepsShape(s.num1, s.num2, s.sum, s.carryValues);
    Steps(s.num1, s.num2, s.sum, s.carryValues)
  }

  /**
    `handleNextStep` on the screen: below the end of the rendered list the cursor moves
    one step on, at or past the end nothing changes, and the problem is never touched.
   */
  function NextStep(s: Screen): (r: Screen)
    ensures Valid(s.cursor, |ScreenSteps(s)|) ==> Valid(r.cursor, |ScreenSteps(r)|)
    ensures r.num1 == s.num1 && r.num2 == s.num2 && r.sum == s.sum && r.carryValues == s.carryValues
    ensures s.cursor.currentStep < |ScreenSteps(s)| ==> r.cursor.currentStep == s.cursor.currentStep + 1
    ensures s.cursor.currentStep >= |ScreenSteps(s)| ==> r == s
  {
    NextPreservesValid(s.cursor, |ScreenSteps(s)|);
    s.(cursor := HandleNextStep(s.cursor, |ScreenSteps(s)|).cursor)
  }

  /** The screen with the corrected narration: the cursor walks `CorrectedSteps` instead. */
  function NextStepFixed(s: Screen): (r: Screen)
    ensures Valid(s.cursor, |CorrectedSteps(s.num1, s.num2)|) ==> Valid(r.cursor, |CorrectedSteps(r.num1, r.num2)|)
    ensures r.num1 == s.num1 && r.num2 == s.num2 && r.sum == s.sum && r.carryValues == s.carryValues
    ensures s.cursor.currentStep < |CorrectedSteps(s.num1, s.num2)| ==>
      r.cursor.currentStep == s.cursor.currentStep + 1
    ensures s.cursor.currentStep >= |CorrectedSteps(s.num1, s.num2)| ==> r == s
  {
    NextPreservesValid(s.cursor, |CorrectedSteps(s.num1, s.num2)|);
    s.(cursor := HandleNextStep(s.cursor, |CorrectedSteps(s.num1, s.num2)|).cursor)
  }

  /**
    On two-column problems the screen's list and the corrected one have the same length
    exactly when a tens carry comes with a ones carry, so `onComplete` fires on the same
    click as the corrected screen would.
   */
  lemma ScreenMatchesCorrectedIff(num1: nat, num2: nat)
    requires MaxLength(num1, num2) == 2
    ensures ScreenSteps(NewProblem(num1, num2)) == CorrectedSteps(num1, num2)
      <==> (CarryIn(num1, num2, 2) == 1 ==> CarryIn(num1, num2, 1) == 1)
  {
    AsWrittenAgreesIff(num1, num2);
  }

  /**
    The as-written list has a different length from the corrected one on ordinary
    problems: 9 + 1 renders six steps where five are right (its one carry is filed at
    position 0, so the hundreds are told of a carry), and 155 + 155 renders five where
    six are right (carries filed at 1 and 2, so the hundreds are never told).
   */
  lemma ScreenLengthsDiffer()
    ensures |ScreenSteps(NewProblem(9, 1))| == 6 && |CorrectedSteps(9, 1)| == 5
    ensures |ScreenSteps(NewProblem(155, 155))| == 5 && |CorrectedSteps(155, 155)| == 6
  {
    Carries9And1();
    Carries155();
    CarryValuesSpec(9, 1);
    CarryValuesSpec(155, 155);
    var cv := CalculateCarryValues(9, 1);
    assert cv == [0] by {
      assert 0 in cv;
      assert |cv| == 1 && cv[0] in cv;
    }
    var dv := CalculateCarryValues(155, 155);
    assert 1 in dv && 2 in dv && 0 !in dv;
    LayoutFacts(OnesStep(9, 1), true, TensPlaceStep(9, 1, 10, false), false, 10);
    LayoutFacts(OnesStep(155, 155), true, TensPlaceStep(155, 155, 310, true), true, 310);
  }

  /** The columns of 9 + 1: one column, which carries out. */
  lemma Carries9And1()
    ensures MaxLength(9, 1) == 1
    ensures CarryIn(9, 1, 1) == 1 && CarryIn(9, 1, 2) == 0
  {
    ColumnDigitIsGetDigit(9, 0);
    ColumnDigitIsGetDigit(1, 0);
    ColumnDigitIsGetDigit(9, 1);
    ColumnDigitIsGetDigit(1, 1);
    assert Pow10(1) == 10;
  }

  /** The columns of 155 + 155: the ones and the tens carry out, the hundreds do not. */
  lemma Carries155()
    ensures MaxLength(155, 155) == 3
    ensures CarryIn(155, 155, 1) == 1 && CarryIn(155, 155, 2) == 1 && CarryIn(155, 155, 3) == 0
  {
    assert NumDigits(155) == 3 by {
      assert NumDigits(15) == 2;
    }
    ColumnDigitIsGetDigit(155, 0);
    ColumnDigitIsGetDigit(155, 1);
    ColumnDigitIsGetDigit(155, 2);
    assert Pow10(1) == 10 && Pow10(2) == 100;
  }
}

=== FILE: addition_poster.dfy ===
/**
  The place-value addition poster: each addend split into tens and ones, the answer,
  and the explanation that adds the tens and the ones separately.
 */
module AdditionPoster {
  import opened Js

  /** `Math.floor(n / 10)` and `n % 10` as JavaScript computes them. */
  datatype PlaceValue = PlaceValue(tens: int, ones: int)

  function Split(n: int): PlaceValue {
    PlaceValue(n / 10, JsRem(n, 10))
  }

  /** A non-negative addend is its tens and ones recombined, with the ones a single digit. */
  lemma SplitSpec(n: int)
    requires n >= 0
    ensures n == 10 * Split(n).tens + Split(n).ones
    ensures 0 <= Split(n).ones <= 9 && Split(n).tens >= 0
  {
  }

  /**
    For a negative addend the floor and the truncating remainder disagree: -3 shows as
    -1 tens and -3 ones, which make -13.
   */
  lemma SplitNegative()
    ensures Split(-3) == PlaceValue(-1, -3)
    ensures 10 * Split(-3).tens + Split(-3).ones != -3
  {
  }

  /** The explanation's three lines: tens total, ones total, and the answer. */
  datatype Explanation = Explanation(tensTotal: int, onesTotal: int, answer: int)

  function Explain(num1: int, num2: int): Explanation {
    var a, b := Split(num1), Split(num2);
    Explanation(a.tens + b.tens, a.ones + b.ones, num1 + num2)
  }

  /**
    For non-negative addends "t tens + o ones = answer" is a true identity, and the
    ones total lies in 0..18: the poster never regroups ten ones into a ten.
   */
  lemma ExplanationIdentity(num1: int, num2: int)
    requires num1 >= 0 && num2 >= 0
    ensures var e := Explain(num1, num2);
      e.tensTotal * 10 + e.onesTotal == e.answer && 0 <= e.onesTotal <= 18
  {
    SplitSpec(num1);
    SplitSpec(num2);
  }

  /** The ones total can reach ten, so the explanation may read "… + 12 ones" (for 38 + 24). */
  lemma OnesNotRegrouped()
    ensures Explain(38, 24) == Explanation(5, 12, 62)
  {
  }

  /** `showAnswer` and `showExplanation`; the explanation appears one second after the answer. */
  datatype View = View(showAnswer: bool, showExplanation: bool)

  /** The button: flips the answer; hiding it also hides the explanation at once (and cancels the timer). */
  function ToggleAnswer(v: View): (r: View)
    ensures r.showAnswer == !v.showAnswer
    ensures !r.showAnswer ==> !r.showExplanation
  {
    if v.showAnswer then View(false, false) else View(true, v.showExplanation)
  }

  /** The pending timer firing; it only exists while the answer is shown. */
  function TimerFires(v: View): (r: View)
    requires v.showAnswer
    ensures r.showAnswer && r.showExplanation
  {
    v.(showExplanation := true)
  }

  /** The explanation is never on screen without the answer. */
  predicate ViewOk(v: View) {
    v.showExplanation ==> v.showAnswer
  }

  lemma ViewStaysOk(v: View)
    requires ViewOk(v)
    ensures ViewOk(ToggleAnswer(v))
    ensures v.showAnswer ==> ViewOk(TimerFires(v))
  {
  }
}

=== FILE: answer_state.dfy ===
/**
  The answering state the three pattern puzzles share: the selected option, the
  verdict (`null` until the first selection), the score and whether the hint was used.
 */
module AnswerState {
  import opened Wrappers

  datatype Answering = Answering(selected: Option<nat>, isCorrect: Option<bool>, score: nat, hintUsed: bool)

  /** A new puzzle: nothing selected, no verdict, no hint; the score carries over. */
  function Fresh(score: nat): (a: Answering)
    ensures a.isCorrect.None? && a.selected.None? && !a.hintUsed && a.score == score
  {
    Answering(None, None, score, false)
  }

  /**
    `handleOptionSelect(index)` once the game has judged the option: after a verdict
    every selection is ignored; otherwise the option is recorded with its verdict, and
    a correct one scores 2 points, or 1 when the hint was used.
   */
  function Select(a: Answering, index: nat, correct: bool): (r: Answering)
    ensures a.isCorrect.Some? ==> r == a
    ensures a.isCorrect.None? ==>
              && r.selected == Some(index) && r.isCorrect == Some(correct) && r.hintUsed == a.hintUsed
              && r.score == a.score + (if correct then (if a.hintUsed then 1 else 2) else 0)
  {
    if a.isCorrect.Some? then a
    else
      var points := if correct then (if a.hintUsed then 1 else 2) else 0;
      Answering(Some(index), Some(correct), a.score + points, a.hintUsed)
  }

  /** `showHint`: only the flag changes (the hint itself is a toast or an animation). */
  function Hint(a: Answering): (r: Answering)
    ensures r.hintUsed && r.selected == a.selected && r.isCorrect == a.isCorrect && r.score == a.score
  {
    a.(hintUsed := true)
  }

  /**
    One verdict per puzzle: after the first selection, right or wrong, no further
    selection changes anything, although a wrong answer's message says "Try again!".
   */
  lemma OneVerdict(a: Answering, i: nat, c: bool, j: nat, d: bool)
    ensures Select(Select(a, i, c), j, d) == Select(a, i, c)
  {
  }

  /** A puzzle is worth at most 2 points, and a wrong answer is worth none. */
  lemma ScoreBound(a: Answering, i: nat, c: bool)
    ensures a.score <= Select(a, i, c).score <= a.score + 2
    ensures !c ==> Select(a, i, c).score == a.score
  {
  }
}

=== FILE: columns.dfy ===
/**
  Reading a column of a written number the way the addition and subtraction screens do:
  `parseInt(str[str.length - 1 - i] || '0', 10)` on `n.toString()`.
 */
module Columns {
  import opened Wrappers
  import opened Digits
  import opened Js

  /** `Math.max(aStr.length, bStr.length)`: how many columns the two numbers occupy. */
  function MaxLength(a: nat, b: nat): (len: nat)
    ensures len >= 1 && len >= NumDigits(a) && len >= NumDigits(b)
    ensures len == NumDigits(a) || len == NumDigits(b)
  {
    if NumDigits(a) >= NumDigits(b) then NumDigits(a) else NumDigits(b)
  }

  /**
    The digit parsed from place `i` of `n.toString()`, `'0'` past the left end. The
    string's characters are the digits of `ToDigits(n)` and `parseInt` of a digit
    character is that digit (`ParseCharDigit`), so the column is read off the digit list.
   */
  function ColumnDigit(n: nat, i: nat): (d: nat)
    ensures d < 10
    ensures i >= NumDigits(n) ==> d == 0
  {
    var ds := ToDigits(n);
    if i < |ds| then ds[|ds| - 1 - i] else 0
  }

  /** Reading a column of the string is taking the arithmetic digit at that place. */
  lemma ColumnDigitIsGetDigit(n: nat, i: nat)
    ensures ColumnDigit(n, i) == GetDigit(n, i)
  {
    DigitAtToDigits(n, i);
  }

  /** The character at each position of `n.toString()` parses to the digit at that position. */
  lemma ParseCharDigit(n: nat, k: nat)
    requires k < |NatToString(n)|
    ensures IsDigitChar(NatToString(n)[k])
    ensures ParseInt([NatToString(n)[k]]) == Some(ToDigits(n)[k])
  {
    assert StrDigits(NatToString(n))[k] == CharDigit(NatToString(n)[k]);
    ParseSingleDigit(NatToString(n)[k]);
  }

  /** `parseInt` of a one-character digit string is that digit. */
  lemma ParseSingleDigit(c: char)
    requires IsDigitChar(c)
    ensures ParseInt([c]) == Some(CharDigit(c))
  {
    assert IsDigitString([c]);
    ParseIntDigits([c]);
    assert StrDigits([c]) == [CharDigit(c)];
    assert [CharDigit(c)][..0] == [];
    assert Value([CharDigit(c)]) == Value([]) * 10 + CharDigit(c);
  }

  /** Both numbers are below `10^MaxLength`. */
  lemma BelowMaxLength(a: nat, b: nat)
    ensures a < Pow10(MaxLength(a, b)) && b < Pow10(MaxLength(a, b))
  {
    NumDigitsBound(a, MaxLength(a, b));
    NumDigitsBound(b, MaxLength(a, b));
  }
}

=== FILE: comparison_game.dfy ===
/**
  The comparison game: eight questions "num1 ? num2", the pupil picks `<`, `>` or `=`,
  checks it, and moves on; a results screen follows the last question.
 */
module ComparisonGame {
  import opened Wrappers
  import opened Shuffle

  datatype Relation = Less | Greater | Equal

  /** A question; `maxValue` is the number line's end, optional. */
  datatype Question = Question(num1: int, num2: int, maxValue: Option<int>)

  /** The initial question bank: four single-digit and four two-digit comparisons. */
  function Bank(): (b: seq<Question>)
    ensures |b| == 8
    ensures forall i :: 0 <= i < 4 ==>
      b[i].maxValue == Some(10) && 0 <= b[i].num1 < 10 && 0 <= b[i].num2 < 10
    ensures forall i :: 4 <= i < 8 ==>
      b[i].maxValue == Some(30) && 10 <= b[i].num1 < 100 && 10 <= b[i].num2 < 100
  {
    [Question(4, 2, Some(10)), Question(7, 9, Some(10)), Question(5, 5, Some(10)), Question(1, 8, Some(10)),
     Question(12, 21, Some(30)), Question(25, 18, Some(30)), Question(15, 15, Some(30)), Question(29, 11, Some(30))]
  }

  function Max(a: int, b: int): int {
    if a < b then b else a
  }

  /** `question.maxValue || Math.max(num1, num2, 10)`: a missing or zero end falls back. */
  function MaxValue(q: Question): (m: int)
    ensures q.maxValue.None? || q.maxValue == Some(0) ==> m >= q.num1 && m >= q.num2 && m >= 10
    ensures q.maxValue.Some? && q.maxValue.value != 0 ==> m == q.maxValue.value
  {
    if q.maxValue.Some? && q.maxValue.value != 0 then q.maxValue.value
    else Max(Max(q.num1, q.num2), 10)
  }

  /** Both numbers of every bank question lie on its number line. */
  lemma BankFitsNumberLine()
    ensures forall i :: 0 <= i < 8 ==> 0 <= Bank()[i].num1 <= MaxValue(Bank()[i]) && 0 <= Bank()[i].num2 <= MaxValue(Bank()[i])
  {
  }

  /** The three `if`s of `checkAnswer`. */
  function Judge(q: Question, a: Relation): bool {
    match a
    case Less => q.num1 < q.num2
    case Greater => q.num1 > q.num2
    case Equal => q.num1 == q.num2
  }

  /** Exactly one of `<`, `>`, `=` is judged correct for every question. */
  lemma Trichotomy(q: Question)
    ensures Judge(q, Less) || Judge(q, Greater) || Judge(q, Equal)
    ensures !(Judge(q, Less) && Judge(q, Greater))
    ensures !(Judge(q, Less) && Judge(q, Equal))
    ensures !(Judge(q, Greater) && Judge(q, Equal))
  {
  }

  datatype Game = Game(questions: seq<Question>, current: nat, selected: Option<Relation>,
                       isCorrect: Option<bool>, showResult: bool, score: nat, completed: bool)

  predicate Valid(g: Game) {
    0 < |g.questions| && g.current < |g.questions|
  }

  function Initial(): (g: Game)
    ensures Valid(g)
  {
    Game(Bank(), 0, None, None, false, 0, false)
  }

  /** The effect on `currentQuestion`: a new question clears the previous answer. */
  function MoveTo(g: Game, index: nat): (r: Game)
    ensures r.current == index && r.questions == g.questions && r.score == g.score && r.completed == g.completed
    ensures index != g.current ==> r.selected.None? && r.isCorrect.None? && !r.showResult
    ensures index == g.current ==> r == g
  {
    if index == g.current then g else g.(current := index, selected := None, isCorrect := None, showResult := false)
  }

  /** Clicking `<`, `=` or `>` (the buttons show only before the result). */
  function Select(g: Game, a: Relation): (r: Game)
    ensures r == g.(selected := Some(a))
  {
    g.(selected := Some(a))
  }

  /** `checkAnswer`: nothing without a selection; otherwise judge, score one point if right, show the result. */
  function Check(g: Game): (r: Game)
    requires Valid(g)
    ensures g.selected.None? ==> r == g
    ensures g.selected.Some? ==>
              && r.isCorrect == Some(Judge(g.questions[g.current], g.selected.value)) && r.showResult
              && r.score == g.score + (if r.isCorrect == Some(true) then 1 else 0)
              && r.current == g.current && r.questions == g.questions && r.completed == g.completed
  {
    match g.selected
    case None => g
    case Some(a) =>
      var correct := Judge(g.questions[g.current], a);
      g.(isCorrect := Some(correct), score := if correct then g.score + 1 else g.score, showResult := true)
  }

  /**
    `nextQuestion`: moves to the next question, or after the last one completes the
    game and announces `score + (isCorrect ? 1 : 0)`.
   */
  function Next(g: Game): (r: (Game, Option<int>))
    requires Valid(g)
    ensures Valid(r.0) && r.0.questions == g.questions && r.0.score == g.score
    ensures g.current < |g.questions| - 1 ==> r.0.current == g.current + 1 && r.0.completed == g.completed && r.1.None?
    ensures g.current == |g.questions| - 1 ==> r.0.current == g.current && r.0.completed && r.1.Some?
  {
    if g.current < |g.questions| - 1 then (MoveTo(g, g.current + 1), None)
    else (g.(completed := true), Some(g.score + (if g.isCorrect == Some(true) then 1 else 0)))
  }

  /** The announcement with the score as it stands: the check has already counted the last answer. */
  function NextFixed(g: Game): (r: (Game, Option<int>))
    requires Valid(g)
    ensures r.0 == Next(g).0
    ensures r.1.Some? <==> Next(g).1.Some?
    ensures r.1.Some? ==> r.1.value == g.score
  {
    (Next(g).0, if Next(g).1.Some? then Some(g.score) else None)
  }

  /** `resetGame`, with the comparator-random sort taken as a Fisher-Yates shuffle. */
  function Reset(g: Game, js: seq<nat>): (r: Game)
    requires Valid(g) && DrawsFit(|g.questions|, js)
    ensures Valid(r) && r.current == 0 && r.score == 0 && !r.completed
    ensures multiset(r.questions) == multiset(g.questions)
  {
    FisherYatesPermutes(g.questions, js);
    MoveTo(g.(questions := FisherYates(g.questions, js)), 0).(score := 0, completed := false)
  }

  // ---------------------------------------------------------------------
  // Play through the buttons on screen

  /** The moves the screen offers: answer buttons and Check before the result, Next after it, Play Again at the end. */
  datatype Move = Pick(a: Relation) | CheckMove | NextMove | PlayAgain(js: seq<nat>)

  predicate Offered(g: Game, m: Move) {
    match m
    case Pick(_) => !g.completed && !g.showResult
    case CheckMove => !g.completed && !g.showResult && g.selected.Some?
    case NextMove => !g.completed && g.showResult
    case PlayAgain(js) => g.completed && DrawsFit(|g.questions|, js)
  }

  function Apply(g: Game, m: Move): Game
    requires Valid(g) && Offered(g, m)
  {
    match m
    case Pick(a) => Select(g, a)
    case CheckMove => Check(g)
    case NextMove => Next(g).0
    case PlayAgain(js) => Reset(g, js)
  }

  /** Points never outrun answers: at most one per question answered so far. */
  predicate ScoreInv(g: Game) {
    && Valid(g)
    && g.score <= g.current + (if g.showResult then 1 else 0)
    && (g.completed ==> g.showResult && g.current == |g.questions| - 1)
  }

  lemma ApplyKeepsScoreInv(g: Game, m: Move)
    requires ScoreInv(g) && Offered(g, m)
    ensures ScoreInv(Apply(g, m))
  {
  }

  /** Hence on the results screen the score is at most the number of questions. */
  lemma FinalScoreBound(g: Game)
    requires ScoreInv(g) && g.completed
    ensures g.score <= |g.questions|
  {
  }

  /**
    The announcement counts the last correct answer twice: after seven right answers
    and a right eighth, it says 9 out of 8, while the results screen shows 8.
   */
  lemma AnnouncementOverCounts()
    ensures var g := Game(Bank(), 7, Some(Greater), None, false, 7, false);
      ScoreInv(g) && Offered(g, CheckMove)
      && var c := Check(g);
      Offered(c, NextMove) && c.score == 8
      && Next(c).1 == Some(9) && Next(c).0.score == 8 && |c.questions| == 8
  {
  }

  /** The corrected announcement agrees with the results screen and never exceeds the question count. */
  lemma FixedAnnouncementBound(g: Game)
    requires ScoreInv(g) && Offered(g, NextMove)
    ensures NextFixed(g).1.Some? ==> NextFixed(g).1.value == NextFixed(g).0.score <= |g.questions|
  {
  }
}

=== FILE: complete_pattern.dfy ===
/**
  "Complete the pattern": a base block is repeated, one position is blanked out, and
  the pupil picks the missing shape from four options. The check rebuilds a base block
  from the filled pattern and tests every position against it.
 */
module CompletePattern {
  import opened Wrappers
  import opened Digits
  import opened PatternItems
  import opened Shuffle
  import opened AnswerState

  /** `level <= 2 ? 2 : level <= 4 ? 3 : Math.min(4, level - 1)`, the same at all three uses. */
  function RepeatLength(level: int): (r: nat)
    requires level >= 1
    ensures 2 <= r <= 4
    ensures r == 2 <==> level <= 2
    ensures r == 4 <==> level >= 5
  {
    if level <= 2 then 2 else if level <= 4 then 3 else if 4 < level - 1 then 4 else level - 1
  }

  /** `Math.min(5 + Math.floor(level / 2), 9)`. */
  function PatternLength(level: int): (len: nat)
    requires level >= 1
    ensures 5 <= len <= 9 && RepeatLength(level) <= len
  {
    var n := 5 + level / 2;
    if n < 9 then n else 9
  }

  // ---------------------------------------------------------------------
  // The base block

  /**
    The draws for one base item: the coin `Math.random() > 0.5` and the drawn shape and
    colour. From level 4 on, every item after the first keeps the previous item's
    colour and takes a new shape (coin up) or keeps its shape and takes a new colour;
    the do-while loops redraw until the new value differs from the old one.
   */
  datatype BaseDraw = BaseDraw(coin: bool, shape: ShapeType, color: ShapeColor)

  predicate Complex(level: int, i: nat) {
    level > 3 && i > 0
  }

  /** The draw is one a do-while loop can exit with. */
  predicate DrawExits(level: int, i: nat, prev: Item, d: BaseDraw) {
    Complex(level, i) ==> (if d.coin then d.shape != prev.shape else d.color != prev.color)
  }

  function BaseItem(level: int, i: nat, prev: Item, d: BaseDraw): Item {
    if Complex(level, i) then
      (if d.coin then Item(d.shape, prev.color) else Item(prev.shape, d.color))
    else Item(d.shape, d.color)
  }

  /** The item before position `|b|`; at position 0 no draw reads it. */
  function Last(b: seq<Item>): Item {
    if |b| == 0 then Item(Circle, Red) else b[|b| - 1]
  }

  /** Every draw in the run is one its loop can exit with. */
  predicate DrawsExit(level: int, draws: seq<BaseDraw>)
    decreases |draws|, 1
  {
    |draws| == 0 ||
    (DrawsExit(level, draws[..|draws| - 1])
     && DrawExits(level, |draws| - 1, Last(BuildBase(level, draws[..|draws| - 1])), draws[|draws| - 1]))
  }

  /** The `patternBase` loop. */
  function BuildBase(level: int, draws: seq<BaseDraw>): (b: seq<Item>)
    requires DrawsExit(level, draws)
    ensures |b| == |draws|
    decreases |draws|, 2
  {
    if |draws| == 0 then []
    else
      var b := BuildBase(level, draws[..|draws| - 1]);
      b + [BaseItem(level, |draws| - 1, Last(b), draws[|draws| - 1])]
  }

  /** Neighbours differ in exactly one of shape and colour. */
  predicate OneChange(a: Item, b: Item) {
    (a.shape == b.shape) != (a.color == b.color)
  }

  /** The bases the loop can build from level 4 on: each item changes one attribute of the one before. */
  ghost predicate ComplexBase(b: seq<Item>) {
    forall i :: 1 <= i < |b| ==> OneChange(b[i - 1], b[i])
  }

  /** From level 4 on, every base built changes exactly one attribute from item to item. */
  lemma {:induction false} BuildBaseComplex(level: int, draws: seq<BaseDraw>)
    requires level > 3 && DrawsExit(level, draws)
    ensures ComplexBase(BuildBase(level, draws))
    decreases |draws|
  {
    if |draws| > 1 {
      var init := draws[..|draws| - 1];
      BuildBaseComplex(level, init);
      var b := BuildBase(level, draws);
      assert b[..|b| - 1] == BuildBase(level, init);
    }
  }

  /** The draws that rebuild a given base: the coin says which attribute changed. */
  function DrawsFor(level: int, b: seq<Item>): (ds: seq<BaseDraw>)
    ensures |ds| == |b|
  {
    seq(|b|, i requires 0 <= i < |b| =>
          if Complex(level, i) && b[i].color == b[i - 1].color then BaseDraw(true, b[i].shape, b[i].color)
          else BaseDraw(false, b[i].shape, b[i].color))
  }

  /**
    Conversely every such base is reachable: from level 4 on the loop can build exactly
    the bases in which each item changes one attribute of the one before.
   */
  lemma {:induction false} DrawsForBuild(level: int, b: seq<Item>)
    requires level > 3 && ComplexBase(b)
    ensures DrawsExit(level, DrawsFor(level, b))
    ensures BuildBase(level, DrawsFor(level, b)) == b
    decreases |b|
  {
    if |b| > 0 {
      var init := b[..|b| - 1];
      assert ComplexBase(init) by {
        forall i | 1 <= i < |init|
          ensures OneChange(init[i - 1], init[i])
        {
          assert init[i - 1] == b[i - 1] && init[i] == b[i];
        }
      }
      DrawsForBuild(level, init);
      var ds := DrawsFor(level, b);
      assert ds[..|ds| - 1] == DrawsFor(level, init);
      if |b| > 1 {
        assert Last(init) == b[|b| - 2];
        assert OneChange(b[|b| - 2], b[|b| - 1]);
      }
    }
  }

  // ---------------------------------------------------------------------
  // The puzzle

  /** The pattern on screen: the tiling with `null` at the gap. */
  function WithGap(pattern: seq<Item>, gap: nat): (p: seq<Option<Item>>)
    requires gap < |pattern|
    ensures |p| == |pattern| && p[gap] == None
    ensures forall i :: 0 <= i < |p| && i != gap ==> p[i] == Some(pattern[i])
  {
    seq(|pattern|, i requires 0 <= i < |pattern| => if i == gap then None else Some(pattern[i]))
  }

  /** `fullPattern`: the shown pattern with the chosen option in the gap. */
  function Fill(shown: seq<Option<Item>>, gap: nat, option: Item): (full: seq<Item>)
    requires gap < |shown|
    requires forall i :: 0 <= i < |shown| && i != gap ==> shown[i].Some?
    ensures |full| == |shown| && full[gap] == option
    ensures forall i :: 0 <= i < |shown| && i != gap ==> full[i] == shown[i].value
  {
    seq(|shown|, i requires 0 <= i < |shown| => if i == gap then option else shown[i].value)
  }

  /**
    The base the check extracts: the block containing the gap, starting at
    `gap - gap % r`, read with the index taken modulo the pattern's length.
   */
  function CheckBase(full: seq<Item>, gap: nat, r: nat): (b: seq<Item>)
    requires 0 < r && gap < |full|
    ensures |b| == r
  {
    seq(r, i requires 0 <= i < r => full[(gap - gap % r + i) % |full|])
  }

  /** The check as written: every position matches the extracted base at its offset. */
  function Accepts(full: seq<Item>, gap: nat, r: nat): bool
    requires 0 < r && gap < |full|
  {
    var b := CheckBase(full, gap, r);
    forall i :: 0 <= i < |full| ==> full[i] == b[i % r]
  }

  lemma ModSmall(i: nat, r: nat)
    requires i < r
    ensures i % r == i
  {
    DivModUnique(i, r, 0, i);
  }

  lemma ModMod(i: nat, r: nat)
    requires r > 0
    ensures (i % r) % r == i % r
  {
    ModSmall(i % r, r);
  }

  /** Whatever the check accepts is periodic with the level's period. */
  lemma AcceptsSound(full: seq<Item>, gap: nat, r: nat)
    requires 0 < r <= |full| && gap < |full|
    requires Accepts(full, gap, r)
    ensures Periodic(full, r)
  {
    var b := CheckBase(full, gap, r);
    forall i | 0 <= i < |full|
      ensures full[i] == full[i % r]
    {
      ModMod(i, r);
      assert full[i % r] == b[(i % r) % r];
    }
  }

  /** `(k * r + i) % r == i` for an offset inside the block. */
  lemma BlockOffset(k: nat, r: nat, i: nat)
    requires i < r
    ensures (k * r + i) % r == i
  {
    DivModUnique(k * r + i, r, k, i);
  }

  /**
    When the gap's block lies wholly inside the pattern, the check accepts the missing
    shape: the extracted base is the tiled base.
   */
  lemma AcceptsAnswerInBlock(base: seq<Item>, len: nat, gap: nat)
    requires 0 < |base| <= len && gap < len
    requires gap - gap % |base| + |base| <= len
    ensures var full := Fill(WithGap(Tile(base, len), gap), gap, Tile(base, len)[gap]);
      full == Tile(base, len) && Accepts(full, gap, |base|)
  {
    var p := Tile(base, len);
    FillAnswer(p, gap);
    var b := CheckBase(p, gap, |base|);
    BlockIsBase(base, len, gap, b);
    assert forall i :: 0 <= i < len ==> p[i] == b[i % |base|];
  }

  /** Filling the gap with the item it held gives the pattern back. */
  lemma FillAnswer(p: seq<Item>, gap: nat)
    requires gap < |p|
    ensures Fill(WithGap(p, gap), gap, p[gap]) == p
  {
  }

  /** The block holding the gap, when it lies inside the pattern, reads back the base. */
  lemma BlockIsBase(base: seq<Item>, len: nat, gap: nat, b: seq<Item>)
    requires 0 < |base| <= len && gap < len
    requires gap - gap % |base| + |base| <= len
    requires b == CheckBase(Tile(base, len), gap, |base|)
    ensures b == base
  {
    var r := |base|;
    var k := gap / r;
    Euclid(gap, r);
    assert gap - gap % r == k * r;
    forall i | 0 <= i < r
      ensures b[i] == base[i]
    {
      ModSmall(k * r + i, len);
      BlockOffset(k, r, i);
    }
  }

  /**
    When the block runs past the end, the wrapped read takes the wrong items: at level 1
    the pattern has five items of period 2, and with the gap at index 4 the check
    rejects every option, the missing shape included, whenever the two base items differ.
   */
  lemma WrapRejectsAll(x: Item, y: Item, option: Item)
    requires x != y
    ensures PatternLength(1) == 5 && RepeatLength(1) == 2
    ensures var p := Tile([x, y], 5);
      p[4] == x && !Accepts(Fill(WithGap(p, 4), 4, option), 4, 2)
  {
    var p := Tile([x, y], 5);
    var full := Fill(WithGap(p, 4), 4, option);
    assert full[1] == y;
    var b := CheckBase(full, 4, 2);
    assert b[1] == full[0] == x;
  }

  /** The check with the base read from the pattern's first block, which always lies inside it. */
  function AcceptsFixed(full: seq<Item>, r: nat): bool
    requires 0 < r <= |full|
  {
    forall i :: 0 <= i < |full| ==> full[i] == full[i % r]
  }

  /** The corrected check accepts exactly the periodic fillings, so the missing shape is always accepted. */
  lemma AcceptsFixedSpec(base: seq<Item>, len: nat, gap: nat, option: Item)
    requires 0 < |base| <= len && gap < len
    ensures var full := Fill(WithGap(Tile(base, len), gap), gap, option);
      AcceptsFixed(full, |base|) <==> Periodic(full, |base|)
    ensures AcceptsFixed(Fill(WithGap(Tile(base, len), gap), gap, Tile(base, len)[gap]), |base|)
  {
    var p := Tile(base, len);
    TilePeriodic(base, len);
    assert Fill(WithGap(p, gap), gap, p[gap]) == p;
  }

  /**
    When the gap's column appears elsewhere in the pattern, the corrected check accepts
    precisely the missing shape.
   */
  lemma AcceptsFixedUnique(base: seq<Item>, len: nat, gap: nat, option: Item)
    requires 0 < |base| <= len && gap < len
    requires gap >= |base| || gap + |base| < len
    ensures AcceptsFixed(Fill(WithGap(Tile(base, len), gap), gap, option), |base|)
            <==> option == Tile(base, len)[gap]
  {
    var r := |base|;
    var p := Tile(base, len);
    var full := Fill(WithGap(p, gap), gap, option);
    AcceptsFixedSpec(base, len, gap, p[gap]);
    if option != p[gap] {
      if gap >= r {
        ModSmall(gap % r, r);
        assert full[gap % r] == p[gap % r] == base[gap % r];
        ModMod(gap, r);
        assert full[gap] != full[gap % r];
      } else {
        var j := gap + r;
        ModSmall(gap, r);
        DivModUnique(j, r, 1, gap);
        assert full[j] == p[j] == base[gap];
        assert p[gap] == base[gap];
        assert full[j] != full[j % r];
      }
    }
  }

  /**
    At level 5 the pattern has seven items of period 4, and position 3 is the only one
    in its column: with the gap there, both checks accept every option.
   */
  lemma LoneColumnAcceptsAll(base: seq<Item>, option: Item)
    requires |base| == 4
    ensures PatternLength(5) == 7 && RepeatLength(5) == 4
    ensures var full := Fill(WithGap(Tile(base, 7), 3), 3, option);
      Accepts(full, 3, 4) && AcceptsFixed(full, 4)
  {
    var full := Fill(WithGap(Tile(base, 7), 3), 3, option);
    forall i | 0 <= i < 7
      ensures full[i] == full[i % 4]
    {
      if i >= 4 {
        DivModUnique(i, 4, 1, i - 4);
      } else {
        ModSmall(i, 4);
      }
    }
    var b := CheckBase(full, 3, 4);
    forall i | 0 <= i < 4
      ensures b[i] == full[i]
    {
      ModSmall(i, 7);
    }
  }

  // ---------------------------------------------------------------------
  // The game

  datatype Game = Game(level: int, shown: seq<Option<Item>>, gap: nat, options: seq<Item>, answering: Answering)

  /**
    `generatePattern` with its draws as parameters: the base draws, the gap position,
    the candidates the distractor loop draws (enough to finish) and the shuffle's draws.
   */
  function Generate(level: int, score: nat, baseDraws: seq<BaseDraw>, gap: nat, draws: seq<Item>, js: seq<nat>): (g: Game)
    requires level >= 1 && |baseDraws| == RepeatLength(level) && DrawsExit(level, baseDraws)
    requires gap < PatternLength(level)
    requires Collect(Tile(BuildBase(level, baseDraws), PatternLength(level))[gap], AnyItem, draws, []).Some?
    requires DrawsFit(4, js)
    ensures Valid(g) && g.answering == Fresh(score)
  {
    var base := BuildBase(level, baseDraws);
    var pattern := Tile(base, PatternLength(level));
    var answer := pattern[gap];
    var distractors := Collect(answer, AnyItem, draws, []).value;
    Game(level, WithGap(pattern, gap), gap, Options(distractors, answer, js), Fresh(score))
  }

  /** The options hold the missing shape exactly once among four distinct shapes. */
  lemma GenerateOptions(level: int, score: nat, baseDraws: seq<BaseDraw>, gap: nat, draws: seq<Item>, js: seq<nat>)
    requires level >= 1 && |baseDraws| == RepeatLength(level) && DrawsExit(level, baseDraws)
    requires gap < PatternLength(level)
    requires Collect(Tile(BuildBase(level, baseDraws), PatternLength(level))[gap], AnyItem, draws, []).Some?
    requires DrawsFit(4, js)
    ensures var g := Generate(level, score, baseDraws, gap, draws, js);
      && |g.options| == 4 && Distinct(g.options)
      && Tile(BuildBase(level, baseDraws), PatternLength(level))[gap] in g.options
  {
    var answer := Tile(BuildBase(level, baseDraws), PatternLength(level))[gap];
    CollectSpec(answer, AnyItem, draws, []);
    OptionsSpec(Collect(answer, AnyItem, draws, []).value, answer, js);
  }

  /** A state `Generate` produced: one gap in a full-length pattern, and four options. */
  predicate Valid(g: Game) {
    && g.level >= 1 && |g.shown| == PatternLength(g.level) && g.gap < |g.shown|
    && (forall i :: 0 <= i < |g.shown| && i != g.gap ==> g.shown[i].Some?)
    && |g.options| == 4
  }

  /** `handleOptionSelect(index)` with the check as written. */
  function SelectOption(g: Game, index: nat): (r: Game)
    requires Valid(g) && index < |g.options|
    ensures Valid(r) && r.shown == g.shown && r.options == g.options
    ensures g.answering.isCorrect.Some? ==> r == g
    ensures r.answering.isCorrect == Some(true) && g.answering.isCorrect.None? ==>
              Periodic(Fill(g.shown, g.gap, g.options[index]), RepeatLength(g.level))
  {
    var full := Fill(g.shown, g.gap, g.options[index]);
    var r := RepeatLength(g.level);
    var ok := Accepts(full, g.gap, r);
    assert ok ==> Periodic(full, r) by {
      if ok { AcceptsSound(full, g.gap, r); }
    }
    g.(answering := AnswerState.Select(g.answering, index, ok))
  }

  /** `handleOptionSelect(index)` with the corrected check. */
  function SelectOptionFixed(g: Game, index: nat): (r: Game)
    requires Valid(g) && index < |g.options|
    ensures Valid(r) && r.shown == g.shown && r.options == g.options
    ensures g.answering.isCorrect.None? ==>
              (r.answering.isCorrect == Some(true) <==> Periodic(Fill(g.shown, g.gap, g.options[index]), RepeatLength(g.level)))
  {
    var full := Fill(g.shown, g.gap, g.options[index]);
    g.(answering := AnswerState.Select(g.answering, index, AcceptsFixed(full, RepeatLength(g.level))))
  }

  /** With the corrected check, the option holding the missing shape is accepted on every generated puzzle. */
  lemma FixedAcceptsAnswer(level: int, score: nat, baseDraws: seq<BaseDraw>, gap: nat, draws: seq<Item>, js: seq<nat>)
    requires level >= 1 && |baseDraws| == RepeatLength(level) && DrawsExit(level, baseDraws)
    requires gap < PatternLength(level)
    requires Collect(Tile(BuildBase(level, baseDraws), PatternLength(level))[gap], AnyItem, draws, []).Some?
    requires DrawsFit(4, js)
    ensures var g := Generate(level, score, baseDraws, gap, draws, js);
      exists i :: 0 <= i < 4 && SelectOptionFixed(g, i).answering.isCorrect == Some(true)
  {
    var g := Generate(level, score, baseDraws, gap, draws, js);
    var base := BuildBase(level, baseDraws);
    var len := PatternLength(level);
    GenerateOptions(level, score, baseDraws, gap, draws, js);
    var answer := Tile(base, len)[gap];
    var i :| 0 <= i < 4 && g.options[i] == answer;
    AcceptsFixedSpec(base, len, gap, answer);
    assert g.shown == WithGap(Tile(base, len), gap) && |base| == RepeatLength(level);
    assert AcceptsFixed(Fill(g.shown, gap, g.options[i]), RepeatLength(g.level));
    assert SelectOptionFixed(g, i).answering.isCorrect == Some(true);
  }

  /** `showHint`: the base it gathers is never used; only the flag changes. */
  function ShowHint(g: Game): (r: Game)
    ensures r.answering.hintUsed && r.shown == g.shown && r.options == g.options && r.gap == g.gap
  {
    g.(answering := Hint(g.answering))
  }
}

=== FILE: counting.dfy ===
/**
  The counting lesson: the pupil picks a target between 1 and 100 and clicks through
  the numbers from 1 up to it.
 */
module CountingOp {
  import opened Wrappers
  import opened Js

  /** `targetNumber`, `currentNumber`, `completed` and `editableNumber`. */
  datatype Screen = Screen(target: int, current: int, completed: bool, editable: int)

  /** The reachable states: a target in range, the count between 0 and it, completed exactly at the target. */
  predicate Valid(s: Screen) {
    && 1 <= s.target <= 100
    && 0 <= s.current <= s.target
    && (s.completed <==> s.current == s.target)
  }

  /**
    `generateCountingProblem(n)`: a target outside 1..100 is refused (a toast) and
    nothing changes; otherwise counting restarts from 0 towards `n`.
   */
  function Generate(s: Screen, n: int): (r: Screen)
    ensures (n < 1 || n > 100) ==> r == s
    ensures 1 <= n <= 100 ==> Valid(r) && r.target == n && r.current == 0 && !r.completed && r.editable == n
  {
    if n < 1 || n > 100 then s else Screen(n, 0, false, n)
  }

  /** The screen after mounting: the effect generates the default target 10. */
  function Initial(): (s: Screen)
    ensures Valid(s) && s.target == 10 && s.current == 0
  {
    Generate(Screen(10, 0, false, 10), 10)
  }

  /** `handleEditNumber`: a parsed number is kept for the next custom problem, `NaN` is ignored. */
  function EditNumber(s: Screen, value: string): (r: Screen)
    ensures ParseInt(value).None? ==> r == s
    ensures ParseInt(value).Some? ==> r == s.(editable := ParseInt(value).value)
  {
    match ParseInt(value)
    case None => s
    case Some(v) => s.(editable := v)
  }

  /** `handleCustomProblem`. */
  function CustomProblem(s: Screen): Screen {
    Generate(s, s.editable)
  }

  /** A custom problem keeps a reachable screen reachable, whatever number was typed. */
  lemma CustomPreservesValid(s: Screen, value: string)
    requires Valid(s)
    ensures Valid(CustomProblem(EditNumber(s, value)))
  {
  }

  /** The effect of one click: the new screen and whether `onComplete` fired. */
  datatype Click = Click(screen: Screen, firedComplete: bool)

  /**
    `handleNextNumber`: below the target the count goes up by one, and the click that
    reaches the target completes the lesson; at the target nothing happens.
   */
  function NextNumber(s: Screen): (c: Click)
    ensures s.current < s.target ==> c.screen.current == s.current + 1
    ensures s.current >= s.target ==> c == Click(s, false)
    ensures c.screen.target == s.target && c.screen.editable == s.editable
    ensures c.firedComplete <==> (s.current < s.target && s.current + 1 == s.target)
  {
    if s.current < s.target then
      var reached := s.current + 1 == s.target;
      Click(Screen(s.target, s.current + 1, s.completed || reached, s.editable), reached)
    else Click(s, false)
  }

  /** A click keeps a reachable screen reachable. */
  lemma NextPreservesValid(s: Screen)
    requires Valid(s)
    ensures Valid(NextNumber(s).screen)
  {
  }

  function Clicks(s: Screen, k: nat): Screen
    decreases k
  {
    if k == 0 then s else NextNumber(Clicks(s, k - 1)).screen
  }

  /**
    From a fresh target, `k` clicks count to `min(k, target)`, and the lesson is
    completed exactly once `k` reaches the target.
   */
  lemma {:induction false} ClicksFromStart(s: Screen, k: nat)
    requires Valid(s) && s.current == 0
    ensures Valid(Clicks(s, k)) && Clicks(s, k).target == s.target
    ensures Clicks(s, k).current == (if k < s.target then k else s.target)
    ensures Clicks(s, k).completed <==> k >= s.target
  {
    if k > 0 {
      ClicksFromStart(s, k - 1);
      NextPreservesValid(Clicks(s, k - 1));
    }
  }
}

=== FILE: create_pattern.dfy ===
/**
  "Create your own pattern": the pupil builds a sequence of up to twelve shapes from a
  shuffled palette, and the screen names the kind of pattern it sees.
 */
module CreatePattern {
  import opened Wrappers
  import opened Digits
  import opened PatternItems
  import opened Shuffle

  // ---------------------------------------------------------------------
  // The palette

  /** The combinations the palette keeps: four colours per shape. */
  predicate InPalette(t: ShapeType, c: ShapeColor) {
    match t
    case Circle => c in {Red, Blue, Green, Yellow}
    case Square => c in {Red, Blue, Purple, Orange}
    case Triangle => c in {Green, Yellow, Purple, Orange}
    case Diamond => c in {Blue, Green, Red, Yellow}
  }

  /** The inner loop over `shapeColors` from index `k` on, for one shape. */
  function ColorsFrom(t: ShapeType, k: nat): seq<Item>
    requires k <= 6
    decreases 6 - k
  {
    if k == 6 then []
    else (if InPalette(t, ColorAt(k)) then [Item(t, ColorAt(k))] else []) + ColorsFrom(t, k + 1)
  }

  /** The outer loop over `shapeTypes` from index `k` on. */
  function TypesFrom(k: nat): seq<Item>
    requires k <= 4
    decreases 4 - k
  {
    if k == 4 then [] else ColorsFrom(TypeAt(k), 0) + TypesFrom(k + 1)
  }

  /** How many items have shape `t`. */
  function CountShape(s: seq<Item>, t: ShapeType): nat {
    if |s| == 0 then 0 else (if s[0].shape == t then 1 else 0) + CountShape(s[1..], t)
  }

  function Circles(): seq<Item> {
    [Item(Circle, Red), Item(Circle, Blue), Item(Circle, Green), Item(Circle, Yellow)]
  }

  function Squares(): seq<Item> {
    [Item(Square, Red), Item(Square, Blue), Item(Square, Purple), Item(Square, Orange)]
  }

  function Triangles(): seq<Item> {
    [Item(Triangle, Green), Item(Triangle, Yellow), Item(Triangle, Purple), Item(Triangle, Orange)]
  }

  function Diamonds(): seq<Item> {
    [Item(Diamond, Red), Item(Diamond, Blue), Item(Diamond, Green), Item(Diamond, Yellow)]
  }

  /** The loops list the kept colours of each shape in `shapeColors` order. */
  lemma PaletteRows()
    ensures TypesFrom(0) == Circles() + Squares() + Triangles() + Diamonds()
  {
    CircleRow();
    SquareRow();
    TriangleRow();
    DiamondRow();
    assert TypesFrom(4) == [];
    assert TypesFrom(3) == Diamonds();
    assert TypesFrom(2) == Triangles() + Diamonds();
    assert TypesFrom(1) == Squares() + (Triangles() + Diamonds());
  }

  lemma CircleRow()
    ensures ColorsFrom(Circle, 0) == Circles()
  {
    assert ColorsFrom(Circle, 4) == [];
    assert ColorsFrom(Circle, 2) == [Item(Circle, Green), Item(Circle, Yellow)];
  }

  lemma SquareRow()
    ensures ColorsFrom(Square, 0) == Squares()
  {
    assert ColorsFrom(Square, 4) == [Item(Square, Purple), Item(Square, Orange)];
    assert ColorsFrom(Square, 2) == ColorsFrom(Square, 4);
  }

  lemma TriangleRow()
    ensures ColorsFrom(Triangle, 0) == Triangles()
  {
    assert ColorsFrom(Triangle, 4) == [Item(Triangle, Purple), Item(Triangle, Orange)];
    assert ColorsFrom(Triangle, 2) == [Item(Triangle, Green), Item(Triangle, Yellow)] + ColorsFrom(Triangle, 4);
  }

  lemma DiamondRow()
    ensures ColorsFrom(Diamond, 0) == Diamonds()
  {
    assert ColorsFrom(Diamond, 4) == [];
    assert ColorsFrom(Diamond, 2) == [Item(Diamond, Green), Item(Diamond, Yellow)];
  }

  /** A block of one shape with four different colours. */
  ghost predicate Block(s: seq<Item>, t: ShapeType) {
    |s| == 4 && Distinct(s) && forall i :: 0 <= i < 4 ==> s[i].shape == t && InPalette(t, s[i].color)
  }

  lemma Blocks()
    ensures Block(Circles(), Circle) && Block(Squares(), Square)
    ensures Block(Triangles(), Triangle) && Block(Diamonds(), Diamond)
  {
  }

  /** Blocks of different shapes joined together have no repeated item. */
  lemma JoinBlocks(a: seq<Item>, b: seq<Item>)
    requires Distinct(a) && Distinct(b)
    requires forall i, j :: 0 <= i < |a| && 0 <= j < |b| ==> a[i].shape != b[j].shape
    ensures Distinct(a + b)
  {
    var ab := a + b;
    forall i, j | 0 <= i < j < |ab|
      ensures ab[i] != ab[j]
    {
      if j < |a| {
        assert ab[i] == a[i] && ab[j] == a[j];
      } else if i >= |a| {
        assert ab[i] == b[i - |a|] && ab[j] == b[j - |a|];
      } else {
        assert ab[i] == a[i] && ab[j] == b[j - |a|];
      }
    }
  }

  lemma CountCons(s: seq<Item>, u: ShapeType)
    requires |s| > 0
    ensures CountShape(s, u) == (if s[0].shape == u then 1 else 0) + CountShape(s[1..], u)
  {
  }

  lemma CountBlock(s: seq<Item>, t: ShapeType, u: ShapeType)
    requires Block(s, t)
    ensures CountShape(s, u) == if t == u then 4 else 0
  {
    CountCons(s, u);
    CountCons(s[1..], u);
    CountCons(s[2..], u);
    CountCons(s[3..], u);
    assert s[1..][1..] == s[2..] && s[2..][1..] == s[3..] && s[3..][1..] == [];
  }

  lemma PaletteDistinct()
    ensures Distinct(Circles() + Squares() + Triangles() + Diamonds())
  {
    Blocks();
    var c, s, tr, d := Circles(), Squares(), Triangles(), Diamonds();
    JoinBlocks(c, s);
    JoinBlocks(c + s, tr);
    JoinBlocks(c + s + tr, d);
  }

  lemma PaletteKept()
    ensures var p := Circles() + Squares() + Triangles() + Diamonds();
      |p| == 16 && forall i :: 0 <= i < 16 ==> InPalette(p[i].shape, p[i].color)
  {
    Blocks();
    var c, s, tr, d := Circles(), Squares(), Triangles(), Diamonds();
    var p := c + s + tr + d;
    forall i | 0 <= i < 16
      ensures InPalette(p[i].shape, p[i].color)
    {
      if i < 4 { assert p[i] == c[i]; }
      else if i < 8 { assert p[i] == s[i - 4]; }
      else if i < 12 { assert p[i] == tr[i - 8]; }
      else { assert p[i] == d[i - 12]; }
    }
  }

  lemma PaletteComplete()
    ensures forall t, col :: InPalette(t, col) ==> Item(t, col) in Circles() + Squares() + Triangles() + Diamonds()
  {
    var c, s, tr, d := Circles(), Squares(), Triangles(), Diamonds();
    var p := c + s + tr + d;
    forall t, col | InPalette(t, col)
      ensures Item(t, col) in p
    {
      match t {
        case Circle => assert Item(t, col) in c;
        case Square => assert Item(t, col) in s;
        case Triangle => assert Item(t, col) in tr;
        case Diamond => assert Item(t, col) in d;
      }
    }
  }

  lemma PaletteCounts(t: ShapeType)
    ensures CountShape(Circles() + Squares() + Triangles() + Diamonds(), t) == 4
  {
    Blocks();
    var c, s, tr, d := Circles(), Squares(), Triangles(), Diamonds();
    CountShapeAppend(c + s + tr, d, t);
    CountShapeAppend(c + s, tr, t);
    CountShapeAppend(c, s, t);
    CountBlock(c, Circle, t);
    CountBlock(s, Square, t);
    CountBlock(tr, Triangle, t);
    CountBlock(d, Diamond, t);
  }

  /**
    Before shuffling the palette lists the sixteen kept pairs, each once, shapes in
    order: four per shape, and exactly the pairs `InPalette` admits.
   */
  lemma PaletteContents()
    ensures var p := TypesFrom(0);
      && |p| == 16 && Distinct(p)
      && (forall i :: 0 <= i < 16 ==> InPalette(p[i].shape, p[i].color))
      && (forall t, c :: InPalette(t, c) ==> Item(t, c) in p)
      && (forall t :: CountShape(p, t) == 4)
  {
    PaletteRows();
    PaletteDistinct();
    PaletteKept();
    PaletteComplete();
    forall t
      ensures CountShape(TypesFrom(0), t) == 4
    {
      PaletteCounts(t);
    }
  }

  lemma {:induction false} CountShapeAppend(a: seq<Item>, b: seq<Item>, t: ShapeType)
    ensures CountShape(a + b, t) == CountShape(a, t) + CountShape(b, t)
    decreases |a|
  {
    if |a| > 0 {
      assert (a + b)[0] == a[0];
      assert (a + b)[1..] == a[1..] + b;
      CountShapeAppend(a[1..], b, t);
      CountCons(a + b, t);
      CountCons(a, t);
    } else {
      assert a + b == b;
    }
  }

  /** The palette after the effect's Fisher-Yates shuffle. */
  function Palette(js: seq<nat>): (p: seq<Item>)
    requires DrawsFit(16, js)
    ensures |p| == 16
  {
    PaletteContents();
    FisherYates(TypesFrom(0), js)
  }

  /** Shuffling keeps the sixteen distinct pairs: the palette is a permutation of them. */
  lemma PaletteSpec(js: seq<nat>)
    requires DrawsFit(16, js)
    ensures multiset(Palette(js)) == multiset(TypesFrom(0))
    ensures Distinct(Palette(js))
    ensures forall t, c :: InPalette(t, c) <==> Item(t, c) in Palette(js)
  {
    PaletteContents();
    var s := TypesFrom(0);
    FisherYatesPermutes(s, js);
    DistinctMultiset(s);
    MultisetDistinct(Palette(js), s);
    forall t, c
      ensures InPalette(t, c) <==> Item(t, c) in Palette(js)
    {
      assert Item(t, c) in Palette(js) <==> Item(t, c) in multiset(s);
    }
  }

  // ---------------------------------------------------------------------
  // Building the pattern

  /** The longest pattern `addShapeToPattern` builds. */
  const MaxLength := 12

  datatype Board = Board(palette: seq<Item>, selected: Option<Item>, pattern: seq<Item>,
                         isPlaying: bool, playbackIndex: int)

  /** `addShapeToPattern`: appends below twelve items, otherwise only warns. */
  function AddShape(b: Board, item: Item): (r: Board)
    ensures |b.pattern| <= MaxLength ==> |r.pattern| <= MaxLength
    ensures |b.pattern| < MaxLength ==> r.pattern == b.pattern + [item] && r.selected == Some(item)
    ensures |b.pattern| >= MaxLength ==> r == b
    ensures r.palette == b.palette && r.isPlaying == b.isPlaying
  {
    if |b.pattern| < MaxLength then b.(pattern := b.pattern + [item], selected := Some(item)) else b
  }

  /** `removeLastShape`: drops exactly the last item, and does nothing to an empty pattern. */
  function RemoveLast(b: Board): (r: Board)
    ensures |b.pattern| == 0 ==> r == b
    ensures |b.pattern| > 0 ==> r.pattern + [b.pattern[|b.pattern| - 1]] == b.pattern
    ensures r.selected == b.selected && r.palette == b.palette
  {
    if |b.pattern| > 0 then b.(pattern := b.pattern[..|b.pattern| - 1]) else b
  }

  /** Removing undoes adding, as long as the add was not refused. */
  lemma RemoveUndoesAdd(b: Board, item: Item)
    requires |b.pattern| < MaxLength
    ensures RemoveLast(AddShape(b, item)).pattern == b.pattern
  {
    assert (b.pattern + [item])[..|b.pattern|] == b.pattern;
  }

  /** `clearPattern`. */
  function Clear(b: Board): (r: Board)
    ensures r.pattern == [] && !r.isPlaying && r.playbackIndex == -1
    ensures r.palette == b.palette && r.selected == b.selected
  {
    b.(pattern := [], isPlaying := false, playbackIndex := -1)
  }

  // ---------------------------------------------------------------------
  // Recognising the pattern

  datatype PatternTypes = PatternTypes(repeatingPattern: bool, repeatLength: nat,
                                       alternatingColors: bool, alternatingShapes: bool,
                                       sameColors: bool, sameShapes: bool)

  /** The inner repeat loop: does every item from `r` on equal the one `r` places back in the first block? */
  method RepeatsWith(p: seq<Item>, r: nat) returns (ok: bool)
    requires 0 < r
    ensures ok <==> Periodic(p, r)
  {
    var i := r;
    while i < |p|
      invariant r <= i
      invariant forall k :: r <= k < i && k < |p| ==> p[k] == p[k % r]
    {
      if p[i].shape != p[i % r].shape || p[i].color != p[i % r].color {
        MismatchNotPeriodic(p, r, i);
        return false;
      }
      i := i + 1;
    }
    MatchesPeriodic(p, r);
    return true;
  }

  /** One item that differs from its counterpart in the first block rules the period out. */
  lemma MismatchNotPeriodic(p: seq<Item>, r: nat, i: nat)
    requires 0 < r <= i < |p| && p[i] != p[i % r]
    ensures !Periodic(p, r)
  {
  }

  /** Items before `r` are their own counterparts, so matching from `r` on is enough. */
  lemma MatchesPeriodic(p: seq<Item>, r: nat)
    requires 0 < r
    requires forall k :: r <= k < |p| ==> p[k] == p[k % r]
    ensures Periodic(p, r)
  {
    forall k | 0 <= k < |p|
      ensures p[k] == p[k % r]
    {
      if k < r {
        DivModUnique(k, r, 0, k);
      }
    }
  }

  /**
    `detectPatternType`. Same shapes or colours compare with the first item;
    alternation needs four items, a period of 2 in the attribute, and not a single
    value; a repeat needs six items, and the length reported is the smallest period
    between 2 and half the length.
   */
  method Detect(p: seq<Item>) returns (t: PatternTypes)
    ensures t.sameShapes <==> forall i :: 1 <= i < |p| ==> p[i].shape == p[0].shape
    ensures t.sameColors <==> forall i :: 1 <= i < |p| ==> p[i].color == p[0].color
    ensures t.alternatingShapes <==>
              |p| >= 4 && !t.sameShapes && forall i :: 2 <= i < |p| ==> p[i].shape == p[i % 2].shape
    ensures t.alternatingColors <==>
              |p| >= 4 && !t.sameColors && forall i :: 2 <= i < |p| ==> p[i].color == p[i % 2].color
    ensures t.repeatingPattern <==> |p| >= 6 && exists r :: 2 <= r <= |p| / 2 && Periodic(p, r)
    ensures t.repeatingPattern ==>
              && 2 <= t.repeatLength <= |p| / 2 && Periodic(p, t.repeatLength)
              && forall r :: 2 <= r < t.repeatLength ==> !Periodic(p, r)
    ensures !t.repeatingPattern ==> t.repeatLength == 0
  {
    var sameShapes, sameColors := true, true;
    var i := 1;
    while i < |p|
      invariant 1 <= i <= |p| || |p| == 0
      invariant sameShapes <==> forall k :: 1 <= k < i && k < |p| ==> p[k].shape == p[0].shape
      invariant sameColors <==> forall k :: 1 <= k < i && k < |p| ==> p[k].color == p[0].color
    {
      if p[i].shape != p[0].shape { sameShapes := false; }
      if p[i].color != p[0].color { sameColors := false; }
      i := i + 1;
    }

    var altShapes, altColors := false, false;
    if |p| >= 4 {
      var isAltShape, isAltColor := true, true;
      var j := 2;
      while j < |p|
        invariant 2 <= j <= |p|
        invariant isAltShape <==> forall k :: 2 <= k < j ==> p[k].shape == p[k % 2].shape
        invariant isAltColor <==> forall k :: 2 <= k < j ==> p[k].color == p[k % 2].color
      {
        if p[j].shape != p[j % 2].shape { isAltShape := false; }
        if p[j].color != p[j % 2].color { isAltColor := false; }
        j := j + 1;
      }
      altShapes := isAltShape && !sameShapes;
      altColors := isAltColor && !sameColors;
    }

    var repeating, repeatLength := false, 0;
    if |p| >= 6 {
      var r := 2;
      while r <= |p| / 2
        invariant 2 <= r <= |p| / 2 + 1
        invariant forall q :: 2 <= q < r ==> !Periodic(p, q)
        decreases |p| / 2 - r
      {
        var ok := RepeatsWith(p, r);
        if ok {
          repeating, repeatLength := true, r;
          break;
        }
        r := r + 1;
      }
    }
    t := PatternTypes(repeating, repeatLength, altColors, altShapes, sameColors, sameShapes);
  }

  /** The message `analyzePattern` shows, in its order of preference. */
  datatype Feedback = TooShort | Repeating(every: nat) | AlternatingColors | AlternatingShapes
                    | SameShape | SameColor | Other

  /** Every item has the first item's shape. */
  predicate OneShape(p: seq<Item>) {
    forall i :: 1 <= i < |p| ==> p[i].shape == p[0].shape
  }

  /** Every item has the first item's colour. */
  predicate OneColor(p: seq<Item>) {
    forall i :: 1 <= i < |p| ==> p[i].color == p[0].color
  }

  /** The shapes alternate with period 2 without all being the same. */
  predicate AlternatesShapes(p: seq<Item>) {
    !OneShape(p) && forall i :: 2 <= i < |p| ==> p[i].shape == p[i % 2].shape
  }

  /** The colours alternate with period 2 without all being the same. */
  predicate AlternatesColors(p: seq<Item>) {
    !OneColor(p) && forall i :: 2 <= i < |p| ==> p[i].color == p[i % 2].color
  }

  /** Six items or more, repeating with some period between 2 and half the length. */
  ghost predicate RepeatsSomewhere(p: seq<Item>) {
    |p| >= 6 && exists r :: 2 <= r <= |p| / 2 && Periodic(p, r)
  }

  /**
    `analyzePattern`: fewer than four items ask for more; otherwise the first kind that
    holds wins, in the order repeat, alternating colours, alternating shapes, one shape,
    one colour, and a general message when none holds.
   */
  method Analyze(p: seq<Item>) returns (f: Feedback)
    ensures f == TooShort <==> |p| < 4
    ensures f.Repeating? <==> |p| >= 4 && RepeatsSomewhere(p)
    ensures f.Repeating? ==>
              && 2 <= f.every <= |p| / 2 && Periodic(p, f.every)
              && forall r :: 2 <= r < f.every ==> !Periodic(p, r)
    ensures f == AlternatingColors <==> |p| >= 4 && !RepeatsSomewhere(p) && AlternatesColors(p)
    ensures f == AlternatingShapes <==>
              |p| >= 4 && !RepeatsSomewhere(p) && !AlternatesColors(p) && AlternatesShapes(p)
    ensures f == SameShape <==>
              |p| >= 4 && !RepeatsSomewhere(p) && !AlternatesColors(p) && !AlternatesShapes(p)
              && OneShape(p)
    ensures f == SameColor <==>
              |p| >= 4 && !RepeatsSomewhere(p) && !AlternatesColors(p) && !AlternatesShapes(p)
              && !OneShape(p) && OneColor(p)
    ensures f == Other <==>
              |p| >= 4 && !RepeatsSomewhere(p) && !AlternatesColors(p) && !AlternatesShapes(p)
              && !OneShape(p) && !OneColor(p)
  {
    if |p| < 4 {
      return TooShort;
    }
    var t := Detect(p);
    if t.repeatingPattern {
      f := Repeating(t.repeatLength);
    } else if t.alternatingColors {
      f := AlternatingColors;
    } else if t.alternatingShapes {
      f := AlternatingShapes;
    } else if t.sameShapes {
      f := SameShape;
    } else if t.sameColors {
      f := SameColor;
    } else {
      f := Other;
    }
  }

  /**
    `playPattern` up to its timers: an empty pattern is refused with a message;
    otherwise playback starts from before the first item and the pattern is analysed.
   */
  method Play(b: Board) returns (r: Board, f: Option<Feedback>)
    ensures |b.pattern| == 0 ==> r == b && f.None?
    ensures |b.pattern| > 0 ==> r == b.(isPlaying := true, playbackIndex := -1) && f.Some?
    ensures |b.pattern| > 0 && |b.pattern| < 4 ==> f == Some(TooShort)
  {
    if |b.pattern| == 0 {
      return b, None;
    }
    r := b.(isPlaying := true, playbackIndex := -1);
    var a := Analyze(b.pattern);
    f := Some(a);
  }
}

=== FILE: digit_grid.dfy ===
/**
  The grid the multiplication visualizer draws for one step: a carry row, the
  multiplicand, the multiplier with its "×", one line per partial product and, at the
  final step, the answer. Every line is right-aligned to a common width; this module
  computes that width and each line's left padding.
 */
module DigitGrid {
  import opened Wrappers
  import opened Digits
  import opened Js
  import opened MultiplicationVisualizer

  /** `currentStep.partialProducts || []`. */
  function StepRows(s: CalcStep): seq<seq<Cell>> {
    match s
    case MultiplyDigits(_, _, _, _, _, _, _, rows) => rows
    case CarryDigit(_, _, _, rows) => rows
    case FinalCarry(_, rows) => rows
    case PartialDone(_, rows, _, _) => rows
    case FinalSum(rows, _) => rows
    case _ => []
  }

  /** `currentStep.carryValues`, empty on the steps that have none. */
  function StepCarries(s: CalcStep): map<int, nat> {
    if s.CarryDigit? then s.carries else map[]
  }

  function Max(x: nat, y: nat): (m: nat)
    ensures m >= x && m >= y && (m == x || m == y)
  {
    if x >= y then x else y
  }

  /** The longest line among the partial products, 0 when there are none. */
  function Longest(rows: seq<seq<Cell>>): (m: nat)
    ensures forall k :: 0 <= k < |rows| ==> |rows[k]| <= m
    ensures |rows| == 0 ==> m == 0
    ensures |rows| > 0 ==> exists k :: 0 <= k < |rows| && m == |rows[k]|
  {
    if |rows| == 0 then 0
    else
      var init := Longest(rows[..|rows| - 1]);
      var m := Max(init, |rows[|rows| - 1]|);
      assert forall k :: 0 <= k < |rows| - 1 ==> rows[..|rows| - 1][k] == rows[k];
      m
  }

  /**
    `maxWidth`: one more than the longest of the multiplicand, the multiplier and the
    partial products, the extra column holding a carried digit.
   */
  function MaxWidth(aLen: nat, bLen: nat, rows: seq<seq<Cell>>): (w: nat)
    ensures w > aLen && w > bLen
    ensures forall k :: 0 <= k < |rows| ==> w > |rows[k]|
    ensures w - 1 == aLen || w - 1 == bLen || exists k :: 0 <= k < |rows| && w - 1 == |rows[k]|
  {
    Max(Max(aLen, bLen), Longest(rows)) + 1
  }

  /**
    The loop meant to pad a partial product on the right: `paddedProduct.push()` is
    called `n` times with no argument, and each call appends nothing.
   */
  function PushNothing(row: seq<Cell>, n: nat): seq<Cell> {
    if n == 0 then row else PushNothing(row, n - 1) + []
  }

  /** The padding loop leaves the partial product exactly as it was. */
  lemma {:induction false} PushNothingKeeps(row: seq<Cell>, n: nat)
    ensures PushNothing(row, n) == row
  {
    if n > 0 {
      PushNothingKeeps(row, n - 1);
      assert PushNothing(row, n) == PushNothing(row, n - 1) + [];
    }
  }

  /**
    The cell counts of one grid: the carry row's entries (the carried value shown above
    each column, if any), the blank cells before the multiplicand, before the "×" of the
    multiplier line, before each partial product, and before the answer on the final step.
   */
  datatype Grid = Grid(width: nat, carryRow: seq<Option<nat>>, topPad: nat, bottomPad: nat,
                       rowPads: seq<nat>, sumPad: Option<nat>)

  /** The blank cells of one partial-product line, after the padding loop. */
  function RowPad(width: nat, rows: seq<seq<Cell>>, k: nat): nat
    requires k < |rows|
  {
    ArrayFromLength(width - |PushNothing(rows[k], |rows| - 1 - k)|)
  }

  /** The grid `DigitGrid` lays out for multiplicand `a`, multiplier `b` and one step. */
  function Layout(a: nat, b: nat, step: CalcStep): (g: Grid)
    ensures g.topPad >= 1 && g.topPad + NumDigits(a) == g.width
    ensures g.bottomPad + 1 + NumDigits(b) == g.width
    ensures |g.rowPads| == |StepRows(step)|
    ensures forall k :: 0 <= k < |g.rowPads| ==>
              g.rowPads[k] >= 1 && g.rowPads[k] + |StepRows(step)[k]| == g.width
    ensures |g.carryRow| == g.width
    ensures forall i :: 0 <= i < g.width ==>
              (g.carryRow[i].Some? <==> i in StepCarries(step))
              && (i in StepCarries(step) ==> g.carryRow[i] == Some(StepCarries(step)[i]))
    ensures g.sumPad.Some? <==> step.FinalSum?
  {
    var rows := StepRows(step);
    var width := MaxWidth(NumDigits(a), NumDigits(b), rows);
    Grid(width,
         CarryRow(width, StepCarries(step)),
         ArrayFromLength(width - NumDigits(a)),
         ArrayFromLength(width - NumDigits(b) - 1),
         RowPads(width, rows),
         if step.FinalSum? then Some(ArrayFromLength(width - |step.finalProduct|)) else None)
  }

  /** The carry row: column `i` shows the carry filed under `i`, if any. */
  function CarryRow(width: nat, carries: map<int, nat>): (r: seq<Option<nat>>)
    ensures |r| == width
    ensures forall i :: 0 <= i < width ==>
              (r[i].Some? <==> i in carries) && (i in carries ==> r[i] == Some(carries[i]))
  {
    seq(width, i => if i in carries then Some(carries[i]) else None)
  }

  /** The blank cells before each partial product: each line, padded, fills the grid's width. */
  function RowPads(width: nat, rows: seq<seq<Cell>>): (pads: seq<nat>)
    requires forall k :: 0 <= k < |rows| ==> width > |rows[k]|
    ensures |pads| == |rows|
    ensures forall k :: 0 <= k < |rows| ==> pads[k] >= 1 && pads[k] + |rows[k]| == width
  {
    var pads := seq(|rows|, k requires 0 <= k < |rows| => RowPad(width, rows, k));
    assert forall k :: 0 <= k < |rows| ==> pads[k] + |rows[k]| == width by {
      forall k | 0 <= k < |rows|
        ensures pads[k] + |rows[k]| == width
      {
        PushNothingKeeps(rows[k], |rows| - 1 - k);
      }
    }
    pads
  }

  lemma ProductBound(a: nat, b: nat, p: nat, q: nat)
    requires a < p && b < q
    ensures a * b < p * q
  {
    MulLe(a, p - 1, b);
    MulLe(b, q, p);
  }

  /** A product has at most as many digits as its two factors together. */
  lemma ProductDigits(a: nat, b: nat, c: nat)
    requires c == a * b
    ensures NumDigits(c) <= NumDigits(a) + NumDigits(b)
  {
    var m, n := NumDigits(a), NumDigits(b);
    ProductBound(a, b, Pow10(m), Pow10(n));
    Pow10Add(m, n);
    NumDigitsBound(c, m + n);
  }

  /** The last partial product spans at least the two factors' lengths less one, so the grid spans both. */
  lemma RowsWidth(md: seq<nat>, bd: seq<nat>)
    requires AllDigits(md) && AllDigits(bd) && |bd| >= 1
    ensures MaxWidth(|md|, |bd|, Rows(md, bd, |bd|).rows) >= |md| + |bd|
  {
    var rows := Rows(md, bd, |bd|).rows;
    RowsSpec(md, bd, |bd|, rows);
    var k := |bd| - 1;
    assert RowOk(md, bd, rows[k], k);
  }

  /**
    On the final step of a generated lesson the answer fits the grid: its blank cells
    plus its digits fill the width exactly, so `Array.from` never clamps a negative length.
   */
  lemma FinalSumFits(a: nat, b: nat)
    ensures var s := GenerateCalculationSteps(a, b);
      && |s| >= 2
      && var g := Layout(a, b, s[|s| - 1]);
      && g.sumPad.Some?
      && g.sumPad.value + |s[|s| - 1].finalProduct| == g.width
  {
    GenerateUnfold(a, b);
    AssembleRows(a, b, ToDigits(a), ToDigits(b), ToDigits(Times(a, b)));
    var s := GenerateCalculationSteps(a, b);
    FinalStepFits(a, b, s[|s| - 1]);
  }

  /** The grid of the final-sum step leaves a non-negative blank run before the answer. */
  lemma FinalStepFits(a: nat, b: nat, step: CalcStep)
    requires step == FinalSum(Rows(ToDigits(a), ToDigits(b), NumDigits(b)).rows, ToDigits(Times(a, b)))
    ensures Layout(a, b, step).sumPad.Some?
    ensures Layout(a, b, step).sumPad.value + |step.finalProduct| == Layout(a, b, step).width
  {
    AnswerFits(a, b);
  }

  /** The answer has no more digits than the grid is wide. */
  lemma AnswerFits(a: nat, b: nat)
    ensures NumDigits(Times(a, b)) <= MaxWidth(NumDigits(a), NumDigits(b), Rows(ToDigits(a), ToDigits(b), NumDigits(b)).rows)
  {
    var md, bd := ToDigits(a), ToDigits(b);
    assert |md| == NumDigits(a) && |bd| == NumDigits(b) && Canonical(md) && Canonical(bd);
    RowsWidth(md, bd);
    ProductDigits(a, b, Times(a, b));
    var w := MaxWidth(|md|, |bd|, Rows(md, bd, |bd|).rows);
    assert w >= |md| + |bd|;
  }
}

=== FILE: digits.dfy ===
/**
  Decimal place-value arithmetic shared by every hand-arithmetic screen:
  powers of ten, the digit list `n.toString().split('').map(Number)`, its value,
  the digit at a place, and digit strings.
 */
module Digits {

  function Pow10(n: nat): (r: nat)
    ensures r >= 1
  {
    if n == 0 then 1 else 10 * Pow10(n - 1)
  }

  lemma {:induction false} Pow10Add(a: nat, b: nat)
    ensures Pow10(a + b) == Pow10(a) * Pow10(b)
    decreases b
  {
    if b > 0 {
      Pow10Add(a, b - 1);
      assert Pow10(a + b) == 10 * Pow10(a + b - 1);
    }
  }

  lemma {:induction false} Pow10Monotone(a: nat, b: nat)
    requires a <= b
    ensures Pow10(a) <= Pow10(b)
    decreases b
  {
    if a < b {
      Pow10Monotone(a, b - 1);
    }
  }

  /** Number of characters of `n.toString()`; `0` has one digit. */
  function NumDigits(n: nat): (r: nat)
    ensures r >= 1 && n < Pow10(r)
    ensures r > 1 ==> Pow10(r - 1) <= n
  {
    if n < 10 then 1 else 1 + NumDigits(n / 10)
  }

  /** `NumDigits(n) <= k` exactly when `n` is below `10^k`. */
  lemma {:induction false} NumDigitsBound(n: nat, k: nat)
    ensures NumDigits(n) <= k <==> (k >= 1 && n < Pow10(k))
  {
    var d := NumDigits(n);
    if d <= k {
      Pow10Monotone(d, k);
    }
    if k >= 1 && n < Pow10(k) && d > k {
      Pow10Monotone(k, d - 1);
    }
  }

  /** Every entry is a decimal digit. */
  predicate AllDigits(ds: seq<nat>) {
    forall i :: 0 <= i < |ds| ==> ds[i] < 10
  }

  /** A digit list as `toString` writes it: non-empty, no leading zero unless it is `[0]`. */
  predicate Canonical(ds: seq<nat>) {
    |ds| >= 1 && AllDigits(ds) && (|ds| > 1 ==> ds[0] != 0)
  }

  /** The number a most-significant-first digit list denotes (Horner, as `parseInt` reads). */
  function Value(ds: seq<nat>): nat {
    if |ds| == 0 then 0 else Value(ds[..|ds| - 1]) * 10 + ds[|ds| - 1]
  }

  /** `n.toString().split('').map(Number)`. */
  function ToDigits(n: nat): (ds: seq<nat>)
    ensures |ds| == NumDigits(n)
    ensures Canonical(ds)
    ensures Value(ds) == n
  {
    if n < 10 then [n]
    else
      var init := ToDigits(n / 10);
      var ds := init + [n % 10];
      assert ds[..|ds| - 1] == init;
      ds
  }

  lemma {:induction false} ValueBound(ds: seq<nat>)
    requires AllDigits(ds)
    ensures Value(ds) < Pow10(|ds|)
    ensures |ds| >= 1 && ds[0] != 0 ==> Pow10(|ds| - 1) <= Value(ds)
    decreases |ds|
  {
    if |ds| > 0 {
      var init := ds[..|ds| - 1];
      ValueBound(init);
      if |init| >= 1 {
        assert init[0] == ds[0];
      }
    }
  }

  /** Round trip: a canonical digit list is the `toString` of its value. */
  lemma {:induction false} ToDigitsOfValue(ds: seq<nat>)
    requires Canonical(ds)
    ensures ToDigits(Value(ds)) == ds
    decreases |ds|
  {
    if |ds| > 1 {
      var init := ds[..|ds| - 1];
      assert init[0] == ds[0];
      assert Canonical(init);
      ToDigitsOfValue(init);
      ValueBound(init);
      var v := Value(ds);
      assert v / 10 == Value(init) && v % 10 == ds[|ds| - 1];
      assert init + [ds[|ds| - 1]] == ds;
    }
  }

  /** Putting a digit in front adds it at the place just above the list. */
  lemma {:induction false} ValuePrepend(d: nat, ds: seq<nat>)
    ensures Value([d] + ds) == d * Pow10(|ds|) + Value(ds)
    decreases |ds|
  {
    if |ds| > 0 {
      var init := ds[..|ds| - 1];
      var last := ds[|ds| - 1];
      assert ([d] + ds)[..|ds|] == [d] + init;
      ValuePrepend(d, init);
      var p := Pow10(|init|);
      assert Pow10(|ds|) == 10 * p;
      PrependStep(d, p, Value(init), last, Value([d] + ds), Value(ds));
    }
  }

  lemma PrependStep(d: int, p: int, vi: int, last: int, whole: int, v: int)
    requires whole == (d * p + vi) * 10 + last && v == vi * 10 + last
    ensures whole == d * (10 * p) + v
  {
  }

  lemma {:induction false} ValueAppend(ds: seq<nat>, d: nat)
    ensures Value(ds + [d]) == Value(ds) * 10 + d
  {
    assert (ds + [d])[..|ds|] == ds;
  }

  /** A prefix's value, shifted to the places it occupies, never exceeds the whole. */
  lemma {:induction false} PrefixValueBound(ds: seq<nat>, j: nat)
    requires j <= |ds|
    ensures Value(ds[..j]) * Pow10(|ds| - j) <= Value(ds)
    decreases |ds| - j
  {
    if j == |ds| {
      assert ds[..j] == ds;
    } else {
      PrefixValueBound(ds, j + 1);
      var p := Pow10(|ds| - (j + 1));
      assert ds[..j + 1][..j] == ds[..j];
      assert Value(ds[..j + 1]) == Value(ds[..j]) * 10 + ds[j];
      assert Pow10(|ds| - j) == 10 * p;
      PrefixStep(Value(ds[..j]), Value(ds[..j + 1]), ds[j], p, Value(ds));
    }
  }

  lemma PrefixStep(v: nat, next: nat, dg: nat, p: nat, whole: nat)
    requires next == v * 10 + dg && next * p <= whole
    ensures v * (10 * p) <= whole
  {
    MulLe(v * 10, next, p);
    assert v * (10 * p) == (v * 10) * p;
  }

  /** A list of `k` zeros denotes zero. */
  lemma {:induction false} ValueZeros(k: nat)
    ensures Value(seq(k, _ => 0)) == 0
  {
    if k > 0 {
      assert seq(k, _ => 0)[..k - 1] == seq(k - 1, _ => 0);
      ValueZeros(k - 1);
    }
  }

  /** The product of two naturals, known to be a natural. */
  function Times(a: nat, b: nat): (p: nat)
    ensures p == a * b
  {
    MulLe(0, a, b);
    a * b
  }

  lemma MulLe(a: int, b: int, m: int)
    requires a <= b && m >= 0
    ensures a * m <= b * m
  {
    assert b * m - a * m == (b - a) * m;
  }

  /** Euclidean division of a natural number: a natural quotient and a remainder below the divisor. */
  lemma Euclid(n: nat, m: int)
    requires m > 0
    ensures n / m >= 0 && 0 <= n % m < m && n == (n / m) * m + n % m
  {
    var q := n / m;
    assert n == q * m + n % m;
    if q < 0 {
      MulLe(q, -1, m);
      assert false;
    }
  }

  lemma DivModUnique(n: int, m: int, q: int, r: int)
    requires m > 0 && n == q * m + r && 0 <= r < m
    ensures n / m == q && n % m == r
  {
    var q0, r0 := n / m, n % m;
    assert n == q0 * m + r0;
    if q0 < q {
      MulLe(q0 + 1, q, m);
      assert false;
    } else if q0 > q {
      MulLe(q + 1, q0, m);
      assert false;
    }
  }

  /** `Math.floor(v / d)` on non-negative integers. */
  function FloorDiv(v: nat, d: nat): (q: nat)
    requires d > 0
    ensures q * d <= v < q * d + d
  {
    v / d
  }

  /** The running value after bringing down one more digit stays below ten divisors, so its quotient is one digit. */
  lemma QuotientDigit(v: nat, c: nat, dg: nat, d: nat, q: nat)
    requires d > 0 && c < d && dg < 10 && v == c * 10 + dg && q * d <= v
    ensures q < 10
  {
    MulLe(c, d - 1, 10);
    if q >= 10 {
      MulLe(10, q, d);
      assert false;
    }
  }

  /** The decimal digit of `n` at place `p` (0 = ones). */
  function GetDigit(n: nat, p: nat): (d: nat)
    ensures d < 10
  {
    (n / Pow10(p)) % 10
  }

  /** Splitting the low `i+1` places into the low `i` places and the digit at `i`. */
  lemma ModSplit(n: nat, i: nat)
    ensures n % Pow10(i + 1) == n % Pow10(i) + GetDigit(n, i) * Pow10(i)
    ensures n / Pow10(i + 1) == (n / Pow10(i)) / 10
  {
    var p := Pow10(i);
    var q := n / p;
    var lo := n % p;
    var x, y := q / 10, q % 10;
    assert n == q * p + lo;
    assert q == 10 * x + y;
    Regroup(x, y, p, lo);
    DivModUnique(n, 10 * p, x, y * p + lo);
  }

  lemma Regroup(x: nat, y: nat, p: nat, lo: nat)
    requires y < 10 && lo < p
    ensures (10 * x + y) * p + lo == x * (10 * p) + (y * p + lo)
    ensures y * p + lo < 10 * p
  {
    MulLe(y, 9, p);
  }

  lemma SmallMod(n: nat, k: nat)
    requires n < Pow10(k)
    ensures n % Pow10(k) == n && n / Pow10(k) == 0
  {
    DivModUnique(n, Pow10(k), 0, n);
  }

  /** `s[s.length-1-i] || '0'`: the digit at place `i` of a digit list, 0 past its end. */
  function DigitAt(ds: seq<nat>, i: nat): nat {
    if i < |ds| then ds[|ds| - 1 - i] else 0
  }

  /** Reading place `i` of `toString` agrees with the arithmetic digit. */
  lemma {:induction false} DigitAtToDigits(n: nat, i: nat)
    ensures DigitAt(ToDigits(n), i) == GetDigit(n, i)
    decreases n
  {
    if n < 10 {
      DigitAtOneDigit(n, i);
    } else {
      var init := ToDigits(n / 10);
      ToDigitsSplit(n, init, ToDigits(n));
      if i > 0 {
        DigitAtToDigits(n / 10, i - 1);
        DigitAtAppend(init, n % 10, i);
        GetDigitShift(n, i);
      }
    }
  }

  /** From ten on, the digit list is that of `n / 10` followed by the last digit. */
  lemma ToDigitsSplit(n: nat, init: seq<nat>, ds: seq<nat>)
    requires n >= 10 && init == ToDigits(n / 10) && ds == ToDigits(n)
    ensures ds == init + [n % 10]
    ensures DigitAt(ds, 0) == n % 10 == GetDigit(n, 0)
  {
  }

  lemma DigitAtOneDigit(n: nat, i: nat)
    requires n < 10
    ensures DigitAt(ToDigits(n), i) == GetDigit(n, i)
  {
    if i > 0 {
      assert Pow10(i) >= 10 by { Pow10Monotone(1, i); }
      SmallMod(n, i);
    }
  }

  /** Appending a digit on the right moves every other digit up one place. */
  lemma DigitAtAppend(ds: seq<nat>, x: nat, i: nat)
    requires i > 0
    ensures DigitAt(ds + [x], i) == DigitAt(ds, i - 1)
  {
    var s := ds + [x];
    if i - 1 < |ds| {
      assert s[|s| - 1 - i] == ds[|ds| - 1 - (i - 1)];
    }
  }

  /** Place `i > 0` of `n` is place `i - 1` of `n / 10`. */
  lemma GetDigitShift(n: nat, i: nat)
    requires i > 0
    ensures GetDigit(n / 10, i - 1) == GetDigit(n, i)
  {
    DivDivPow(n, i - 1);
  }

  lemma DivDivPow(n: nat, k: nat)
    ensures n / 10 / Pow10(k) == n / Pow10(k + 1)
  {
    var p := Pow10(k);
    var a := n / 10;
    var b := a / p;
    assert n == a * 10 + n % 10;
    assert a == b * p + a % p;
    assert n == b * (10 * p) + ((a % p) * 10 + n % 10) by {
      assert a * 10 == b * (10 * p) + (a % p) * 10;
    }
    assert (a % p) * 10 + n % 10 < 10 * p by {
      assert (a % p) * 10 <= (p - 1) * 10;
    }
    DivModUnique(n, 10 * p, b, (a % p) * 10 + n % 10);
  }

  /** Digits above the number's length read as 0. */
  lemma HighDigitZero(n: nat, i: nat)
    requires i >= NumDigits(n)
    ensures GetDigit(n, i) == 0
  {
    Pow10Monotone(NumDigits(n), i);
    SmallMod(n, i);
  }

  // ---------------------------------------------------------------------
  // Digit characters and digit strings

  predicate IsDigitChar(c: char) {
    '0' <= c <= '9'
  }

  predicate IsDigitString(s: string) {
    forall i :: 0 <= i < |s| ==> IsDigitChar(s[i])
  }

  function CharDigit(c: char): nat
    requires IsDigitChar(c)
  {
    (c as int) - ('0' as int)
  }

  function DigitChar(d: nat): (c: char)
    requires d < 10
    ensures IsDigitChar(c) && CharDigit(c) == d
  {
    (('0' as int) + d) as char
  }

  /** The digit list a digit string spells. */
  function StrDigits(s: string): (ds: seq<nat>)
    requires IsDigitString(s)
    ensures |ds| == |s| && AllDigits(ds)
    ensures forall i :: 0 <= i < |s| ==> ds[i] == CharDigit(s[i])
  {
    seq(|s|, i requires 0 <= i < |s| => CharDigit(s[i]))
  }

  /** The number a digit string denotes (leading zeros allowed). */
  function StrValue(s: string): nat
    requires IsDigitString(s)
  {
    Value(StrDigits(s))
  }

  /** `n.toString()`. */
  function NatToString(n: nat): (s: string)
    ensures IsDigitString(s) && |s| == NumDigits(n)
    ensures StrDigits(s) == ToDigits(n)
  {
    var ds := ToDigits(n);
    seq(|ds|, i requires 0 <= i < |ds| => DigitChar(ds[i]))
  }

  /** Round trip: the string of a number denotes that number. */
  lemma StrValueOfNatToString(n: nat)
    ensures StrValue(NatToString(n)) == n
  {
  }

  /** Appending one digit character: the value shifts one place and adds that digit. */
  lemma StrValueAppend(s: string, c: char)
    requires IsDigitString(s) && IsDigitChar(c)
    ensures IsDigitString(s + [c])
    ensures StrValue(s + [c]) == StrValue(s) * 10 + CharDigit(c)
  {
    assert StrDigits(s + [c]) == StrDigits(s) + [CharDigit(c)];
    ValueAppend(StrDigits(s), CharDigit(c));
  }
}

=== FILE: division.dfy ===
/**
  The division lesson: on the easy level a picture of the dividend's dots grouped by
  the divisor, otherwise a long division whose narrated steps carry the subtraction
  and the remainder written under each partial dividend.
 */
module DivisionOp {
  import opened Digits
  import opened OperationCursor
  import Problems

  /** One lesson step with the numbers its narration speaks. */
  datatype DivStep =
    | Intro(dividend: nat, divisor: nat)
    | Groups(dividend: nat, divisor: nat)
    | EasyResult(dividend: nat, divisor: nat, quotient: nat, remainder: nat)
    | DivideValue(value: nat, digitQuotient: nat, remainder: nat)
    | BringDown(digit: nat)
    | FinalAnswer(quotient: nat, remainder: nat)

  /** One `{ value, step }` entry of `subtractions` or `remainders`: a number and the step that reveals it. */
  datatype Entry = Entry(value: nat, step: nat)

  datatype Lesson = Lesson(steps: seq<DivStep>, subtractions: seq<Entry>, remainders: seq<Entry>)

  /** The loop variables `currentValue` and `stepCount` with the three arrays built so far. */
  datatype State = State(cv: nat, stepCount: nat, steps: seq<DivStep>, subs: seq<Entry>, rems: seq<Entry>)

  /** The three steps of the easy level. */
  function EasyLesson(dividend: nat, divisor: nat, quotient: nat, remainder: nat): Lesson {
    Lesson([Intro(dividend, divisor), Groups(dividend, divisor), EasyResult(dividend, divisor, quotient, remainder)],
           [Entry(dividend, 1)], [Entry(remainder, 2)])
  }

  /**
    Pass `i` of the long-division loop over the digits `ds` of the dividend, where
    `qLen` is the length of the quotient's string: bring down digit `i`; when the value
    is still below the divisor and more digits follow, go on; otherwise divide, provided
    the quotient has a digit at this place.
   */
  function Iteration(ds: seq<nat>, d: nat, qLen: nat, i: nat, st: State): (r: State)
    requires d > 0 && i < |ds|
    ensures st.steps <= r.steps && st.subs <= r.subs && st.rems <= r.rems
  {
    var x := st.cv * 10 + ds[i];
    if x < d && i < |ds| - 1 then st.(cv := x)
    else if qLen - (|ds| - i) < 0 then st.(cv := x)
    else
      var q := FloorDiv(x, d);
      var rest := x - d * q;
      var divided := st.steps + [DivideValue(x, q, x % d)];
      var subs := st.subs + [Entry(d * q, st.stepCount)];
      var rems := st.rems + [Entry(rest, st.stepCount)];
      if i < |ds| - 1 then State(rest, st.stepCount + 2, divided + [BringDown(ds[i + 1])], subs, rems)
      else State(rest, st.stepCount + 1, divided, subs, rems)
  }

  /** The loop after its first `n` passes. */
  function Run(ds: seq<nat>, d: nat, qLen: nat, n: nat): State
    requires d > 0 && n <= |ds|
  {
    if n == 0 then State(0, 1, [Intro(Value(ds), d)], [], [])
    else Iteration(ds, d, qLen, n - 1, Run(ds, d, qLen, n - 1))
  }

  /** The long-division lesson: the loop over `dividend.toString()`, then the final answer. */
  function LongLesson(dividend: nat, divisor: nat, quotient: nat, remainder: nat): Lesson
    requires divisor > 0
  {
    var ds := ToDigits(dividend);
    var st := Run(ds, divisor, NumDigits(quotient), |ds|);
    Lesson(st.steps + [FinalAnswer(quotient, remainder)], st.subs, st.rems)
  }

  /** `generateDivisionSteps`: the easy picture or the long division, chosen by the difficulty. */
  function GenerateDivisionSteps(difficulty: string, dividend: nat, divisor: nat, quotient: nat, remainder: nat): (l: Lesson)
    requires difficulty == "easy" || divisor > 0
    ensures |l.steps| >= 1 && l.steps[0] == Intro(dividend, divisor)
    ensures difficulty == "easy" ==>
              |l.steps| == 3 && l.subtractions == [Entry(dividend, 1)] && l.remainders == [Entry(remainder, 2)]
  {
    if difficulty == "easy" then EasyLesson(dividend, divisor, quotient, remainder)
    else
      var l := LongLesson(dividend, divisor, quotient, remainder);
      assert |l.steps| >= 1 && l.steps[0] == Intro(dividend, divisor) by {
        RunIntro(ToDigits(dividend), divisor, NumDigits(quotient), NumDigits(dividend));
      }
      l
  }

  lemma {:induction false} RunIntro(ds: seq<nat>, d: nat, qLen: nat, n: nat)
    requires d > 0 && n <= |ds|
    ensures |Run(ds, d, qLen, n).steps| >= 1 && Run(ds, d, qLen, n).steps[0] == Intro(Value(ds), d)
  {
    if n > 0 {
      RunIntro(ds, d, qLen, n - 1);
    }
  }

  // ---------------------------------------------------------------------
  // What the long division shows

  /**
    An entry pair is read off a divide step: both are revealed by the same step, which
    divides `value` into `digitQuotient` divisors, written as the subtraction, and the
    remainder, written below it; the quotient digit is one decimal digit.
   */
  predicate EntryOk(steps: seq<DivStep>, d: nat, sub: Entry, rem: Entry) {
    && sub.step == rem.step < |steps|
    && steps[sub.step].DivideValue?
    && var s := steps[sub.step];
    && s.digitQuotient < 10
    && sub.value == d * s.digitQuotient
    && rem.value == s.remainder < d
    && s.value == sub.value + rem.value
  }

  predicate AllEntriesOk(steps: seq<DivStep>, d: nat, subs: seq<Entry>, rems: seq<Entry>)
    requires |subs| == |rems|
  {
    forall k :: 0 <= k < |subs| ==> EntryOk(steps, d, subs[k], rems[k])
  }

  /**
    The loop invariant before pass `i`: the running value is the digits read so far
    modulo the divisor, every divide step so far is followed by a bring-down, and each
    pair of entries points at its divide step.
   */
  predicate Inv(ds: seq<nat>, d: nat, i: nat, st: State)
    requires d > 0 && i <= |ds|
  {
    && st.cv == Value(ds[..i]) % d
    && |st.subs| == |st.rems|
    && st.stepCount == |st.steps| == 1 + 2 * |st.subs|
    && AllEntriesOk(st.steps, d, st.subs, st.rems)
  }

  /** Bringing down one digit keeps the running value equal to the prefix modulo the divisor. */
  lemma ModStep(prefix: nat, cv: nat, dg: nat, d: nat, x: nat)
    requires d > 0 && cv == prefix % d && x == cv * 10 + dg
    ensures (prefix * 10 + dg) % d == x % d
    ensures x <= prefix * 10 + dg
  {
    var k, qx, rx := prefix / d, x / d, x % d;
    Euclid(prefix, d);
    Euclid(x, d);
    MulLe(0, k, d);
    Regroup(k, d, qx, rx, cv, dg, prefix, x);
    DivModUnique(prefix * 10 + dg, d, 10 * k + qx, rx);
  }

  /** The arithmetic of `ModStep`, over plain integers. */
  lemma Regroup(k: int, d: int, qx: int, rx: int, cv: int, dg: int, prefix: int, x: int)
    requires prefix == k * d + cv && x == qx * d + rx && x == cv * 10 + dg
    ensures prefix * 10 + dg == (10 * k + qx) * d + rx
  {
  }

  /**
    When the running value reaches the divisor at pass `i`, the whole quotient has a
    digit at that place, so the `digitIndex >= 0` guard lets the step through.
   */
  lemma GuardHolds(ds: seq<nat>, d: nat, i: nat, x: nat)
    requires d > 0 && AllDigits(ds) && i < |ds|
    requires d <= x <= Value(ds[..i + 1])
    ensures NumDigits(Value(ds) / d) >= |ds| - i
  {
    var p := Pow10(|ds| - i - 1);
    var q := FloorDiv(Value(ds), d);
    PrefixValueBound(ds, i + 1);
    MulLe(d, Value(ds[..i + 1]), p);
    QuotientAtLeast(q, d, p, Value(ds));
    NumDigitsBound(q, |ds| - i - 1);
  }

  lemma QuotientAtLeast(q: nat, d: nat, p: nat, v: nat)
    requires q * d <= v < q * d + d && d * p <= v
    ensures q >= p
  {
    if q < p {
      MulLe(q + 1, p, d);
    }
  }

  lemma PrefixAppend(ds: seq<nat>, i: nat)
    requires i < |ds|
    ensures Value(ds[..i + 1]) == Value(ds[..i]) * 10 + ds[i]
  {
    assert ds[..i + 1] == ds[..i] + [ds[i]];
    ValueAppend(ds[..i], ds[i]);
  }

  /** The pair a divide pushes satisfies `EntryOk`. */
  lemma DivideEntry(x: nat, cv: nat, dg: nat, d: nat, q: nat)
    requires d > 0 && cv < d && dg < 10 && x == cv * 10 + dg && q * d <= x < q * d + d
    ensures q < 10 && x - d * q == x % d && x % d < d
  {
    QuotientDigit(x, cv, dg, d, q);
    DivModUnique(x, d, q, x - d * q);
  }

  /** A pass keeps the invariant, as long as it is not the last one. */
  lemma IterationInv(ds: seq<nat>, d: nat, qLen: nat, i: nat, st: State, r: State)
    requires d > 0 && AllDigits(ds) && i < |ds| - 1
    requires qLen == NumDigits(Value(ds) / d)
    requires Inv(ds, d, i, st)
    requires r == Iteration(ds, d, qLen, i, st)
    ensures Inv(ds, d, i + 1, r)
  {
    var x := st.cv * 10 + ds[i];
    PassValue(ds, d, i, st.cv, x);
    if x < d {
      DivModUnique(x, d, 0, x);
    } else {
      GuardHolds(ds, d, i, x);
      var q := FloorDiv(x, d);
      DivideEntry(x, st.cv, ds[i], d, q);
      var sub, rem := Entry(d * q, st.stepCount), Entry(x - d * q, st.stepCount);
      assert r == State(x - d * q, st.stepCount + 2, st.steps + [DivideValue(x, q, x % d), BringDown(ds[i + 1])],
                        st.subs + [sub], st.rems + [rem]);
      EntriesPush(st.steps, r.steps, d, st.subs, st.rems, sub, rem, r.subs, r.rems);
    }
  }

  /** Bringing down digit `i` makes the running value the first `i + 1` digits modulo the divisor. */
  lemma PassValue(ds: seq<nat>, d: nat, i: nat, cv: nat, x: nat)
    requires d > 0 && i < |ds|
    requires cv == Value(ds[..i]) % d && x == cv * 10 + ds[i]
    ensures x % d == Value(ds[..i + 1]) % d
    ensures x <= Value(ds[..i + 1])
  {
    PrefixAppend(ds, i);
    ModStep(Value(ds[..i]), cv, ds[i], d, x);
    Euclid(Value(ds[..i]), d);
    MulLe(0, Value(ds[..i]) / d, d);
  }

  /** Appending steps keeps earlier entries pointing where they did. */
  lemma EntriesExtend(steps: seq<DivStep>, more: seq<DivStep>, d: nat, subs: seq<Entry>, rems: seq<Entry>)
    requires |subs| == |rems| && steps <= more
    requires AllEntriesOk(steps, d, subs, rems)
    ensures AllEntriesOk(more, d, subs, rems)
  {
    forall k | 0 <= k < |subs|
      ensures EntryOk(more, d, subs[k], rems[k])
    {
      assert EntryOk(steps, d, subs[k], rems[k]);
      assert more[subs[k].step] == steps[subs[k].step];
    }
  }

  /** All passes but the last keep the invariant. */
  lemma {:induction false} RunInv(ds: seq<nat>, d: nat, qLen: nat, n: nat, st: State)
    requires d > 0 && AllDigits(ds) && n < |ds|
    requires qLen == NumDigits(Value(ds) / d)
    requires st == Run(ds, d, qLen, n)
    ensures Inv(ds, d, n, st)
  {
    if n > 0 {
      var pre := Run(ds, d, qLen, n - 1);
      RunInv(ds, d, qLen, n - 1, pre);
      IterationInv(ds, d, qLen, n - 1, pre, st);
    } else {
      RunInvBase(ds, d, qLen, st);
    }
  }

  /** Before the first pass: nothing read, only the introduction, no entries. */
  lemma RunInvBase(ds: seq<nat>, d: nat, qLen: nat, st: State)
    requires d > 0
    requires st == Run(ds, d, qLen, 0)
    ensures Inv(ds, d, 0, st)
  {
    assert st == State(0, 1, [Intro(Value(ds), d)], [], []);
    assert ds[..0] == [];
  }

  /** What the last pass leaves: one more divide step, no bring-down, and the remainder of the whole dividend. */
  lemma LastPass(ds: seq<nat>, d: nat, qLen: nat, st: State, r: State)
    requires d > 0 && AllDigits(ds) && |ds| >= 1
    requires qLen == NumDigits(Value(ds) / d)
    requires Inv(ds, d, |ds| - 1, st)
    requires r == Iteration(ds, d, qLen, |ds| - 1, st)
    ensures |r.subs| == |r.rems| == |st.subs| + 1
    ensures |r.steps| == 2 * |r.subs|
    ensures AllEntriesOk(r.steps, d, r.subs, r.rems)
    ensures r.rems[|r.rems| - 1].value == Value(ds) % d
  {
    var i := |ds| - 1;
    var x := st.cv * 10 + ds[i];
    PassValue(ds, d, i, st.cv, x);
    assert ds[..i + 1] == ds;
    var q := FloorDiv(x, d);
    DivideEntry(x, st.cv, ds[i], d, q);
    var sub, rem := Entry(d * q, st.stepCount), Entry(x - d * q, st.stepCount);
    assert r == State(x - d * q, st.stepCount + 1, st.steps + [DivideValue(x, q, x % d)],
                      st.subs + [sub], st.rems + [rem]);
    EntriesPush(st.steps, r.steps, d, st.subs, st.rems, sub, rem, r.subs, r.rems);
  }

  /** Appending steps and one more pair that a new divide step reveals keeps every pair in place. */
  lemma EntriesPush(steps: seq<DivStep>, more: seq<DivStep>, d: nat, subs: seq<Entry>, rems: seq<Entry>,
                    sub: Entry, rem: Entry, subs2: seq<Entry>, rems2: seq<Entry>)
    requires |subs| == |rems| && steps <= more
    requires AllEntriesOk(steps, d, subs, rems)
    requires EntryOk(more, d, sub, rem)
    requires subs2 == subs + [sub] && rems2 == rems + [rem]
    ensures AllEntriesOk(more, d, subs2, rems2)
  {
    EntriesExtend(steps, more, d, subs, rems);
    forall k | 0 <= k < |subs2|
      ensures EntryOk(more, d, subs2[k], rems2[k])
    {
      if k < |subs| {
        assert subs2[k] == subs[k] && rems2[k] == rems[k];
      }
    }
  }

  /**
    For a problem whose quotient and remainder are those of the dividend, the long
    division has `2E + 1` steps for its `E` pairs of entries: the introduction, `E`
    divide steps with a bring-down between consecutive ones, and the final answer.
    Every pair is revealed by its own divide step and agrees with it, and the last
    remainder written is the problem's remainder.
   */
  lemma LongLessonSpec(dividend: nat, divisor: nat, quotient: nat, remainder: nat)
    requires divisor > 0 && quotient == dividend / divisor && remainder == dividend % divisor
    ensures var l := LongLesson(dividend, divisor, quotient, remainder);
      && |l.subtractions| == |l.remainders| >= 1
      && |l.steps| == 2 * |l.subtractions| + 1
      && l.steps[0] == Intro(dividend, divisor)
      && l.steps[|l.steps| - 1] == FinalAnswer(quotient, remainder)
      && AllEntriesOk(l.steps, divisor, l.subtractions, l.remainders)
      && l.remainders[|l.remainders| - 1].value == remainder
  {
    var ds := ToDigits(dividend);
    var qLen := NumDigits(quotient);
    var pre := Run(ds, divisor, qLen, |ds| - 1);
    RunInv(ds, divisor, qLen, |ds| - 1, pre);
    LastPass(ds, divisor, qLen, pre, Run(ds, divisor, qLen, |ds|));
    RunIntro(ds, divisor, qLen, |ds|);
    var st := Run(ds, divisor, qLen, |ds|);
    EntriesExtend(st.steps, st.steps + [FinalAnswer(quotient, remainder)], divisor, st.subs, st.rems);
  }

  // ---------------------------------------------------------------------
  // The easy picture

  /** The dots of the easy picture, `true` for the purple ones that fill whole groups. */
  function EasyDots(dividend: nat, divisor: nat, quotient: nat): seq<bool> {
    seq(dividend, index => index < divisor * quotient)
  }

  function CountTrue(s: seq<bool>): nat {
    if |s| == 0 then 0 else CountTrue(s[..|s| - 1]) + (if s[|s| - 1] then 1 else 0)
  }

  lemma {:induction false} CountPrefix(n: nat, k: nat)
    requires k <= n
    ensures CountTrue(seq(n, index => index < k)) == k
  {
    if n > 0 {
      var s := seq(n, index => index < k);
      if k == n {
        CountPrefix(n - 1, k - 1);
        assert s[..n - 1] == seq(n - 1, index => index < k - 1);
      } else {
        CountPrefix(n - 1, k);
        assert s[..n - 1] == seq(n - 1, index => index < k);
      }
    }
  }

  /** The picture shows `quotient` groups of `divisor` purple dots and `remainder` pink dots. */
  lemma EasyDotsSpec(dividend: nat, divisor: nat, quotient: nat, remainder: nat)
    requires dividend == divisor * quotient + remainder
    ensures |EasyDots(dividend, divisor, quotient)| == dividend
    ensures CountTrue(EasyDots(dividend, divisor, quotient)) == divisor * quotient
    ensures |EasyDots(dividend, divisor, quotient)| - CountTrue(EasyDots(dividend, divisor, quotient)) == remainder
  {
    CountPrefix(dividend, divisor * quotient);
  }

  // ---------------------------------------------------------------------
  // The screen

  /** `problem`, the lesson built from it, and the step cursor. */
  datatype Screen = Screen(dividend: nat, divisor: nat, quotient: nat, remainder: nat,
                           lesson: Lesson, cursor: Cursor)

  /** The screen for a drawn problem: its lesson, and the cursor back at the start. */
  function ScreenFor(difficulty: string, p: Problems.DivProblem): (s: Screen)
    requires Problems.DivisionConsistent(p)
    ensures s.cursor == Start()
    ensures s.dividend == s.divisor * s.quotient + s.remainder && s.remainder < s.divisor
  {
    var dividend, divisor, quotient, remainder := p.dividend as nat, p.divisor as nat, p.quotient as nat, p.remainder as nat;
    Screen(dividend, divisor, quotient, remainder,
           GenerateDivisionSteps(difficulty, dividend, divisor, quotient, remainder), Start())
  }

  /**
    Every lesson for a consistent problem is sound: the easy level's picture splits the
    dots into the quotient's groups and the remainder, and the long division's entries
    end in the problem's remainder.
   */
  lemma ScreenForLesson(difficulty: string, p: Problems.DivProblem)
    requires Problems.DivisionConsistent(p)
    ensures var s := ScreenFor(difficulty, p);
      var l := s.lesson;
      && (difficulty == "easy" ==>
            |l.steps| == 3
            && CountTrue(EasyDots(s.dividend, s.divisor, s.quotient)) + s.remainder == s.dividend)
      && (difficulty != "easy" ==>
            |l.subtractions| == |l.remainders| >= 1 && |l.steps| == 2 * |l.subtractions| + 1
            && l.remainders[|l.remainders| - 1].value == s.remainder
            && AllEntriesOk(l.steps, s.divisor, l.subtractions, l.remainders))
  {
    var s := ScreenFor(difficulty, p);
    if difficulty == "easy" {
      EasyDotsSpec(s.dividend, s.divisor, s.quotient, s.remainder);
    } else {
      LongLessonSpec(s.dividend, s.divisor, s.quotient, s.remainder);
    }
  }

  /** The effect of a new difficulty on the page: a drawn problem and its screen. */
  function NewProblem(difficulty: string, r1: real, r2: real, r3: real): (s: Screen)
    requires Problems.IsRandom(r1) && Problems.IsRandom(r2) && Problems.IsRandom(r3)
    requires difficulty in {"easy", "medium", "hard"}
    ensures s.cursor == Start()
    ensures s.divisor >= 2 && s.quotient >= 1
  {
    Problems.DivisionProblemSpec(difficulty, r1, r2, r3);
    ScreenFor(difficulty, Problems.GenerateDivision(difficulty, r1, r2, r3))
  }

  /** `handleNextStep` on the screen. */
  function NextStep(s: Screen): (r: Screen)
    ensures r.lesson == s.lesson
    ensures Valid(s.cursor, |s.lesson.steps|) ==> Valid(r.cursor, |r.lesson.steps|)
  {
    NextPreservesValid(s.cursor, |s.lesson.steps|);
    s.(cursor := HandleNextStep(s.cursor, |s.lesson.steps|).cursor)
  }
}

=== FILE: factorial.dfy ===
/**
  The factorial lesson: the pupil picks `n` between 0 and 10, the screen keeps the
  running products `1!, 2!, …, n!` and narrates one multiplication per factor.
 */
module FactorialOp {
  import opened Wrappers
  import opened Js
  import opened OperationCursor

  /** The mathematical factorial, the reference the running products are checked against. */
  function Fact(n: nat): (f: nat)
    ensures f >= 1
  {
    if n == 0 then 1 else n * Fact(n - 1)
  }

  /** The loop variables `factorial` and `results` after the passes `i = 1..k`. */
  datatype Acc = Acc(factorial: nat, results: seq<nat>)

  function Products(k: nat): Acc {
    if k == 0 then Acc(1, [])
    else
      var a := Products(k - 1);
      var f := a.factorial * k;
      Acc(f, a.results + [f])
  }

  /** After `k` passes the running product is `k!` and entry `i` is `(i+1)!`. */
  lemma {:induction false} ProductsSpec(k: nat)
    ensures Products(k).factorial == Fact(k)
    ensures |Products(k).results| == k
    ensures forall i :: 0 <= i < k ==> Products(k).results[i] == Fact(i + 1)
  {
    if k > 0 {
      ProductsSpec(k - 1);
      assert Products(k).results[..k - 1] == Products(k - 1).results;
    }
  }

  /** `number`, `editableNumber`, `intermediateResults`, the cursor and the two flags. */
  datatype Screen = Screen(number: nat, editable: int, results: seq<nat>, cursor: Cursor,
                           showHint: bool, isCustom: bool)

  /** The screen agrees with its number: one running product per factor. */
  predicate Valid(s: Screen) {
    && |s.results| == s.number
    && forall i :: 0 <= i < s.number ==> s.results[i] == Fact(i + 1)
  }

  /**
    `generateFactorialProblem(n)`: a number outside 0..10 is refused (a toast) and
    nothing changes; otherwise the products are recomputed and the lesson restarts.
   */
  function Generate(s: Screen, n: int): (r: Screen)
    ensures (n < 0 || n > 10) ==> r == s
    ensures 0 <= n <= 10 ==> Valid(r) && r.number == n && r.editable == n && r.cursor == Start()
  {
    if n < 0 || n > 10 then s
    else
      ProductsSpec(n);
      Screen(n, n, Products(n).results, Start(), false, false)
  }

  /** The screen after mounting: `number` 5 and the effect that generates 5!. */
  function Initial(): (s: Screen)
    ensures Valid(s) && s.number == 5 && s.results[4] == 120
  {
    ProductsSpec(5);
    Generate(Screen(5, 5, [], Start(), false, false), 5)
  }

  /** `handleEditNumber`: a parsed number is kept for the next custom problem, `NaN` is ignored. */
  function EditNumber(s: Screen, value: string): (r: Screen)
    ensures ParseInt(value).None? ==> r == s
    ensures ParseInt(value).Some? ==> r == s.(editable := ParseInt(value).value)
  {
    match ParseInt(value)
    case None => s
    case Some(v) => s.(editable := v)
  }

  /** `handleCustomProblem`. */
  function CustomProblem(s: Screen): Screen {
    Generate(s, s.editable)
  }

  // ---------------------------------------------------------------------
  // Narration

  /**
    One step: the introduction, "multiply `from` by `factor` to get `to`", and the
    final result; `None` is a read outside `intermediateResults` (`undefined`).
   */
  datatype FStep = Intro(number: nat) | MultiplyBy(factor: nat, from: Option<nat>, to: Option<nat>) | FinalResult(value: Option<nat>)

  function Steps(s: Screen): seq<FStep> {
    [Intro(s.number)]
    + seq(s.number, i requires 0 <= i < s.number =>
            MultiplyBy(i + 1, if i == 0 then Some(1) else Lookup(s.results, i - 1), Lookup(s.results, i)))
    + [FinalResult(Lookup(s.results, |s.results| - 1))]
  }

  /**
    On a valid screen there are `n + 2` steps, and the `i`-th multiplication takes
    `i!` to `(i+1)!`, the recurrence `results[i] = results[i-1] * (i+1)`.
   */
  lemma StepsSpec(s: Screen)
    requires Valid(s)
    ensures |Steps(s)| == s.number + 2
    ensures Steps(s)[0] == Intro(s.number)
    ensures forall i :: 1 <= i <= s.number ==>
              Steps(s)[i] == MultiplyBy(i, Some(Fact(i - 1)), Some(Fact(i)))
              && Fact(i) == Fact(i - 1) * i
  {
    var n := s.number;
    var mid := seq(n, i requires 0 <= i < n =>
                 MultiplyBy(i + 1, if i == 0 then Some(1) else Lookup(s.results, i - 1), Lookup(s.results, i)));
    var st := Steps(s);
    assert st == [Intro(n)] + mid + [FinalResult(Lookup(s.results, |s.results| - 1))];
    forall i | 1 <= i <= n
      ensures st[i] == MultiplyBy(i, Some(Fact(i - 1)), Some(Fact(i))) && Fact(i) == Fact(i - 1) * i
    {
      assert st[i] == mid[i - 1];
      MultiplyStep(s, i, mid[i - 1]);
      FactStep(i);
    }
  }

  lemma MultiplyStep(s: Screen, i: nat, step: FStep)
    requires Valid(s) && 1 <= i <= s.number
    requires step == MultiplyBy(i, if i == 1 then Some(1) else Lookup(s.results, i - 2), Lookup(s.results, i - 1))
    ensures step == MultiplyBy(i, Some(Fact(i - 1)), Some(Fact(i)))
  {
    assert Lookup(s.results, i - 1) == Some(Fact(i));
    if i > 1 {
      assert Lookup(s.results, i - 2) == Some(Fact(i - 1));
    }
  }

  lemma FactStep(i: nat)
    requires i >= 1
    ensures Fact(i) == Fact(i - 1) * i
  {
  }

  /**
    The final narration speaks `n!` when `n >= 1`; for `n = 0` it reads
    `intermediateResults[-1]`, which is `undefined`, though `0! = 1`.
   */
  lemma FinalNarration(s: Screen)
    requires Valid(s)
    ensures s.number >= 1 ==> Steps(s)[s.number + 1] == FinalResult(Some(Fact(s.number)))
    ensures s.number == 0 ==> Steps(s)[1] == FinalResult(None)
  {
    StepsSpec(s);
  }

  /** Choosing 0 gives a lesson whose last line is "The final result is undefined." */
  lemma ZeroFactorialUndefined(s: Screen)
    ensures var r := Generate(s, 0);
      Steps(r) == [Intro(0), FinalResult(None)] && Fact(0) == 1
  {
  }

  /** The final narration with an empty product read as 1. */
  function FinalValueFixed(s: Screen): nat {
    if |s.results| == 0 then 1 else s.results[|s.results| - 1]
  }

  /** With that reading the final narration is `n!` for every valid screen, 0 included. */
  lemma FinalValueFixedSpec(s: Screen)
    requires Valid(s)
    ensures FinalValueFixed(s) == Fact(s.number)
  {
  }

  // ---------------------------------------------------------------------
  // The cursor

  /** `handleNextStep`, over the `n + 2` steps. */
  function NextStep(s: Screen): (r: Screen)
    ensures r.number == s.number && r.results == s.results
    ensures OperationCursor.Valid(s.cursor, |Steps(s)|) ==> OperationCursor.Valid(r.cursor, |Steps(r)|)
  {
    NextPreservesValid(s.cursor, |Steps(s)|);
    s.(cursor := HandleNextStep(s.cursor, |Steps(s)|).cursor)
  }

  /** Generating a problem and clicking through completes the lesson after exactly `n + 2` clicks. */
  lemma LessonLength(n: nat, k: nat)
    requires n <= 10
    ensures var s := Generate(Initial(), n);
      Clicks(|Steps(s)|, k).completed <==> k >= n + 2
  {
    var s := Generate(Initial(), n);
    StepsSpec(s);
    ClicksTrace(|Steps(s)|, k);
  }
}

=== FILE: find_next_shape.dfy ===
/**
  "Find the next shape": a base block of two or three random shapes is repeated, and
  the pupil picks the shape that continues it from four options.
 */
module FindNextShape {
  import opened Wrappers
  import opened PatternItems
  import opened Shuffle
  import opened AnswerState
  import opened Digits

  /** `Math.max(2, Math.min(3, level))`, the same expression at all three uses. */
  function RepeatLength(level: int): (r: nat)
    ensures 2 <= r <= 3
    ensures r == 2 <==> level <= 2
  {
    if level <= 2 then 2 else 3
  }

  /** `Math.min(3 + Math.floor(level / 2), 7)`. */
  function PatternLength(level: int): (len: int)
    ensures level >= 1 ==> RepeatLength(level) <= 3 <= len <= 7
    ensures level >= 1 ==> (len == 7 <==> level >= 8)
  {
    var n := 3 + level / 2;
    if n < 7 then n else 7
  }

  /** The shape that continues a pattern: `pattern[pattern.length % repeatLength]`. */
  function Continuation(pattern: seq<Item>, r: nat): (c: Option<Item>)
    requires r > 0
    ensures c.Some? <==> |pattern| % r < |pattern|
  {
    if |pattern| % r < |pattern| then Some(pattern[|pattern| % r]) else None
  }

  /** The puzzle on screen: the pattern, the four options, and the answering state. */
  datatype Game = Game(level: int, pattern: seq<Item>, options: seq<Item>, answering: Answering)

  /**
    `generatePattern` with its draws as parameters: the base block, the candidates the
    distractor loop draws (enough of them for it to finish), and the shuffle's draws.
   */
  function Generate(level: int, score: nat, base: seq<Item>, draws: seq<Item>, js: seq<nat>): (g: Game)
    requires level >= 1 && |base| == RepeatLength(level)
    requires Collect(base[PatternLength(level) % |base|], AnyItem, draws, []).Some?
    requires DrawsFit(4, js)
    ensures g.pattern == Tile(base, PatternLength(level))
    ensures g.answering == Fresh(score)
    ensures Valid(g)
  {
    var pattern := Tile(base, PatternLength(level));
    var answer := pattern[|pattern| % |base|];
    var distractors := Collect(answer, AnyItem, draws, []).value;
    Game(level, pattern, Options(distractors, answer, js), Fresh(score))
  }

  /**
    The answer is the periodic continuation of the pattern, and the options hold it
    exactly once among four distinct shapes.
   */
  lemma GenerateSpec(level: int, score: nat, base: seq<Item>, draws: seq<Item>, js: seq<nat>)
    requires level >= 1 && |base| == RepeatLength(level)
    requires Collect(base[PatternLength(level) % |base|], AnyItem, draws, []).Some?
    requires DrawsFit(4, js)
    ensures var g := Generate(level, score, base, draws, js);
      var len := PatternLength(level);
      && Continuation(g.pattern, RepeatLength(level)) == Some(Tile(base, len + 1)[len])
      && |g.options| == 4 && Distinct(g.options)
      && Tile(base, len + 1)[len] in g.options
  {
    var g := Generate(level, score, base, draws, js);
    var len := PatternLength(level);
    var r := |base|;
    var answer := base[len % r];
    assert Tile(base, len + 1)[len] == answer;
    DivModUnique(len % r, r, 0, len % r);
    assert g.pattern[len % r] == answer;
    var d := Collect(answer, AnyItem, draws, []).value;
    CollectSpec(answer, AnyItem, draws, []);
    OptionsSpec(d, answer, js);
  }

  /** The game's state is one `Generate` produced: a full pattern and four options. */
  predicate Valid(g: Game) {
    g.level >= 1 && |g.pattern| == PatternLength(g.level) && |g.options| == 4
  }

  /** `handleOptionSelect(index)`: correct exactly when the option is the continuation. */
  function SelectOption(g: Game, index: nat): (r: Game)
    requires Valid(g) && index < |g.options|
    ensures Valid(r) && r.pattern == g.pattern && r.options == g.options
    ensures g.answering.isCorrect.None? ==>
              r.answering.isCorrect == Some(Some(g.options[index]) == Continuation(g.pattern, RepeatLength(g.level)))
  {
    var answer := g.pattern[|g.pattern| % RepeatLength(g.level)];
    g.(answering := AnswerState.Select(g.answering, index, g.options[index] == answer))
  }

  /** On a generated puzzle exactly one option is accepted. */
  lemma ExactlyOneAccepted(level: int, score: nat, base: seq<Item>, draws: seq<Item>, js: seq<nat>)
    requires level >= 1 && |base| == RepeatLength(level)
    requires Collect(base[PatternLength(level) % |base|], AnyItem, draws, []).Some?
    requires DrawsFit(4, js)
    ensures var g := Generate(level, score, base, draws, js);
      && (exists i :: 0 <= i < 4 && SelectOption(g, i).answering.isCorrect == Some(true))
      && (forall i, j :: 0 <= i < j < 4 ==>
            !(SelectOption(g, i).answering.isCorrect == Some(true) && SelectOption(g, j).answering.isCorrect == Some(true)))
  {
    var g := Generate(level, score, base, draws, js);
    GenerateSpec(level, score, base, draws, js);
    var len := PatternLength(level);
    var answer := Tile(base, len + 1)[len];
    var i :| 0 <= i < 4 && g.options[i] == answer;
    assert SelectOption(g, i).answering.isCorrect == Some(true);
  }

  /** `showHint`: the highlighting animation is not modelled, only that the hint was used. */
  function ShowHint(g: Game): (r: Game)
    ensures r.answering.hintUsed && r.pattern == g.pattern && r.options == g.options
  {
    g.(answering := Hint(g.answering))
  }
}

=== FILE: fraction_sections.dfy ===
/**
  The fractions page: four sections shown one at a time (a guided tour that advances
  every ten seconds, with dots and Previous/Next), or all at once.
 */
module FractionSections {
  import opened Wrappers
  import opened Js

  datatype Section = Intro | Parts | Examples | Practice

  function Sections(): (s: seq<Section>)
    ensures |s| == 4
    ensures forall i, j :: 0 <= i < j < |s| ==> s[i] != s[j]
  {
    [Intro, Parts, Examples, Practice]
  }

  datatype Tour = Tour(active: int, showAll: bool)

  /** The index the tour reads `sections[activeSection]` with is a section. */
  predicate InRange(t: Tour) {
    0 <= t.active < |Sections()|
  }

  function Initial(): (t: Tour)
    ensures InRange(t) && !t.showAll
  {
    Tour(0, false)
  }

  /** What the page renders: every section, or the active one; `None` is a read past the end. */
  function Rendered(t: Tour): (r: Option<seq<Section>>)
    ensures t.showAll ==> r == Some(Sections())
    ensures !t.showAll ==> (r.Some? <==> InRange(t))
  {
    if t.showAll then Some(Sections())
    else match Lookup(Sections(), t.active)
      case None => None
      case Some(s) => Some([s])
  }

  /** The timer armed by the effect, as written: it is set while `activeSection < 4`. */
  function AutoAdvance(t: Tour): (r: Tour)
    ensures t.showAll ==> r == t
    ensures !t.showAll && t.active < 4 ==> r == t.(active := t.active + 1)
  {
    if !t.showAll && t.active < 4 then t.(active := t.active + 1) else t
  }

  /** From the last section the timer moves past the end, and the guided page has nothing to render. */
  lemma AutoAdvancePastEnd()
    ensures var t := AutoAdvance(Tour(3, false));
      InRange(Tour(3, false)) && t.active == 4 && !InRange(t) && Rendered(t).None?
  {
  }

  /** The timer with the bound the sections allow: it stops at the last one. */
  function AutoAdvanceFixed(t: Tour): (r: Tour)
    ensures InRange(t) ==> InRange(r)
    ensures !t.showAll && t.active < |Sections()| - 1 ==> r.active == t.active + 1
    ensures t.showAll || t.active >= |Sections()| - 1 ==> r == t
  {
    if !t.showAll && t.active < |Sections()| - 1 then t.(active := t.active + 1) else t
  }

  /** Previous: `Math.max(0, prev - 1)`. */
  function Previous(t: Tour): (r: Tour)
    ensures InRange(t) ==> InRange(r)
    ensures r.active == if t.active > 0 then t.active - 1 else 0
  {
    t.(active := if 0 < t.active - 1 then t.active - 1 else 0)
  }

  /** Next: `Math.min(sections.length - 1, prev + 1)`. */
  function Next(t: Tour): (r: Tour)
    ensures InRange(t) ==> InRange(r)
    ensures r.active == if t.active < |Sections()| - 1 then t.active + 1 else |Sections()| - 1
  {
    t.(active := if |Sections()| - 1 < t.active + 1 then |Sections()| - 1 else t.active + 1)
  }

  /** A navigation dot jumps to its own section. */
  function Dot(t: Tour, index: nat): (r: Tour)
    requires index < |Sections()|
    ensures InRange(r) && r.active == index && r.showAll == t.showAll
  {
    t.(active := index)
  }

  /** "Show All Sections" / "Guided Tour" flips the view and keeps the index. */
  function ToggleShowAll(t: Tour): (r: Tour)
    ensures r.active == t.active && r.showAll == !t.showAll
  {
    t.(showAll := !t.showAll)
  }

  /** The events that change the page: the buttons and the timer. */
  datatype Event = PreviousClick | NextClick | DotClick(index: nat) | Toggle | Timer

  predicate Enabled(e: Event) {
    e.DotClick? ==> e.index < |Sections()|
  }

  function Step(t: Tour, e: Event): Tour
    requires Enabled(e)
  {
    match e
    case PreviousClick => Previous(t)
    case NextClick => Next(t)
    case DotClick(i) => Dot(t, i)
    case Toggle => ToggleShowAll(t)
    case Timer => AutoAdvance(t)
  }

  function StepFixed(t: Tour, e: Event): Tour
    requires Enabled(e)
  {
    if e.Timer? then AutoAdvanceFixed(t) else Step(t, e)
  }

  /** Runs a sequence of events from a tour. */
  function Play(t: Tour, es: seq<Event>, fixed: bool): Tour
    requires forall k :: 0 <= k < |es| ==> Enabled(es[k])
    decreases |es|
  {
    if |es| == 0 then t
    else Play(if fixed then StepFixed(t, es[0]) else Step(t, es[0]), es[1..], fixed)
  }

  /** With the corrected timer, every run of events keeps the active section a real section. */
  lemma {:induction false} FixedStaysInRange(t: Tour, es: seq<Event>)
    requires InRange(t)
    requires forall k :: 0 <= k < |es| ==> Enabled(es[k])
    ensures InRange(Play(t, es, true))
    decreases |es|
  {
    if |es| > 0 {
      var s := StepFixed(t, es[0]);
      assert InRange(s);
      FixedStaysInRange(s, es[1..]);
    }
  }

  /** As written, four timer ticks on the guided tour leave the page with no section to show. */
  lemma FourTicksBreakTheTour()
    ensures var t := Play(Initial(), [Timer, Timer, Timer, Timer], false);
      t == Tour(4, false) && Rendered(t).None?
  {
    var es := [Timer, Timer, Timer, Timer];
    assert es[1..] == [Timer, Timer, Timer];
    assert es[1..][1..] == [Timer, Timer];
    assert es[1..][1..][1..] == [Timer];
    assert es[1..][1..][1..][1..] == [];
  }

  /** The timer never moves while all sections are shown, and toggling never moves the index. */
  lemma ShowAllFreezesTour(t: Tour, es: seq<Event>)
    requires t.showAll
    requires forall k :: 0 <= k < |es| ==> es[k] == Timer
    ensures Play(t, es, false) == t && Play(t, es, true) == t
    decreases |es|
  {
    if |es| > 0 {
      ShowAllFreezesTour(t, es[1..]);
    }
  }
}

=== FILE: growing_pattern.dfy ===
/**
  "Growing pattern": four rows of shapes whose counts grow by adding or multiplying,
  and the pupil picks the count of the fifth row from four options. The checker does
  not remember the rule; it re-derives the answer from the four counts.
 */
module GrowingPattern {
  import opened Wrappers
  import opened Shuffle
  import opened AnswerState

  datatype Rule = Add | Multiply

  /** The rule and its increment (the factor, for `Multiply`). */
  datatype Growth = Growth(rule: Rule, increment: int)

  /**
    The draws `generatePattern` makes besides the shape's looks: the rule and the
    increment above level 6, the coin for a different start and the start itself.
   */
  datatype Draws = Draws(ruleDraw: nat, incDraw: nat, coin: bool, startDraw: nat)

  predicate DrawsOk(d: Draws) {
    d.ruleDraw < 2 && d.incDraw < 3 && d.startDraw < 3
  }

  /** The rule by level: +1 up to level 2, +2 up to level 4, ×2 up to level 6, then drawn. */
  function Choose(level: int, d: Draws): (g: Growth)
    requires DrawsOk(d)
    ensures g.rule == Add <==> level <= 4 || (level > 6 && d.ruleDraw == 0)
    ensures g.rule == Add ==> 1 <= g.increment <= 3
    ensures level <= 4 ==> g.increment == (if level <= 2 then 1 else 2)
    ensures g.rule == Multiply ==> g.increment == 2
  {
    if level <= 2 then Growth(Add, 1)
    else if level <= 4 then Growth(Add, 2)
    else if level <= 6 then Growth(Multiply, 2)
    else if d.ruleDraw == 0 then Growth(Add, d.incDraw + 1)
    else Growth(Multiply, 2)
  }

  /** Above level 6 every one of the four growths can be drawn. */
  lemma ChooseCoversHighLevels(level: int, g: Growth)
    requires level > 6
    requires (g.rule == Add && 1 <= g.increment <= 3) || g == Growth(Multiply, 2)
    ensures exists d :: DrawsOk(d) && Choose(level, d) == g
  {
    if g.rule == Add {
      assert Choose(level, Draws(0, g.increment - 1, false, 0)) == g;
    } else {
      assert Choose(level, Draws(1, 0, false, 0)) == g;
    }
  }

  /** The starting count: 1, or from level 4 on possibly 1, 2 or 3. */
  function Start(level: int, d: Draws): (s: int)
    requires DrawsOk(d)
    ensures 1 <= s <= 3
    ensures level <= 3 ==> s == 1
  {
    if level > 3 && d.coin then d.startDraw + 1 else 1
  }

  /** One pass of the loop's update: `value += increment` or `value *= increment`. */
  function Step(g: Growth, v: int): int {
    match g.rule
    case Add => v + g.increment
    case Multiply => v * g.increment
  }

  /** The loop pushing `n` values from `value` on. */
  function Run(g: Growth, value: int, n: nat): (p: seq<int>)
    ensures |p| == n
    decreases n
  {
    if n == 0 then [] else [value] + Run(g, Step(g, value), n - 1)
  }

  function Power(b: int, k: nat): int {
    if k == 0 then 1 else b * Power(b, k - 1)
  }

  /** The `k`-th term in closed form: the reference the loop is checked against. */
  function Term(g: Growth, start: int, k: nat): int {
    match g.rule
    case Add => start + k * g.increment
    case Multiply => start * Power(g.increment, k)
  }

  lemma TermStep(g: Growth, start: int, k: nat)
    ensures Step(g, Term(g, start, k)) == Term(g, start, k + 1)
  {
    match g.rule
    case Add =>
    case Multiply =>
      var p := Power(g.increment, k);
      assert Power(g.increment, k + 1) == g.increment * p;
      assert (start * p) * g.increment == start * (g.increment * p);
  }

  /** The loop's `i`-th value is the `i`-th term of the sequence: each is the previous one grown once. */
  lemma {:induction false} RunTerms(g: Growth, start: int, n: nat, from: nat, value: int)
    requires value == Term(g, start, from)
    ensures forall i :: 0 <= i < n ==> Run(g, value, n)[i] == Term(g, start, from + i)
    decreases n
  {
    if n > 0 {
      TermStep(g, start, from);
      RunTerms(g, start, n - 1, from + 1, Step(g, value));
      var p := Run(g, value, n);
      forall i | 0 <= i < n
        ensures p[i] == Term(g, start, from + i)
      {
        if i > 0 {
          assert p[i] == Run(g, Step(g, value), n - 1)[i - 1];
        }
      }
    }
  }

  /** The four rows. */
  function Pattern(g: Growth, start: int): (p: seq<int>)
    ensures |p| == 4
  {
    Run(g, start, 4)
  }

  /** `correctAnswer`: the last row grown once more. */
  function Answer(g: Growth, p: seq<int>): int
    requires |p| == 4
  {
    Step(g, p[3])
  }

  /** The rows are the first four terms and the answer is the fifth. */
  lemma PatternSpec(g: Growth, start: int)
    ensures forall i :: 0 <= i < 4 ==> Pattern(g, start)[i] == Term(g, start, i)
    ensures Answer(g, Pattern(g, start)) == Term(g, start, 4)
  {
    RunTerms(g, start, 4, 0, start);
    TermStep(g, start, 3);
  }

  /** The growths `Choose` produces. */
  predicate Reachable(g: Growth) {
    (g.rule == Add && 1 <= g.increment <= 3) || g == Growth(Multiply, 2)
  }

  /** Concretely: `s, s+i, s+2i, s+3i` with answer `s+4i`, or `s, 2s, 4s, 8s` with answer `16s`. */
  lemma PatternValues(g: Growth, start: int)
    requires Reachable(g)
    ensures var p := Pattern(g, start);
      if g.rule == Add then
        p == [start, start + g.increment, start + 2 * g.increment, start + 3 * g.increment]
        && Answer(g, p) == start + 4 * g.increment
      else
        p == [start, 2 * start, 4 * start, 8 * start] && Answer(g, p) == 16 * start
  {
    PatternSpec(g, start);
    var p := Pattern(g, start);
    if g.rule == Multiply {
      assert Power(2, 1) == 2 && Power(2, 2) == 4 && Power(2, 3) == 8 && Power(2, 4) == 16;
    }
  }

  // ---------------------------------------------------------------------
  // The checker's re-derivation

  predicate Arithmetic(p: seq<int>)
    requires |p| == 4
  {
    p[1] - p[0] == p[2] - p[1] && p[2] - p[1] == p[3] - p[2]
  }

  /** `p1/p0 === p2/p1 && p2/p1 === p3/p2`, as exact ratios cross-multiplied. */
  predicate Geometric(p: seq<int>)
    requires |p| == 4
  {
    p[1] * p[1] == p[2] * p[0] && p[2] * p[2] == p[3] * p[1]
  }

  /** The counts on screen are positive, so every ratio the checker forms is defined. */
  predicate PositiveRows(p: seq<int>) {
    |p| == 4 && p[0] > 0 && p[1] > 0 && p[2] > 0 && p[3] > 0
  }

  /**
    `handleOptionSelect`'s verdict: the arithmetic continuation, else the geometric one
    (`option == p3 * (p1 / p0)`, cross-multiplied), else anything is accepted.
   */
  function Judge(p: seq<int>, option: int): bool
    requires PositiveRows(p)
  {
    if Arithmetic(p) then option == p[3] + (p[1] - p[0])
    else if Geometric(p) then option * p[0] == p[3] * p[1]
    else true
  }

  /** Rows that grow by neither rule accept every option. */
  lemma JudgeFallback(p: seq<int>, option: int)
    requires PositiveRows(p) && !Arithmetic(p) && !Geometric(p)
    ensures Judge(p, option)
  {
  }

  lemma TimesLeft(s: int, a: int, b: int)
    requires s > 0 && a * s == b * s
    ensures a == b
  {
  }

  /**
    On every pattern the game generates, the checker's re-derivation accepts exactly
    the answer the generator computed.
   */
  lemma JudgeGenerated(g: Growth, start: int, option: int)
    requires Reachable(g) && start >= 1
    ensures PositiveRows(Pattern(g, start))
    ensures Judge(Pattern(g, start), option) <==> option == Answer(g, Pattern(g, start))
  {
    var p := Pattern(g, start);
    PatternValues(g, start);
    if g.rule == Multiply {
      assert !Arithmetic(p);
      assert p[1] * p[1] == 4 * (start * start) == p[2] * p[0];
      assert p[2] * p[2] == 16 * (start * start) == p[3] * p[1];
      assert p[3] * p[1] == (16 * start) * start;
      if option * p[0] == p[3] * p[1] {
        TimesLeft(start, option, 16 * start);
      }
    }
  }

  /** What `showHint` says: the step of an increasing pattern, or the ratio of a multiplying one. */
  datatype HintText = Increasing(step: int) | Multiplying(num: int, den: int) | Silent

  function HintFor(p: seq<int>): HintText
    requires PositiveRows(p)
  {
    if Arithmetic(p) then Increasing(p[1] - p[0])
    else if Geometric(p) then Multiplying(p[1], p[0])
    else Silent
  }

  /** On a generated pattern the hint names the rule's own increment or factor. */
  lemma HintGenerated(g: Growth, start: int)
    requires Reachable(g) && start >= 1
    ensures PositiveRows(Pattern(g, start))
    ensures g.rule == Add ==> HintFor(Pattern(g, start)) == Increasing(g.increment)
    ensures g.rule == Multiply ==>
              HintFor(Pattern(g, start)).Multiplying?
              && HintFor(Pattern(g, start)).num == 2 * HintFor(Pattern(g, start)).den
  {
    JudgeGenerated(g, start, 0);
    var p := Pattern(g, start);
    PatternValues(g, start);
    if g.rule == Multiply {
      assert !Arithmetic(p);
    }
  }

  // ---------------------------------------------------------------------
  // Distractors and the game

  /** The plausible wrong answers the distractor loop draws from. */
  function Candidates(g: Growth, p: seq<int>, answer: int): (c: seq<int>)
    requires |p| == 4
    ensures |c| == (if g.rule == Add then 5 else 6)
  {
    match g.rule
    case Add =>
      [answer + 1, answer - 1, answer + g.increment + 1, p[2] + p[3], p[3] + g.increment / 2]
    case Multiply =>
      [answer + g.increment, answer - g.increment, p[3] + p[2], p[3] + (p[3] - p[2]),
       answer * 6 / 5, answer * 4 / 5]
  }

  /** The candidates at the drawn indices. */
  function Picks(c: seq<int>, idx: seq<nat>): (r: seq<int>)
    requires forall k :: 0 <= k < |idx| ==> idx[k] < |c|
    ensures |r| == |idx| && forall k :: 0 <= k < |idx| ==> r[k] == c[idx[k]]
  {
    seq(|idx|, k requires 0 <= k < |idx| => c[idx[k]])
  }

  /** `distractor > 0`. */
  function Positive(x: int): bool {
    x > 0
  }

  /**
    Every reachable rule and start offers three acceptable candidates (at indices 0, 1
    and 2), so the distractor loop can finish.
   */
  lemma CandidatesSuffice(g: Growth, start: int)
    requires Reachable(g) && start >= 1
    ensures var p := Pattern(g, start);
      Collect(Answer(g, p), Positive, Picks(Candidates(g, p, Answer(g, p)), [0, 1, 2]), []).Some?
  {
    var p := Pattern(g, start);
    var a := Answer(g, p);
    var c := Candidates(g, p, a);
    PatternValues(g, start);
    var picks := Picks(c, [0, 1, 2]);
    assert picks == [c[0], c[1], c[2]];
    CollectFinishes(a, Positive, c[0], c[1], c[2]);
  }

  /** The puzzle on screen: the four counts, the four options and the answering state. */
  datatype Game = Game(level: int, pattern: seq<int>, options: seq<int>, answering: Answering)

  predicate Valid(g: Game) {
    PositiveRows(g.pattern) && |g.options| == 4
  }

  /** The answer and distractors of the rows `Choose` and `Start` give. */
  function Rows(level: int, d: Draws): (p: seq<int>)
    requires DrawsOk(d)
    ensures PositiveRows(p)
  {
    var g := Choose(level, d);
    JudgeGenerated(g, Start(level, d), 0);
    Pattern(g, Start(level, d))
  }

  predicate IndexDrawsOk(level: int, d: Draws, idx: seq<nat>)
    requires DrawsOk(d)
  {
    var g := Choose(level, d);
    var p := Rows(level, d);
    forall k :: 0 <= k < |idx| ==> idx[k] < |Candidates(g, p, Answer(g, p))|
  }

  /**
    `generatePattern` with its draws as parameters: the rule and start draws, the
    candidate indices the distractor loop draws (enough to finish) and the shuffle's draws.
   */
  function Generate(level: int, score: nat, d: Draws, idx: seq<nat>, js: seq<nat>): (r: Game)
    requires DrawsOk(d) && IndexDrawsOk(level, d, idx) && DrawsFit(4, js)
    requires var g := Choose(level, d); var p := Rows(level, d);
      Collect(Answer(g, p), Positive, Picks(Candidates(g, p, Answer(g, p)), idx), []).Some?
    ensures Valid(r) && r.answering == Fresh(score)
    ensures forall i :: 0 <= i < 4 ==> r.pattern[i] == Term(Choose(level, d), Start(level, d), i)
  {
    var g := Choose(level, d);
    var p := Rows(level, d);
    var answer := Answer(g, p);
    var distractors := Collect(answer, Positive, Picks(Candidates(g, p, answer), idx), []).value;
    PatternSpec(g, Start(level, d));
    Game(level, p, Options(distractors, answer, js), Fresh(score))
  }

  /**
    The options are four distinct positive counts, one of them the fifth term, and the
    checker accepts that option and no other.
   */
  lemma GenerateSpec(level: int, score: nat, d: Draws, idx: seq<nat>, js: seq<nat>)
    requires DrawsOk(d) && IndexDrawsOk(level, d, idx) && DrawsFit(4, js)
    requires var g := Choose(level, d); var p := Rows(level, d);
      Collect(Answer(g, p), Positive, Picks(Candidates(g, p, Answer(g, p)), idx), []).Some?
    ensures var r := Generate(level, score, d, idx, js);
      var fifth := Term(Choose(level, d), Start(level, d), 4);
      && Distinct(r.options) && fifth in r.options
      && (forall i :: 0 <= i < 4 ==> r.options[i] > 0)
      && (forall i :: 0 <= i < 4 ==> (Judge(r.pattern, r.options[i]) <==> r.options[i] == fifth))
  {
    var g := Choose(level, d);
    var s := Start(level, d);
    var p := Rows(level, d);
    var answer := Answer(g, p);
    var picks := Picks(Candidates(g, p, answer), idx);
    var distractors := Collect(answer, Positive, picks, []).value;
    CollectSpec(answer, Positive, picks, []);
    OptionsSpec(distractors, answer, js);
    PatternSpec(g, s);
    PatternValues(g, s);
    var r := Generate(level, score, d, idx, js);
    assert multiset(r.options) == multiset(distractors + [answer]);
    forall i | 0 <= i < 4
      ensures r.options[i] > 0
    {
      assert r.options[i] in multiset(distractors + [answer]);
      assert r.options[i] in distractors + [answer];
    }
    forall i | 0 <= i < 4
      ensures Judge(r.pattern, r.options[i]) <==> r.options[i] == answer
    {
      JudgeGenerated(g, s, r.options[i]);
    }
  }

  /** `handleOptionSelect(index)`: the re-derived verdict, recorded once. */
  function SelectOption(g: Game, index: nat): (r: Game)
    requires Valid(g) && index < |g.options|
    ensures Valid(r) && r.pattern == g.pattern && r.options == g.options
    ensures g.answering.isCorrect.Some? ==> r == g
    ensures g.answering.isCorrect.None? && Arithmetic(g.pattern) ==>
              (r.answering.isCorrect == Some(true) <==> g.options[index] - g.pattern[3] == g.pattern[1] - g.pattern[0])
  {
    g.(answering := AnswerState.Select(g.answering, index, Judge(g.pattern, g.options[index])))
  }

  /** `showHint`: the text is a toast; the state only records that the hint was used. */
  function ShowHint(g: Game): (r: Game)
    ensures r.answering.hintUsed && r.pattern == g.pattern && r.options == g.options
  {
    g.(answering := Hint(g.answering))
  }
}

=== FILE: interactive_fractions.dfy ===
/**
  The fraction quiz: three pictures, and for each the pupil picks a numerator from the
  buttons 1..5 and a denominator from 2..6, then checks; after a pause the next picture
  appears, and after the last one the quiz announces the score and starts over.
 */
module InteractiveFractions {
  import opened Wrappers

  datatype Question = Question(id: nat, correctNumerator: int, correctDenominator: int)

  /** One third of a circle, one fourth of a square, two fifths of a rectangle. */
  function Questions(): (qs: seq<Question>)
    ensures |qs| == 3
    ensures forall i :: 0 <= i < 3 ==> qs[i].id == i + 1
    ensures forall i :: 0 <= i < 3 ==> 1 <= qs[i].correctNumerator < qs[i].correctDenominator
  {
    [Question(1, 1, 3), Question(2, 1, 4), Question(3, 2, 5)]
  }

  /** The numerator buttons. */
  predicate NumeratorButton(n: int) {
    n in [1, 2, 3, 4, 5]
  }

  /** The denominator buttons. */
  predicate DenominatorButton(d: int) {
    d in [2, 3, 4, 5, 6]
  }

  /** Every answer can be entered with the buttons, and each is a proper fraction. */
  lemma AnswersOfferable()
    ensures forall i :: 0 <= i < 3 ==>
              var q := Questions()[i];
              NumeratorButton(q.correctNumerator) && DenominatorButton(q.correctDenominator)
              && q.correctNumerator < q.correctDenominator
  {
  }

  datatype Quiz = Quiz(current: nat, numerator: Option<int>, denominator: Option<int>, checking: bool, score: nat)

  predicate Valid(q: Quiz) {
    q.current < |Questions()|
  }

  function Initial(): (q: Quiz)
    ensures Valid(q) && q.score == 0
  {
    Quiz(0, None, None, false, 0)
  }

  /** A numerator or denominator button (both are disabled while checking). */
  function PickNumerator(q: Quiz, n: int): (r: Quiz)
    requires NumeratorButton(n)
    ensures r == q.(numerator := Some(n))
  {
    q.(numerator := Some(n))
  }

  function PickDenominator(q: Quiz, d: int): (r: Quiz)
    requires DenominatorButton(d)
    ensures r == q.(denominator := Some(d))
  {
    q.(denominator := Some(d))
  }

  /**
    What one `checkAnswer` call does: the state while the verdict shows (`during`),
    the state after the two-second pause (`after`), the verdict, and the end-of-round
    announcement.
   */
  datatype Outcome = Outcome(during: Quiz, after: Quiz, verdict: Option<bool>, announced: Option<nat>)

  /** The verdict: both parts must match. */
  function Judge(q: Question, n: int, d: int): bool {
    n == q.correctNumerator && d == q.correctDenominator
  }

  /**
    `checkAnswer`: a missing part only warns; otherwise the verdict scores a point, and
    the pause clears both selections and moves on, wrapping to the first question with
    the score reset after the last.
   */
  function CheckAnswer(q: Quiz): (o: Outcome)
    requires Valid(q)
    ensures q.numerator.None? || q.denominator.None? ==>
              o.during == q && o.after == q && o.verdict.None? && o.announced.None?
    ensures q.numerator.Some? && q.denominator.Some? ==>
              var ok := o.verdict == Some(true);
              && o.verdict.Some?
              && (ok <==> q.numerator.value == Questions()[q.current].correctNumerator
                          && q.denominator.value == Questions()[q.current].correctDenominator)
              && o.during.checking && o.during.score == q.score + (if ok then 1 else 0)
              && Valid(o.after) && !o.after.checking
              && o.after.numerator.None? && o.after.denominator.None?
              && (q.current < 2 ==> o.after.current == q.current + 1 && o.after.score == o.during.score && o.announced.None?)
              && (q.current == 2 ==> o.after.current == 0 && o.after.score == 0 && o.announced == Some(o.during.score))
  {
    if q.numerator.None? || q.denominator.None? then Outcome(q, q, None, None)
    else
      var ok := Judge(Questions()[q.current], q.numerator.value, q.denominator.value);
      var during := q.(checking := true, score := if ok then q.score + 1 else q.score);
      var cleared := during.(checking := false, numerator := None, denominator := None);
      if q.current < |Questions()| - 1 then
        Outcome(during, cleared.(current := q.current + 1), Some(ok), None)
      else
        Outcome(during, cleared.(current := 0, score := 0), Some(ok), Some(q.score + (if ok then 1 else 0)))
  }

  /** Points never outrun the questions answered in the current round. */
  predicate ScoreInv(q: Quiz) {
    Valid(q) && q.score <= q.current
  }

  /** Checking keeps the invariant, and an end-of-round announcement never exceeds the three questions. */
  lemma CheckKeepsScoreInv(q: Quiz)
    requires ScoreInv(q)
    ensures ScoreInv(CheckAnswer(q).after)
    ensures CheckAnswer(q).announced.Some? ==> CheckAnswer(q).announced.value <= |Questions()|
  {
  }

  /** A picked fraction, compared as the pair of buttons pressed, not as a value: 2/4 is not 1/2. */
  datatype Fraction = Fraction(numerator: int, denominator: int)

  /** The right picks for the current picture are accepted and any other pick is not. */
  lemma OnlyTheAnswerScores(q: Quiz, n: int, d: int)
    requires Valid(q) && NumeratorButton(n) && DenominatorButton(d)
    ensures var r := PickDenominator(PickNumerator(q, n), d);
      CheckAnswer(r).verdict == Some(true)
      <==> Fraction(n, d) == Fraction(Questions()[q.current].correctNumerator, Questions()[q.current].correctDenominator)
  {
  }
}

=== FILE: js.dfy ===
/**
  The JavaScript built-ins the screens lean on, with their exact semantics for the
  cases the screens reach: truncating `%`, floating `getDigit`, `parseInt`, the
  `/[^0-9]/g` input filter, array reads that miss, and `Array.from({length})`.
 */
module Js {
  import opened Wrappers
  import opened Digits

  /** JavaScript `a % m` on integers: the remainder takes the sign of `a`. */
  function JsRem(a: int, m: nat): (r: int)
    requires m > 0
    ensures a >= 0 ==> r == a % m
    ensures a < 0 ==> -(m as int) < r <= 0
    ensures (a - r) % m == 0
  {
    var r := if a >= 0 then a % m else -((-a) % m);
    TruncatedRemMultiple(a, m, r);
    r
  }

  /** What the truncating remainder leaves behind is a multiple of `m`, for either sign of `a`. */
  lemma TruncatedRemMultiple(a: int, m: nat, r: int)
    requires m > 0 && r == if a >= 0 then a % m else -((-a) % m)
    ensures (a - r) % m == 0
  {
    if a >= 0 {
      var q := a / m;
      assert a == q * m + a % m;
      assert a - r == q * m;
      DivModUnique(a - r, m, q, 0);
    } else {
      var q := (-a) / m;
      assert -a == q * m + (-a) % m;
      assert a - r == (-q) * m;
      DivModUnique(a - r, m, -q, 0);
    }
  }

  function Abs(x: int): nat {
    if x < 0 then -x else x
  }

  /** `s[i]` on an array: `undefined` (None) for a negative or too-large index. */
  function Lookup<T>(s: seq<T>, i: int): (r: Option<T>)
    ensures r.Some? <==> 0 <= i < |s|
    ensures r.Some? ==> r.value == s[i]
  {
    if 0 <= i < |s| then Some(s[i]) else None
  }

  /** `x || y` where only `undefined` is falsy among the values involved. */
  function OrElse<T>(x: Option<T>, y: T): (r: T)
    ensures x.Some? ==> r == x.value
    ensures x.None? ==> r == y
  {
    match x
    case Some(v) => v
    case None => y
  }

  /** The length `Array.from({ length: n })` produces: a negative length becomes 0. */
  function ArrayFromLength(n: int): (len: nat)
    ensures n >= 0 ==> len == n
    ensures n < 0 ==> len == 0
  {
    if n < 0 then 0 else n
  }

  // ---------------------------------------------------------------------
  // Floating-point getDigit

  /** `Math.trunc` on a real. */
  function TruncReal(y: real): (t: int)
    ensures y >= 0.0 ==> t as real <= y < t as real + 1.0
    ensures y < 0.0 ==> t as real - 1.0 < y <= t as real
  {
    if y >= 0.0 then y.Floor else -((-y).Floor)
  }

  /** JavaScript `x % m` on numbers with `m > 0`: `x - m * trunc(x / m)`. */
  function FloatRem(x: real, m: real): real
    requires m > 0.0
  {
    x - m * (TruncReal(x / m) as real)
  }

  /** `Math.floor((number / Math.pow(10, place)) % 10)`, evaluated on exact reals. */
  function JsGetDigit(n: int, place: nat): int {
    FloatRem(n as real / (Pow10(place) as real), 10.0).Floor
  }

  /** On a non-negative number the floating `getDigit` is the decimal digit at that place. */
  lemma JsGetDigitAgrees(n: nat, place: nat)
    ensures JsGetDigit(n, place) == GetDigit(n, place)
  {
    var p := Pow10(place);
    Euclid(n, p);
    var q: nat := n / p;
    var lo: nat := n % p;
    var f := lo as real / p as real;
    RealSplit(n, p, q, lo);
    var a, b := q / 10, q % 10;
    assert q == 10 * a + b;
    var x := n as real / p as real;
    assert x == (10 * a + b) as real + f;
    DropFraction(a, b, f);
    assert JsGetDigit(n, place) == FloatRem(x, 10.0).Floor;
    assert GetDigit(n, place) == b;
  }

  /** Dividing `q * p + lo` by `p` on reals leaves `q` plus a fraction below one. */
  lemma RealSplit(n: nat, p: nat, q: nat, lo: nat)
    requires p > 0 && n == q * p + lo && lo < p
    ensures n as real / p as real == q as real + lo as real / p as real
    ensures 0.0 <= lo as real / p as real < 1.0
  {
    assert n as real == q as real * p as real + lo as real;
  }

  /** `((10a + b + f) / 10) % 10` truncates to `b + f` when `b` is a digit and `0 <= f < 1`. */
  lemma DropFraction(a: nat, b: nat, f: real)
    requires b < 10 && 0.0 <= f < 1.0
    ensures FloatRem((10 * a + b) as real + f, 10.0).Floor == (10 * a + b) % 10
  {
    var x := (10 * a + b) as real + f;
    assert (10 * a + b) as real == 10.0 * (a as real) + b as real;
    var y := x / 10.0;
    assert y == a as real + (b as real + f) / 10.0;
    assert 0.0 <= (b as real + f) / 10.0 < 1.0;
    assert y.Floor == a;
    assert TruncReal(y) == a;
    assert FloatRem(x, 10.0) == b as real + f;
    assert (b as real + f).Floor == b;
    assert (10 * a + b) % 10 == b;
  }

  /** `getDigit` on a negative number keeps the sign: the units digit of `-5` reads `-5`. */
  lemma JsGetDigitNegative()
    ensures JsGetDigit(-5, 0) == -5
  {
    assert TruncReal(-0.5) == 0;
  }

  // ---------------------------------------------------------------------
  // Strings

  /** `value.replace(/[^0-9]/g, '')`. */
  function FilterDigits(s: string): (t: string)
    ensures IsDigitString(t) && |t| <= |s|
  {
    if |s| == 0 then ""
    else if IsDigitChar(s[0]) then [s[0]] + FilterDigits(s[1..])
    else FilterDigits(s[1..])
  }

  /** The filter keeps a digit string as it is, so filtering twice changes nothing more. */
  lemma {:induction false} FilterDigitsKeeps(s: string)
    requires IsDigitString(s)
    ensures FilterDigits(s) == s
  {
    if |s| > 0 {
      FilterDigitsKeeps(s[1..]);
    }
  }

  lemma FilterDigitsIdempotent(s: string)
    ensures FilterDigits(FilterDigits(s)) == FilterDigits(s)
  {
    FilterDigitsKeeps(FilterDigits(s));
  }

  /**
    The characters `parseInt` skips before the number: ECMAScript's white space (tab,
    vertical tab, form feed, space, no-break space, the byte order mark and the Unicode
    space separators) and its line terminators.
   */
  predicate IsSpace(c: char) {
    || c == '\t' || c == '\U{000B}' || c == '\U{000C}' || c == ' ' || c == '\U{00A0}' || c == '\U{FEFF}'
    || c == '\U{1680}' || ('\U{2000}' <= c <= '\U{200A}') || c == '\U{202F}' || c == '\U{205F}'
    || c == '\U{3000}'
    || c == '\n' || c == '\r' || c == '\U{2028}' || c == '\U{2029}'
  }

  /** Length of the longest prefix of `s` made of decimal digits. */
  function DigitPrefixLength(s: string): (k: nat)
    ensures k <= |s| && IsDigitString(s[..k])
    ensures k < |s| ==> !IsDigitChar(s[k])
  {
    if |s| == 0 || !IsDigitChar(s[0]) then 0
    else
      var k := 1 + DigitPrefixLength(s[1..]);
      assert s[..k] == [s[0]] + s[1..][..k - 1];
      k
  }

  function TrimStart(s: string): (t: string)
    ensures |t| <= |s| && t == s[|s| - |t|..]
    ensures |t| > 0 ==> !IsSpace(t[0])
  {
    if |s| > 0 && IsSpace(s[0]) then TrimStart(s[1..]) else s
  }

  /**
    `parseInt(s, 10)`: leading white space and one sign are skipped, then the longest
    run of decimal digits is read; no digits at all gives `NaN` (None).
   */
  function ParseInt(s: string): (r: Option<int>)
  {
    var t := TrimStart(s);
    var neg := |t| > 0 && t[0] == '-';
    var body := if |t| > 0 && (t[0] == '-' || t[0] == '+') then t[1..] else t;
    var k := DigitPrefixLength(body);
    var v: int := StrValue(body[..k]);
    if k == 0 then None else Some(if neg then -v else v)
  }

  /** A non-empty digit string parses to the number it spells; an empty one is `NaN`. */
  lemma ParseIntDigits(s: string)
    requires IsDigitString(s)
    ensures |s| == 0 ==> ParseInt(s) == None
    ensures |s| > 0 ==> ParseInt(s) == Some(StrValue(s))
  {
    if |s| > 0 {
      assert !IsSpace(s[0]) by { assert IsDigitChar(s[0]); }
      assert DigitPrefixLength(s) == |s| by { DigitPrefixAll(s); }
      assert s[..|s|] == s;
    }
  }

  lemma {:induction false} DigitPrefixAll(s: string)
    requires IsDigitString(s)
    ensures DigitPrefixLength(s) == |s|
  {
    if |s| > 0 {
      DigitPrefixAll(s[1..]);
    }
  }

  /** Round trip: parsing the decimal string of a number gives that number back. */
  lemma ParseIntToString(n: nat)
    ensures ParseInt(NatToString(n)) == Some(n)
  {
    ParseIntDigits(NatToString(n));
    StrValueOfNatToString(n);
  }

  /** Text after the digits is ignored: `parseInt("12ab")` is 12. */
  lemma ParseIntStopsAtNonDigit()
    ensures ParseInt("12ab") == Some(12)
  {
    var s := "12ab";
    assert TrimStart(s) == s;
    assert DigitPrefixLength(s) == 2 by {
      assert DigitPrefixLength(s[2..]) == 0;
      assert s[1..][1..] == s[2..];
    }
    assert s[..2] == "12";
    assert StrDigits("12") == [1, 2];
    assert Value([1, 2]) == 12 by { assert [1, 2][..1] == [1]; }
  }

  /** `str[i] || dflt` for a character read from a string; a miss reads the default. */
  function CharAtOr(s: string, i: int, dflt: char): (c: char)
    ensures 0 <= i < |s| ==> c == s[i]
    ensures !(0 <= i < |s|) ==> c == dflt
  {
    if 0 <= i < |s| then s[i] else dflt
  }
}

=== FILE: long_division.dfy ===
/**
  The long-division visualizer: the dividend is read digit by digit from the left,
  each digit is brought down onto the running remainder, and either a 0 goes into the
  quotient (the running value is still below the divisor) or the running value is
  divided, leaving a remainder below the divisor. A final step shows the quotient and
  the remainder.
 */
module LongDivision {
  import opened Wrappers
  import opened Digits
  import opened Js

  /**
    One entry of `calculatedSteps`. Positions count dividend digits from the left; the
    running value is the string the pupil sees, which can carry leading zeros, and
    `remaining` is the part of the dividend not yet brought down.
   */
  datatype LStep =
    | BringDown(position: nat, currentDividend: string, currentQuotient: string,
                subtract: nat, remaining: string)
    | Divide(position: nat, currentDividend: string, quotientDigit: nat, currentQuotient: string,
             multiply: nat, subtract: nat, remaining: string)
    | Final(quotient: string, remainder: nat)

  /** A step of the digit loop is well formed: a zero written only before the last digit, and every remainder below the divisor. */
  predicate StepOk(st: LStep, t: nat, d: nat, len: nat) {
    match st
    case BringDown(p, cur, _, sub, _) =>
      p == t && t < len - 1 && IsDigitString(cur) && sub == StrValue(cur) && sub < d
    case Divide(p, cur, qd, _, mul, sub, _) =>
      p == t && qd < 10 && mul == qd * d && sub < d
      && IsDigitString(cur) && StrValue(cur) == mul + sub
    case Final(_, _) => false
  }

  /** The loop variables `currentDividend` and `quotient`, and the steps pushed so far. */
  datatype Loop = Loop(cur: string, quotient: string, steps: seq<LStep>)

  /**
    The loop of `calculateSteps` over the first `n` characters of the dividend `s`,
    dividing by `d`. `parseInt(currentDividend)` reads a non-empty digit string, so it is
    the string's value (`Js.ParseIntDigits`).
   */
  function Run(s: string, d: nat, n: nat): (l: Loop)
    requires IsDigitString(s) && d > 0 && n <= |s|
    ensures IsDigitString(l.cur) && StrValue(l.cur) < d
    ensures IsDigitString(l.quotient) && |l.quotient| == n
    ensures |l.steps| == n
  {
    if n == 0 then Loop("", "", []) else Iteration(s, d, n - 1, Run(s, d, n - 1))
  }

  /** Every step of the loop is well formed. */
  lemma {:induction false} RunSteps(s: string, d: nat, n: nat, steps: seq<LStep>)
    requires IsDigitString(s) && d > 0 && n <= |s|
    requires steps == Run(s, d, n).steps
    ensures forall t :: 0 <= t < n ==> StepOk(steps[t], t, d, |s|)
  {
    if n > 0 {
      var l := Run(s, d, n - 1);
      RunSteps(s, d, n - 1, l.steps);
      IterationStep(s, d, n - 1, l);
      StepsExtend(l.steps, steps, d, |s|);
    }
  }

  /** Appending a well-formed step for the next position keeps every step well formed. */
  lemma StepsExtend(before: seq<LStep>, after: seq<LStep>, d: nat, len: nat)
    requires |after| == |before| + 1 && after[..|before|] == before
    requires forall t :: 0 <= t < |before| ==> StepOk(before[t], t, d, len)
    requires StepOk(after[|before|], |before|, d, len)
    ensures forall t :: 0 <= t < |after| ==> StepOk(after[t], t, d, len)
  {
    forall t | 0 <= t < |after|
      ensures StepOk(after[t], t, d, len)
    {
      if t < |before| {
        assert after[t] == after[..|before|][t];
      }
    }
  }

  /** One pass of the loop body for dividend position `i`. */
  function Iteration(s: string, d: nat, i: nat, l: Loop): (r: Loop)
    requires IsDigitString(s) && d > 0 && i < |s|
    requires IsDigitString(l.cur) && StrValue(l.cur) < d && IsDigitString(l.quotient)
    ensures IsDigitString(r.cur) && StrValue(r.cur) < d
    ensures IsDigitString(r.quotient) && |r.quotient| == |l.quotient| + 1
    ensures |r.steps| == |l.steps| + 1 && r.steps[..|l.steps|] == l.steps
  {
    var cur := l.cur + [s[i]];
    StrValueAppend(l.cur, s[i]);
    var v := StrValue(cur);
    if v < d && i < |s| - 1 then
      var q := l.quotient + "0";
      assert IsDigitString(q) by { StrValueAppend(l.quotient, '0'); }
      var r := Loop(cur, q, l.steps + [BringDown(i, cur, q, v, s[i + 1..])]);
      assert r.steps[..|l.steps|] == l.steps;
      r
    else
      var qd := FloorDiv(v, d);
      QuotientDigit(v, StrValue(l.cur), CharDigit(s[i]), d, qd);
      var q := l.quotient + [DigitChar(qd)];
      assert IsDigitString(q) by { StrValueAppend(l.quotient, DigitChar(qd)); }
      var mul := Times(qd, d);
      var rem: nat := v - mul;
      StrValueOfNatToString(rem);
      var r := Loop(NatToString(rem), q, l.steps + [Divide(i, cur, qd, q, mul, rem, s[i + 1..])]);
      assert r.steps[..|l.steps|] == l.steps;
      r
  }

  /** The step one pass pushes is well formed. */
  lemma IterationStep(s: string, d: nat, i: nat, l: Loop)
    requires IsDigitString(s) && d > 0 && i < |s|
    requires IsDigitString(l.cur) && StrValue(l.cur) < d && IsDigitString(l.quotient)
    ensures StepOk(Iteration(s, d, i, l).steps[|l.steps|], i, d, |s|)
  {
    var cur := l.cur + [s[i]];
    StrValueAppend(l.cur, s[i]);
    var v := StrValue(cur);
    if !(v < d && i < |s| - 1) {
      var qd := FloorDiv(v, d);
      QuotientDigit(v, StrValue(l.cur), CharDigit(s[i]), d, qd);
      StrValueOfNatToString(v - qd * d);
    }
  }

  /** One loop step of the division invariant, as plain arithmetic on the values involved. */
  lemma Shift(qv: int, cv: int, d: int, prefix: int, dg: int, qd: int, rem: int, q2: int, whole: int)
    requires qv * d + cv == prefix
    requires rem == cv * 10 + dg - qd * d
    requires q2 == qv * 10 + qd && whole == prefix * 10 + dg
    ensures q2 * d + rem == whole
  {
  }

  /**
    The division invariant of the loop: quotient times divisor plus the running value is
    the number spelled by the digits brought down so far.
   */
  lemma {:induction false} RunInvariant(s: string, d: nat, n: nat)
    requires IsDigitString(s) && d > 0 && n <= |s|
    ensures IsDigitString(s[..n])
    ensures var l := Run(s, d, n);
      StrValue(l.quotient) * d + StrValue(l.cur) == StrValue(s[..n])
  {
    assert IsDigitString(s[..n]);
    if n > 0 {
      RunInvariant(s, d, n - 1);
      IterationValue(s, d, n - 1, Run(s, d, n - 1));
    } else {
      assert StrDigits("") == [];
    }
  }

  /** One pass keeps the division invariant, one more dividend digit further on. */
  lemma IterationValue(s: string, d: nat, i: nat, l: Loop)
    requires IsDigitString(s) && d > 0 && i < |s|
    requires IsDigitString(l.cur) && StrValue(l.cur) < d && IsDigitString(l.quotient)
    requires IsDigitString(s[..i])
    requires StrValue(l.quotient) * d + StrValue(l.cur) == StrValue(s[..i])
    ensures IsDigitString(s[..i + 1])
    ensures var r := Iteration(s, d, i, l);
      StrValue(r.quotient) * d + StrValue(r.cur) == StrValue(s[..i + 1])
  {
    var cur := l.cur + [s[i]];
    StrValueAppend(l.cur, s[i]);
    assert s[..i + 1] == s[..i] + [s[i]];
    StrValueAppend(s[..i], s[i]);
    var v := StrValue(cur);
    if v < d && i < |s| - 1 {
      BringDownValue(s, d, i, l, Iteration(s, d, i, l));
    } else {
      DivideValue(s, d, i, l, Iteration(s, d, i, l));
    }
  }

  /** A pass that only brings a digit down appends a zero to the quotient and keeps the invariant. */
  lemma BringDownValue(s: string, d: nat, i: nat, l: Loop, r: Loop)
    requires IsDigitString(s) && d > 0 && i < |s| - 1
    requires IsDigitString(l.cur) && StrValue(l.cur) < d && IsDigitString(l.quotient)
    requires IsDigitString(s[..i]) && IsDigitString(s[..i + 1]) && IsDigitString(l.cur + [s[i]])
    requires StrValue(l.quotient) * d + StrValue(l.cur) == StrValue(s[..i])
    requires StrValue(l.cur + [s[i]]) == StrValue(l.cur) * 10 + CharDigit(s[i])
    requires StrValue(s[..i + 1]) == StrValue(s[..i]) * 10 + CharDigit(s[i])
    requires StrValue(l.cur + [s[i]]) < d
    requires r == Iteration(s, d, i, l)
    ensures StrValue(r.quotient) * d + StrValue(r.cur) == StrValue(s[..i + 1])
  {
    var cur := l.cur + [s[i]];
    assert r.quotient == l.quotient + "0" && r.cur == cur;
    StrValueAppend(l.quotient, '0');
    Shift(StrValue(l.quotient), StrValue(l.cur), d, StrValue(s[..i]), CharDigit(s[i]), 0, StrValue(cur),
          StrValue(r.quotient), StrValue(s[..i + 1]));
  }

  /** A pass that divides appends the quotient digit and keeps the remainder as the running value. */
  lemma DivideValue(s: string, d: nat, i: nat, l: Loop, r: Loop)
    requires IsDigitString(s) && d > 0 && i < |s|
    requires IsDigitString(l.cur) && StrValue(l.cur) < d && IsDigitString(l.quotient)
    requires IsDigitString(s[..i]) && IsDigitString(s[..i + 1]) && IsDigitString(l.cur + [s[i]])
    requires StrValue(l.quotient) * d + StrValue(l.cur) == StrValue(s[..i])
    requires StrValue(l.cur + [s[i]]) == StrValue(l.cur) * 10 + CharDigit(s[i])
    requires StrValue(s[..i + 1]) == StrValue(s[..i]) * 10 + CharDigit(s[i])
    requires !(StrValue(l.cur + [s[i]]) < d && i < |s| - 1)
    requires r == Iteration(s, d, i, l)
    ensures StrValue(r.quotient) * d + StrValue(r.cur) == StrValue(s[..i + 1])
  {
    var v := StrValue(l.cur + [s[i]]);
    var qd := FloorDiv(v, d);
    QuotientDigit(v, StrValue(l.cur), CharDigit(s[i]), d, qd);
    var rem: nat := v - Times(qd, d);
    assert r.quotient == l.quotient + [DigitChar(qd)] && r.cur == NatToString(rem);
    StrValueAppend(l.quotient, DigitChar(qd));
    StrValueOfNatToString(rem);
    Shift(StrValue(l.quotient), StrValue(l.cur), d, StrValue(s[..i]), CharDigit(s[i]), qd, rem,
          StrValue(r.quotient), StrValue(s[..i + 1]));
  }

  /** `calculateSteps` once the input is valid: the loop's steps, then the final step. */
  function CalculateSteps(s: string, d: nat): seq<LStep>
    requires IsDigitString(s) && |s| >= 1 && d > 0
  {
    var l := Run(s, d, |s|);
    l.steps + [Final(l.quotient, StrValue(l.cur))]
  }

  /**
    One step per dividend digit and a final one; only the final step is `final`, and
    the last digit is always divided, never brought down.
   */
  lemma CalculateStepsShape(s: string, d: nat)
    requires IsDigitString(s) && |s| >= 1 && d > 0
    ensures var st := CalculateSteps(s, d);
      && |st| == |s| + 1
      && (forall t :: 0 <= t < |s| ==> StepOk(st[t], t, d, |s|))
      && st[|s| - 1].Divide?
      && st[|s|].Final?
  {
    var l := Run(s, d, |s|);
    RunSteps(s, d, |s|, Run(s, d, |s|).steps);
    var st := CalculateSteps(s, d);
    assert forall t :: 0 <= t < |s| ==> st[t] == l.steps[t];
    assert StepOk(st[|s| - 1], |s| - 1, d, |s|);
  }

  /**
    The final step states the division identity: its quotient has one character per
    dividend digit and parses to the dividend divided by the divisor, and its remainder
    is what is left over.
   */
  lemma CalculateStepsResult(s: string, d: nat)
    requires IsDigitString(s) && |s| >= 1 && d > 0
    ensures var f := CalculateSteps(s, d)[|s|];
      && f.Final?
      && |f.quotient| == |s|
      && ParseInt(f.quotient) == Some(StrValue(s) / d)
      && f.remainder == StrValue(s) % d
  {
    var l := Run(s, d, |s|);
    RunInvariant(s, d, |s|);
    assert s[..|s|] == s;
    DivModUnique(StrValue(s), d, StrValue(l.quotient), StrValue(l.cur));
    ParseIntDigits(l.quotient);
  }

  // ---------------------------------------------------------------------
  // The screen

  /** The messages `validateInput` can show. */
  datatype InputError = MissingInput | NotANumber | DivideByZero | NotPositive

  /**
    `validateInput` on the two input strings: `None` when they pass. The whole-number
    check is left implicit: `parseInt` only ever yields integers.
   */
  function ValidateInput(dividend: string, divisor: string): (r: Option<InputError>)
    ensures |dividend| == 0 || |divisor| == 0 ==> r == Some(MissingInput)
    ensures r.None? ==> ParseInt(dividend).Some? && ParseInt(divisor).Some?
                        && ParseInt(dividend).value >= 0 && ParseInt(divisor).value > 0
  {
    if |dividend| == 0 || |divisor| == 0 then Some(MissingInput)
    else CheckParsed(ParseInt(dividend), ParseInt(divisor))
  }

  /** The checks `validateInput` makes on the two parsed numbers, in its order. */
  function CheckParsed(x: Option<int>, y: Option<int>): (r: Option<InputError>)
    ensures r.None? ==> x.Some? && y.Some? && x.value >= 0 && y.value > 0
  {
    match (x, y)
    case (Some(a), Some(b)) =>
      if b == 0 then Some(DivideByZero)
      else if a < 0 || b < 0 then Some(NotPositive)
      else None
    case _ => Some(NotANumber)
  }

  /** With both boxes filtered to digits, the input passes exactly when both are filled and the divisor is not 0. */
  lemma ValidateDigits(dividend: string, divisor: string)
    requires IsDigitString(dividend) && IsDigitString(divisor)
    ensures ValidateInput(dividend, divisor).None?
            <==> |dividend| > 0 && |divisor| > 0 && StrValue(divisor) != 0
    ensures |dividend| > 0 && |divisor| > 0 && StrValue(divisor) == 0
            ==> ValidateInput(dividend, divisor) == Some(DivideByZero)
  {
    if |dividend| > 0 && |divisor| > 0 {
      ParseIntDigits(dividend);
      ParseIntDigits(divisor);
      assert ValidateInput(dividend, divisor)
          == CheckParsed(Some(StrValue(dividend)), Some(StrValue(divisor)));
    }
  }

  /** The visualizer's state; the input boxes hold digit strings, as their change handlers filter them. */
  datatype Screen = Screen(dividend: string, divisor: string, error: Option<InputError>,
                           showSteps: bool, currentStep: nat, steps: seq<LStep>)

  /** The states the screen can reach. */
  predicate Valid(sc: Screen) {
    && IsDigitString(sc.dividend) && IsDigitString(sc.divisor)
    && (sc.showSteps <==> |sc.steps| > 0)
    && (|sc.steps| == 0 ==> sc.currentStep == 0)
    && (|sc.steps| > 0 ==> sc.currentStep < |sc.steps|)
  }

  function Initial(): (sc: Screen)
    ensures Valid(sc)
  {
    Screen("", "", None, false, 0, [])
  }

  /** The dividend box's change handler: anything but digits is dropped. */
  function SetDividend(sc: Screen, typed: string): (r: Screen)
    ensures Valid(sc) ==> Valid(r)
    ensures r.dividend == FilterDigits(typed) && r.(dividend := sc.dividend) == sc
  {
    sc.(dividend := FilterDigits(typed))
  }

  /** The divisor box's change handler. */
  function SetDivisor(sc: Screen, typed: string): (r: Screen)
    ensures Valid(sc) ==> Valid(r)
    ensures r.divisor == FilterDigits(typed) && r.(divisor := sc.divisor) == sc
  {
    sc.(divisor := FilterDigits(typed))
  }

  /**
    The "Calculate" button: an invalid input only sets the error; a valid one
    clears it, builds the steps and shows the first.
   */
  function Calculate(sc: Screen): (r: Screen)
    requires Valid(sc)
    ensures Valid(r)
    ensures ValidateInput(sc.dividend, sc.divisor).Some? ==>
              r == sc.(error := ValidateInput(sc.dividend, sc.divisor))
    ensures ValidateInput(sc.dividend, sc.divisor).None? ==>
              && r.error.None? && r.showSteps && r.currentStep == 0
              && |r.steps| == |sc.dividend| + 1
              && r.steps[|r.steps| - 1].Final?
  {
    match ValidateInput(sc.dividend, sc.divisor)
    case Some(e) => sc.(error := Some(e))
    case None =>
      ValidateDigits(sc.dividend, sc.divisor);
      ParseIntDigits(sc.divisor);
      var d := StrValue(sc.divisor);
      CalculateStepsShape(sc.dividend, d);
      sc.(error := None, steps := CalculateSteps(sc.dividend, d), currentStep := 0, showSteps := true)
  }

  /** `handleNextStep`, also reporting whether the celebration for reaching the final step fires. */
  function NextStep(sc: Screen): (r: (Screen, bool))
    ensures Valid(sc) ==> Valid(r.0)
    ensures r.0.steps == sc.steps
    ensures r.1 ==> |sc.steps| > 0 && r.0.currentStep == |sc.steps| - 1
    ensures sc.currentStep + 1 < |sc.steps| ==>
      r.0.currentStep == sc.currentStep + 1 && (r.1 <==> sc.currentStep + 1 == |sc.steps| - 1)
    ensures sc.currentStep + 1 >= |sc.steps| ==> r.0 == sc && !r.1
  {
    if sc.currentStep < |sc.steps| - 1 then
      (sc.(currentStep := sc.currentStep + 1), sc.currentStep + 1 == |sc.steps| - 1)
    else (sc, false)
  }

  /** `handlePrevStep`. */
  function PrevStep(sc: Screen): (r: Screen)
    ensures Valid(sc) ==> Valid(r)
    ensures r.steps == sc.steps
  {
    if sc.currentStep > 0 then sc.(currentStep := sc.currentStep - 1) else sc
  }

  /** `resetCalculation`: back to the input form, keeping what was typed. */
  function ResetCalculation(sc: Screen): (r: Screen)
    ensures Valid(sc) ==> Valid(r)
    ensures !r.showSteps && r.currentStep == 0 && |r.steps| == 0
    ensures r.dividend == sc.dividend && r.divisor == sc.divisor
  {
    sc.(showSteps := false, currentStep := 0, steps := [])
  }

  /** Previous undoes a Next that moved. */
  lemma PrevUndoesNext(sc: Screen)
    requires sc.currentStep < |sc.steps| - 1
    ensures PrevStep(NextStep(sc).0) == sc
  {
  }

  function NextTimes(sc: Screen, k: nat): Screen {
    if k == 0 then sc else NextStep(NextTimes(sc, k - 1)).0
  }

  /** From the first step, `k` presses of Next reach step `min(k, length - 1)`. */
  lemma {:induction false} NextTimesFromStart(sc: Screen, k: nat)
    requires |sc.steps| > 0 && sc.currentStep == 0
    ensures NextTimes(sc, k).currentStep == (if k < |sc.steps| - 1 then k else |sc.steps| - 1)
    ensures NextTimes(sc, k).steps == sc.steps
  {
    if k > 0 {
      NextTimesFromStart(sc, k - 1);
    }
  }
}

=== FILE: mult_visualizer.dfy ===
/**
  The multiplication visualizer: the column-by-column steps a pupil writes for long
  multiplication, one digit row per multiplier digit with its carries, and the
  Previous/Next/Reset controls that walk through them.
 */
module MultiplicationVisualizer {
  import opened Wrappers
  import opened Digits
  import opened Js
  import MultiplicationOp

  /** A cell of a partial-product row: a digit, or the "X" that holds a shifted place. */
  datatype Cell = D(digit: nat) | X

  /**
    The kinds of `CalculationStep`, each with the numbers it speaks and the grid data it
    carries: column indices count from the left of the digit strings, `rows` is the
    `partialProducts` snapshot shown with the step, and a `DigitIntro` names its digit
    as the `GetOrdinal(fromRight)` digit of the multiplier.
   */
  datatype CalcStep =
    | Intro(multiplicand: nat, multiplier: nat)
    | DigitIntro(multiplierCol: nat, digit: nat, fromRight: nat)
    | MultiplyDigits(col: nat, multiplierCol: nat, top: nat, bottom: nat, product: nat,
                     written: nat, productCol: Option<nat>, rows: seq<seq<Cell>>)
    | CarryDigit(carryCol: Option<nat>, carry: nat, carries: map<int, nat>, rows: seq<seq<Cell>>)
    | FinalCarry(carry: nat, rows: seq<seq<Cell>>)
    | PartialDone(digit: nat, rows: seq<seq<Cell>>, index: nat, row: seq<Cell>)
    | FinalSum(rows: seq<seq<Cell>>, finalProduct: seq<nat>)

  function DigitCells(ds: seq<nat>): (cs: seq<Cell>)
    ensures |cs| == |ds|
    ensures forall t :: 0 <= t < |ds| ==> cs[t] == D(ds[t])
  {
    seq(|ds|, t requires 0 <= t < |ds| => D(ds[t]))
  }

  /** `Array(k).fill("X")`. */
  function Placeholders(k: nat): (cs: seq<Cell>)
    ensures |cs| == k
    ensures forall t :: 0 <= t < k ==> cs[t] == X
  {
    seq(k, _ => X)
  }

  // ---------------------------------------------------------------------
  // The inner loop: one multiplier digit against every multiplicand digit

  /** The arithmetic of the inner loop: the digits written so far (leftmost first) and the carry. */
  datatype Ripple = Ripple(written: seq<nat>, carry: nat)

  /** The inner loop's arithmetic after the rightmost `n` digits of the multiplicand `md`, times digit `d`. */
  function RippleAfter(md: seq<nat>, d: nat, n: nat): (w: Ripple)
    requires AllDigits(md) && d < 10 && n <= |md|
    ensures |w.written| == n && AllDigits(w.written)
    ensures w.carry <= 8
    decreases n, 1
  {
    if n == 0 then Ripple([], 0)
    else
      var w := RippleAfter(md, d, n - 1);
      var product := ColumnProduct(md, d, n);
      Ripple([product % 10] + w.written, product / 10)
  }

  /** `currentMultiplicandDigit * currentMultiplierDigit + carry` at the `n`-th column from the right. */
  function ColumnProduct(md: seq<nat>, d: nat, n: nat): (p: nat)
    requires AllDigits(md) && d < 10 && 1 <= n <= |md|
    ensures p <= 89
    decreases n, 0
  {
    var j := |md| - n;
    assert md[j] * d <= 81 by {
      MulLe(md[j], 9, d);
    }
    md[j] * d + RippleAfter(md, d, n - 1).carry
  }

  /** `carryValues` after the rightmost `n` columns: the carry out of column `j` is filed under `j - 1`. */
  function CarryMap(md: seq<nat>, d: nat, n: nat): map<int, nat>
    requires AllDigits(md) && d < 10 && n <= |md|
  {
    if n == 0 then map[]
    else
      var carry := ColumnProduct(md, d, n) / 10;
      if carry > 0 then CarryMap(md, d, n - 1)[|md| - n - 1 := carry] else CarryMap(md, d, n - 1)
  }

  /**
    The steps for the `n`-th multiplicand column from the right, multiplying by digit `d`
    of multiplier column `i` whose place is `k`; `done` holds the rows already finished.
   */
  function ColumnSteps(md: seq<nat>, d: nat, k: nat, i: nat, done: seq<seq<Cell>>, n: nat): seq<CalcStep>
    requires AllDigits(md) && d < 10 && 1 <= n <= |md|
  {
    var j := |md| - n;
    var product := ColumnProduct(md, d, n);
    var digit := product % 10;
    var carry := product / 10;
    var current := DigitCells(RippleAfter(md, d, n - 1).written) + Placeholders(k);
    var shown := done + [[D(digit)] + current];
    var mul := MultiplyDigits(j, i, md[j], d, product, digit,
                              if |current| >= 1 then Some(|current| - 1) else None, shown);
    if carry > 0 then [mul, CarryDigit(if j >= 1 then Some(j - 1) else None, carry, CarryMap(md, d, n), shown)]
    else [mul]
  }

  /** The steps the inner loop has emitted after the rightmost `n` columns. */
  function Columns(md: seq<nat>, d: nat, k: nat, i: nat, done: seq<seq<Cell>>, n: nat): seq<CalcStep>
    requires AllDigits(md) && d < 10 && n <= |md|
  {
    if n == 0 then [] else Columns(md, d, k, i, done, n - 1) + ColumnSteps(md, d, k, i, done, n)
  }

  /**
    The digits written and the carry left over together denote `d` times the
    rightmost `n` digits of the multiplicand.
   */
  lemma {:induction false} RippleValue(md: seq<nat>, d: nat, n: nat)
    requires AllDigits(md) && d < 10 && n <= |md|
    ensures Value(RippleAfter(md, d, n).written) + RippleAfter(md, d, n).carry * Pow10(n)
         == Value(md[|md| - n..]) * d
  {
    if n == 0 {
      assert md[|md|..] == [];
    } else {
      RippleValue(md, d, n - 1);
      RippleStep(md, d, n);
    }
  }

  /** One more column: the written digit and the new carry extend the invariant by one place. */
  lemma RippleStep(md: seq<nat>, d: nat, n: nat)
    requires AllDigits(md) && d < 10 && 1 <= n <= |md|
    requires Value(RippleAfter(md, d, n - 1).written) + RippleAfter(md, d, n - 1).carry * Pow10(n - 1)
          == Value(md[|md| - n + 1..]) * d
    ensures Value(RippleAfter(md, d, n).written) + RippleAfter(md, d, n).carry * Pow10(n)
         == Value(md[|md| - n..]) * d
  {
    var j := |md| - n;
    var w0 := RippleAfter(md, d, n - 1);
    var w := RippleAfter(md, d, n);
    var p := Pow10(n - 1);
    var product := ColumnProduct(md, d, n);
    assert w.written == [product % 10] + w0.written;
    assert w.carry == product / 10;
    assert product == md[j] * d + w0.carry;
    assert md[j..] == [md[j]] + md[j + 1..];
    ValuePrepend(md[j], md[j + 1..]);
    ValuePrepend(product % 10, w0.written);
    assert Value(w.written) == (product % 10) * p + Value(w0.written);
    assert Value(md[j..]) == md[j] * p + Value(md[j + 1..]);
    assert Pow10(n) == 10 * p;
    ColumnStep(md[j], d, w0.carry, w.carry, product % 10, p, Value(w0.written), Value(md[j + 1..]));
  }

  lemma ColumnStep(x: int, d: int, cin: int, cout: int, digit: int, p: int, vw: int, vr: int)
    requires x * d + cin == 10 * cout + digit
    requires vw + cin * p == vr * d
    ensures (digit * p + vw) + cout * (10 * p) == (x * p + vr) * d
  {
    assert digit * p + cout * (10 * p) == (10 * cout + digit) * p;
    assert (x * d + cin) * p == x * d * p + cin * p;
    assert (x * p + vr) * d == x * p * d + vr * d;
  }

  // ---------------------------------------------------------------------
  // Carry steps sit right after the multiplication that produced them

  /** A `carry` step at `t` directly follows a digit multiplication and carries that product's (positive) tens. */
  predicate CarryAfterProduct(s: seq<CalcStep>, t: nat)
    requires t < |s|
  {
    s[t].CarryDigit? ==> t > 0 && s[t - 1].MultiplyDigits? && s[t].carry == s[t - 1].product / 10 && s[t].carry > 0
  }

  /** A digit multiplication at `t` with a two-digit product is directly followed by a `carry` step. */
  predicate ProductBeforeCarry(s: seq<CalcStep>, t: nat)
    requires t < |s|
  {
    s[t].MultiplyDigits? && s[t].product >= 10 ==> t + 1 < |s| && s[t + 1].CarryDigit?
  }

  /**
    A `carry` step appears exactly after each digit multiplication whose product
    has two digits, and carries that product's tens.
   */
  predicate CarriesPlaced(s: seq<CalcStep>) {
    forall t: nat :: t < |s| ==> CarryAfterProduct(s, t) && ProductBeforeCarry(s, t)
  }

  /**
    `CarriesPlaced` on its own: it already rules out a carry at the start and a
    two-digit product at the end, so neither end can pair with a neighbouring list.
   */
  predicate Closed(s: seq<CalcStep>) {
    CarriesPlaced(s)
  }

  lemma ClosedConcat(s: seq<CalcStep>, u: seq<CalcStep>)
    requires Closed(s) && Closed(u)
    ensures Closed(s + u)
  {
    var su := s + u;
    forall t: nat | t < |su|
      ensures CarryAfterProduct(su, t) && ProductBeforeCarry(su, t)
    {
      if t < |s| {
        assert CarryAfterProduct(s, t) && ProductBeforeCarry(s, t);
        if t > 0 {
          assert su[t - 1] == s[t - 1];
        }
        if t + 1 < |s| {
          assert su[t + 1] == s[t + 1];
        }
      } else {
        var t' := t - |s|;
        assert CarryAfterProduct(u, t') && ProductBeforeCarry(u, t');
        assert su[t] == u[t'];
        if t' > 0 {
          assert su[t - 1] == u[t' - 1];
        }
        if t' + 1 < |u| {
          assert su[t + 1] == u[t' + 1];
        }
      }
    }
  }

  lemma {:induction false} ColumnsClosed(md: seq<nat>, d: nat, k: nat, i: nat, done: seq<seq<Cell>>, n: nat)
    requires AllDigits(md) && d < 10 && n <= |md|
    ensures Closed(Columns(md, d, k, i, done, n))
  {
    if n > 0 {
      ColumnsClosed(md, d, k, i, done, n - 1);
      ClosedConcat(Columns(md, d, k, i, done, n - 1), ColumnSteps(md, d, k, i, done, n));
    }
  }

  // ---------------------------------------------------------------------
  // One multiplier digit: the whole row

  /** The finished row's digits: the digits written, behind the final carry when there is one. */
  function RowDigits(md: seq<nat>, d: nat): (ds: seq<nat>)
    requires AllDigits(md) && d < 10
    ensures AllDigits(ds) && |md| <= |ds| <= |md| + 1
  {
    var w := RippleAfter(md, d, |md|);
    if w.carry > 0 then [w.carry] + w.written else w.written
  }

  /** The finished row as the grid shows it: its digits, then `k` "X" cells. */
  function RowCells(md: seq<nat>, d: nat, k: nat): seq<Cell>
    requires AllDigits(md) && d < 10
  {
    DigitCells(RowDigits(md, d)) + Placeholders(k)
  }

  /** The steps of one outer iteration, for multiplier column `i` with digit `d` at place `k`. */
  function RowSteps(md: seq<nat>, d: nat, k: nat, i: nat, done: seq<seq<Cell>>, fromRight: nat): seq<CalcStep>
    requires AllDigits(md) && d < 10
  {
    [DigitIntro(i, d, fromRight)] + Columns(md, d, k, i, done, |md|)
    + RowEnd(RippleAfter(md, d, |md|).carry, d, done, RowCells(md, d, k))
  }

  /** The final-carry step when a carry is left over, then the finished-row step. */
  function RowEnd(carry: nat, d: nat, done: seq<seq<Cell>>, cells: seq<Cell>): seq<CalcStep> {
    (if carry > 0 then [FinalCarry(carry, done + [cells])] else [])
    + [PartialDone(d, done + [cells], |done|, cells)]
  }

  /** A finished row's digits denote the multiplicand times the multiplier digit. */
  lemma RowValue(md: seq<nat>, d: nat)
    requires AllDigits(md) && d < 10
    ensures Value(RowDigits(md, d)) == Value(md) * d
  {
    var w := RippleAfter(md, d, |md|);
    RippleValue(md, d, |md|);
    assert md[|md| - |md|..] == md;
    ValuePrepend(w.carry, w.written);
    PrependCarry(Value(w.written), w.carry, Pow10(|md|), Value(md) * d, Value(RowDigits(md, d)));
  }

  lemma PrependCarry(v: int, c: nat, p: int, whole: int, row: int)
    requires v + c * p == whole
    requires c > 0 ==> row == c * p + v
    requires c == 0 ==> row == v
    ensures row == whole
  {
  }

  lemma RowClosed(md: seq<nat>, d: nat, k: nat, i: nat, done: seq<seq<Cell>>, fromRight: nat, s: seq<CalcStep>)
    requires AllDigits(md) && d < 10
    requires s == RowSteps(md, d, k, i, done, fromRight)
    ensures Closed(s)
  {
    var head: seq<CalcStep> := [DigitIntro(i, d, fromRight)];
    var cols := Columns(md, d, k, i, done, |md|);
    var tail := RowEnd(RippleAfter(md, d, |md|).carry, d, done, RowCells(md, d, k));
    NoCarryClosed(head);
    NoCarryClosed(tail);
    ColumnsClosed(md, d, k, i, done, |md|);
    ClosedConcat3(head, cols, tail, s);
  }

  lemma ClosedConcat3(head: seq<CalcStep>, cols: seq<CalcStep>, tail: seq<CalcStep>, s: seq<CalcStep>)
    requires Closed(head) && Closed(cols) && Closed(tail)
    requires s == head + cols + tail
    ensures Closed(s)
  {
    ClosedConcat(head, cols);
    ClosedConcat(head + cols, tail);
  }

  /** A list without carries or digit multiplications is closed. */
  lemma NoCarryClosed(s: seq<CalcStep>)
    requires forall t :: 0 <= t < |s| ==> !s[t].CarryDigit? && !s[t].MultiplyDigits?
    ensures Closed(s)
  {
    forall t: nat | t < |s|
      ensures CarryAfterProduct(s, t) && ProductBeforeCarry(s, t)
    {
    }
  }

  // ---------------------------------------------------------------------
  // The outer loop and the whole step list

  datatype Outer = Outer(steps: seq<CalcStep>, rows: seq<seq<Cell>>)

  /**
    The outer loop over iterations `0 .. n - 1` for any loop body: iteration `k` appends
    the steps `step(k, done)`, where `done` holds the rows pushed so far, then pushes `row(k)`.
   */
  function Loop(step: (nat, seq<seq<Cell>>) -> seq<CalcStep>, row: nat -> seq<Cell>, n: nat): (o: Outer)
    ensures |o.rows| == n
  {
    if n == 0 then Outer([], [])
    else
      var o := Loop(step, row, n - 1);
      Outer(o.steps + step(n - 1, o.rows), o.rows + [row(n - 1)])
  }

  /** After `n` iterations the rows are exactly the `n` rows pushed, in order. */
  lemma {:induction false} LoopRows(step: (nat, seq<seq<Cell>>) -> seq<CalcStep>, row: nat -> seq<Cell>,
                                    n: nat, rows: seq<seq<Cell>>)
    requires rows == Loop(step, row, n).rows
    ensures |rows| == n
    ensures forall k :: 0 <= k < n ==> rows[k] == row(k)
    decreases n
  {
    if n > 0 {
      var prev := Loop(step, row, n - 1).rows;
      LoopRows(step, row, n - 1, prev);
      assert rows == prev + [row(n - 1)];
      forall k | 0 <= k < n
        ensures rows[k] == row(k)
      {
        if k < n - 1 {
          assert rows[k] == prev[k];
        }
      }
    }
  }

  /**
    If every iteration's steps are closed and finish exactly one row, the loop's steps
    are closed and finish one row per iteration.
   */
  lemma {:induction false} LoopFacts(step: (nat, seq<seq<Cell>>) -> seq<CalcStep>, row: nat -> seq<Cell>,
                                     n: nat, steps: seq<CalcStep>)
    requires forall k: nat, done: seq<seq<Cell>> :: k < n ==> Closed(step(k, done)) && CountPartialDone(step(k, done)) == 1
    requires steps == Loop(step, row, n).steps
    ensures Closed(steps) && CountPartialDone(steps) == n
    decreases n
  {
    if n > 0 {
      var o := Loop(step, row, n - 1);
      LoopFacts(step, row, n - 1, o.steps);
      StepsGrow(o.steps, step(n - 1, o.rows), steps, n - 1);
    }
  }

  /** Iteration `k` of the outer loop handles the multiplier digit `k` places from the right. */
  function RowStep(md: seq<nat>, bd: seq<nat>): (nat, seq<seq<Cell>>) -> seq<CalcStep>
    requires AllDigits(md) && AllDigits(bd)
  {
    (k: nat, done: seq<seq<Cell>>) =>
      if k < |bd| then RowSteps(md, bd[|bd| - (k + 1)], k, |bd| - (k + 1), done, k + 1) else []
  }

  /** The row iteration `k` pushes: that digit's row, shifted `k` places. */
  function RowOf(md: seq<nat>, bd: seq<nat>): nat -> seq<Cell>
    requires AllDigits(md) && AllDigits(bd)
  {
    (k: nat) => if k < |bd| then RowCells(md, bd[|bd| - (k + 1)], k) else []
  }

  /** The outer loop after the rightmost `n` digits of the multiplier `bd`. */
  function Rows(md: seq<nat>, bd: seq<nat>, n: nat): (o: Outer)
    requires AllDigits(md) && AllDigits(bd) && n <= |bd|
    ensures |o.rows| == n
  {
    Loop(RowStep(md, bd), RowOf(md, bd), n)
  }

  /** `generateCalculationSteps(multiplicand, multiplier)`. */
  function GenerateCalculationSteps(a: nat, b: nat): seq<CalcStep> {
    var product := Times(a, b);
    var md := ToDigits(a);
    var bd := ToDigits(b);
    assert AllDigits(md) && AllDigits(bd);
    Assemble(a, b, Rows(md, bd, |bd|), ToDigits(product))
  }

  /** The opening step, the outer loop's steps, and the final sum with its answer digits. */
  function Assemble(a: nat, b: nat, o: Outer, answer: seq<nat>): seq<CalcStep> {
    [Intro(a, b)] + o.steps + [FinalSum(o.rows, answer)]
  }

  lemma AssembleShape(a: nat, b: nat, o: Outer, answer: seq<nat>)
    requires Closed(o.steps)
    ensures var s := Assemble(a, b, o, answer);
      && |s| >= 2 && s[0] == Intro(a, b) && s[|s| - 1] == FinalSum(o.rows, answer)
      && CountPartialDone(s) == CountPartialDone(o.steps)
      && Closed(s)
  {
    var head: seq<CalcStep> := [Intro(a, b)];
    var last: seq<CalcStep> := [FinalSum(o.rows, answer)];
    assert Assemble(a, b, o, answer) == head + o.steps + last;
    ClosedConcat(head, o.steps);
    ClosedConcat(head + o.steps, last);
    assert head[..0] == [] && last[..0] == [];
    CountConcat(head, o.steps);
    CountConcat(head + o.steps, last);
  }

  /** A row read as a number, each "X" standing for a zero in its place. */
  function Strip(row: seq<Cell>): (ds: seq<nat>)
    ensures |ds| == |row|
  {
    seq(|row|, t requires 0 <= t < |row| => match row[t] case D(v) => v case X => 0)
  }

  /** The row is digits followed by exactly `k` "X" cells. */
  predicate RowShape(row: seq<Cell>, k: nat) {
    && |row| >= k
    && (forall t :: |row| - k <= t < |row| ==> row[t] == X)
    && (forall t :: 0 <= t < |row| - k ==> row[t].D? && row[t].digit < 10)
  }

  function Zeros(k: nat): (zs: seq<nat>)
    ensures |zs| == k
  {
    if k == 0 then [] else Zeros(k - 1) + [0]
  }

  lemma {:induction false} ZerosAreZero(k: nat)
    ensures forall t :: 0 <= t < k ==> Zeros(k)[t] == 0
  {
    if k > 0 {
      ZerosAreZero(k - 1);
    }
  }

  lemma {:induction false} ValueShift(ds: seq<nat>, k: nat)
    ensures Value(ds + Zeros(k)) == Value(ds) * Pow10(k)
  {
    if k > 0 {
      ValueShift(ds, k - 1);
      ShiftOnce(ds, k, ds + Zeros(k - 1), ds + Zeros(k));
    } else {
      assert ds + Zeros(k) == ds;
    }
  }

  /** One more zero shifts the value one more place. */
  lemma ShiftOnce(ds: seq<nat>, k: nat, shorter: seq<nat>, longer: seq<nat>)
    requires k > 0 && shorter == ds + Zeros(k - 1) && longer == ds + Zeros(k)
    requires Value(shorter) == Value(ds) * Pow10(k - 1)
    ensures Value(longer) == Value(ds) * Pow10(k)
  {
    assert longer == shorter + [0];
    ValueAppend(shorter, 0);
    Scale10(Value(longer), Value(shorter), Value(ds), Pow10(k - 1), Pow10(k));
  }

  lemma Scale10(whole: int, x: int, v: int, q: int, p: int)
    requires whole == x * 10 && x == v * q && p == 10 * q
    ensures whole == v * p
  {
  }

  lemma StripRow(ds: seq<nat>, k: nat)
    requires AllDigits(ds)
    ensures Value(Strip(DigitCells(ds) + Placeholders(k))) == Value(ds) * Pow10(k)
    ensures RowShape(DigitCells(ds) + Placeholders(k), k)
  {
    assert Strip(DigitCells(ds) + Placeholders(k)) == ds + Zeros(k) by {
      ZerosAreZero(k);
    }
    ValueShift(ds, k);
  }

  /**
    Row `k` is the digits of the multiplicand times the multiplier digit at place `k`
    (with leading zeros when that digit is 0) followed by `k` "X" cells; read with the
    "X" cells as zeros it is that product shifted `k` places.
   */
  predicate RowOk(md: seq<nat>, bd: seq<nat>, row: seq<Cell>, k: nat) {
    && RowShape(row, k)
    && |md| <= |row| - k <= |md| + 1
    && Value(Strip(row)) == Value(md) * DigitAt(bd, k) * Pow10(k)
  }

  lemma RowsSpec(md: seq<nat>, bd: seq<nat>, n: nat, rows: seq<seq<Cell>>)
    requires AllDigits(md) && AllDigits(bd) && n <= |bd|
    requires rows == Rows(md, bd, n).rows
    ensures |rows| == n
    ensures forall k :: 0 <= k < n ==> RowOk(md, bd, rows[k], k)
  {
    LoopRows(RowStep(md, bd), RowOf(md, bd), n, rows);
    forall k | 0 <= k < n
      ensures RowOk(md, bd, rows[k], k)
    {
      RowAtOk(md, bd, k, bd[|bd| - (k + 1)], rows[k]);
    }
  }

  /** The row iteration `k + 1` pushes, for the digit `k` places from the right, is the right one. */
  lemma RowAtOk(md: seq<nat>, bd: seq<nat>, k: nat, d: nat, row: seq<Cell>)
    requires AllDigits(md) && AllDigits(bd) && k < |bd|
    requires d == bd[|bd| - (k + 1)] && row == RowCells(md, d, k)
    ensures RowOk(md, bd, row, k)
  {
    assert DigitAt(bd, k) == d;
    RowCellsSpec(md, d, k);
  }

  /** One finished row: digits, then `k` "X" cells, worth the multiplicand times `d` shifted `k` places. */
  lemma RowCellsSpec(md: seq<nat>, d: nat, k: nat)
    requires AllDigits(md) && d < 10
    ensures var row := RowCells(md, d, k);
      && RowShape(row, k)
      && |md| <= |row| - k <= |md| + 1
      && Value(Strip(row)) == Value(md) * d * Pow10(k)
  {
    RowValue(md, d);
    StripRow(RowDigits(md, d), k);
    RowPartial(Value(Strip(RowCells(md, d, k))), Value(md), d, Pow10(k), Value(RowDigits(md, d)));
  }

  lemma RowPartial(shifted: int, a: int, d: int, p: int, digits: int)
    requires digits == a * d && shifted == digits * p
    ensures shifted == a * d * p
  {
  }

  function CountPartialDone(s: seq<CalcStep>): nat {
    if |s| == 0 then 0 else CountPartialDone(s[..|s| - 1]) + (if s[|s| - 1].PartialDone? then 1 else 0)
  }

  lemma {:induction false} CountConcat(s: seq<CalcStep>, u: seq<CalcStep>)
    ensures CountPartialDone(s + u) == CountPartialDone(s) + CountPartialDone(u)
    decreases |u|
  {
    if |u| > 0 {
      assert (s + u)[..|s + u| - 1] == s + u[..|u| - 1];
      assert (s + u)[|s + u| - 1] == u[|u| - 1];
      CountConcat(s, u[..|u| - 1]);
    } else {
      assert s + u == s;
    }
  }

  lemma CountRow(md: seq<nat>, d: nat, k: nat, i: nat, done: seq<seq<Cell>>, fromRight: nat)
    requires AllDigits(md) && d < 10
    ensures CountPartialDone(RowSteps(md, d, k, i, done, fromRight)) == 1
  {
    var carry := RippleAfter(md, d, |md|).carry;
    var head: seq<CalcStep> := [DigitIntro(i, d, fromRight)];
    var cols := Columns(md, d, k, i, done, |md|);
    var tail := RowEnd(carry, d, done, RowCells(md, d, k));
    CountColumns(md, d, k, i, done, |md|);
    assert head[..0] == [];
    assert CountPartialDone(tail) == 1 by {
      if carry > 0 {
        assert tail[..1][..0] == [];
        assert tail[..1] == [tail[0]];
      } else {
        assert tail[..0] == [];
      }
    }
    CountConcat(head, cols);
    CountConcat(head + cols, tail);
  }

  lemma {:induction false} CountColumns(md: seq<nat>, d: nat, k: nat, i: nat, done: seq<seq<Cell>>, n: nat)
    requires AllDigits(md) && d < 10 && n <= |md|
    ensures CountPartialDone(Columns(md, d, k, i, done, n)) == 0
  {
    ColumnsNotDone(md, d, k, i, done, n);
    CountNone(Columns(md, d, k, i, done, n));
  }

  lemma {:induction false} ColumnsNotDone(md: seq<nat>, d: nat, k: nat, i: nat, done: seq<seq<Cell>>, n: nat)
    requires AllDigits(md) && d < 10 && n <= |md|
    ensures forall t :: 0 <= t < |Columns(md, d, k, i, done, n)| ==> !Columns(md, d, k, i, done, n)[t].PartialDone?
  {
    if n > 0 {
      ColumnsNotDone(md, d, k, i, done, n - 1);
    }
  }

  lemma {:induction false} CountNone(s: seq<CalcStep>)
    requires forall t :: 0 <= t < |s| ==> !s[t].PartialDone?
    ensures CountPartialDone(s) == 0
  {
    if |s| > 0 {
      CountNone(s[..|s| - 1]);
    }
  }

  /** The outer loop's steps are closed and hold one finished-row step per iteration. */
  lemma RowsStepFacts(md: seq<nat>, bd: seq<nat>, n: nat, steps: seq<CalcStep>)
    requires AllDigits(md) && AllDigits(bd) && n <= |bd|
    requires steps == Rows(md, bd, n).steps
    ensures Closed(steps) && CountPartialDone(steps) == n
  {
    var step := RowStep(md, bd);
    forall k: nat, done: seq<seq<Cell>> | k < n
      ensures Closed(step(k, done)) && CountPartialDone(step(k, done)) == 1
    {
      RowStepOk(md, bd, k, done, step(k, done));
    }
    LoopFacts(step, RowOf(md, bd), n, steps);
  }

  /** One outer iteration's steps are closed and hold exactly one finished row. */
  lemma RowStepOk(md: seq<nat>, bd: seq<nat>, k: nat, done: seq<seq<Cell>>, s: seq<CalcStep>)
    requires AllDigits(md) && AllDigits(bd) && k < |bd|
    requires s == RowStep(md, bd)(k, done)
    ensures Closed(s) && CountPartialDone(s) == 1
  {
    var i := |bd| - (k + 1);
    var d := bd[i];
    assert s == RowSteps(md, d, k, i, done, k + 1);
    RowStepsOk(md, d, k, i, done, k + 1, s);
  }

  lemma RowStepsOk(md: seq<nat>, d: nat, k: nat, i: nat, done: seq<seq<Cell>>, fromRight: nat, s: seq<CalcStep>)
    requires AllDigits(md) && d < 10
    requires s == RowSteps(md, d, k, i, done, fromRight)
    ensures Closed(s) && CountPartialDone(s) == 1
  {
    RowClosed(md, d, k, i, done, fromRight, s);
    CountRow(md, d, k, i, done, fromRight);
  }

  /** Appending a closed row with one finished-row step keeps the list closed and counts one more row. */
  lemma StepsGrow(before: seq<CalcStep>, row: seq<CalcStep>, after: seq<CalcStep>, n: nat)
    requires after == before + row
    requires Closed(before) && CountPartialDone(before) == n
    requires Closed(row) && CountPartialDone(row) == 1
    ensures Closed(after) && CountPartialDone(after) == n + 1
  {
    ClosedConcat(before, row);
    CountConcat(before, row);
  }

  /** The assembled list for any digit lists: its ends, its row count and its carries. */
  lemma AssembleRows(a: nat, b: nat, md: seq<nat>, bd: seq<nat>, answer: seq<nat>)
    requires AllDigits(md) && AllDigits(bd)
    ensures var s := Assemble(a, b, Rows(md, bd, |bd|), answer);
      && |s| >= 2
      && s[0] == Intro(a, b)
      && s[|s| - 1] == FinalSum(Rows(md, bd, |bd|).rows, answer)
      && |Rows(md, bd, |bd|).rows| == |bd|
      && CountPartialDone(s) == |bd|
      && Closed(s)
  {
    RowsStepFacts(md, bd, |bd|, Rows(md, bd, |bd|).steps);
    AssembleShape(a, b, Rows(md, bd, |bd|), answer);
  }

  lemma GenerateUnfold(a: nat, b: nat)
    ensures AllDigits(ToDigits(a)) && AllDigits(ToDigits(b))
    ensures GenerateCalculationSteps(a, b)
         == Assemble(a, b, Rows(ToDigits(a), ToDigits(b), NumDigits(b)), ToDigits(Times(a, b)))
  {
  }

  /**
    The list opens with the intro and closes with the final sum, which shows one row
    per multiplier digit and whose answer is the decimal digits of `a * b`.
   */
  lemma CalculationStepsEnds(a: nat, b: nat)
    ensures var s := GenerateCalculationSteps(a, b);
      && |s| >= 2
      && s[0] == Intro(a, b)
      && s[|s| - 1].FinalSum?
      && |s[|s| - 1].rows| == NumDigits(b)
      && Value(s[|s| - 1].finalProduct) == a * b
      && Canonical(s[|s| - 1].finalProduct)
  {
    GenerateUnfold(a, b);
    AssembleRows(a, b, ToDigits(a), ToDigits(b), ToDigits(Times(a, b)));
  }

  /**
    There is exactly one finished-row step per multiplier digit, and a carry step
    appears exactly after each digit multiplication whose product has two digits.
   */
  lemma CalculationStepsCarries(a: nat, b: nat)
    ensures var s := GenerateCalculationSteps(a, b);
      && CountPartialDone(s) == NumDigits(b)
      && Closed(s)
  {
    GenerateUnfold(a, b);
    AssembleRows(a, b, ToDigits(a), ToDigits(b), ToDigits(Times(a, b)));
  }

  /**
    The rows the final sum adds are the lesson's partial products: row `k`, read
    with its "X" cells as zeros, is the `k`-th entry of `calculatePartialProducts`,
    so the rows add up to the final product.
   */
  lemma FinalSumAddsRows(a: nat, b: nat)
    ensures var s := GenerateCalculationSteps(a, b);
      var rows := s[|s| - 1].rows;
      && |rows| == |MultiplicationOp.PartialProducts(a, b)|
      && (forall k :: 0 <= k < |rows| ==>
            Value(Strip(rows[k])) == MultiplicationOp.PartialProducts(a, b)[k])
      && MultiplicationOp.Sum(MultiplicationOp.PartialProducts(a, b)) == Value(s[|s| - 1].finalProduct)
  {
    var md, bd := ToDigits(a), ToDigits(b);
    GenerateUnfold(a, b);
    AssembleRows(a, b, md, bd, ToDigits(Times(a, b)));
    var o := Rows(md, bd, |bd|);
    RowsSpec(md, bd, |bd|, o.rows);
    var pp := MultiplicationOp.PartialProducts(a, b);
    MultiplicationOp.PartialProductsSpec(a, b);
    forall k | 0 <= k < |bd|
      ensures Value(Strip(o.rows[k])) == pp[k]
    {
      assert RowOk(md, bd, o.rows[k], k);
      DigitAtToDigits(b, k);
    }
  }

  // ---------------------------------------------------------------------
  // getOrdinal

  const Suffixes: seq<string> := ["th", "st", "nd", "rd"]

  /**
    The suffix `getOrdinal` appends: `s[(v - 20) % 10] || s[v] || s[0]` with
    `v = n % 100`, where a negative index reads `undefined` and `-0` reads `s[0]`.
   */
  function OrdinalSuffix(n: int): string {
    SuffixFor(JsRem(n, 100))
  }

  function SuffixFor(v: int): string {
    OrElse(Lookup(Suffixes, JsRem(v - 20, 10)), OrElse(Lookup(Suffixes, v), Suffixes[0]))
  }

  /** `getOrdinal(n)`: the number followed by its suffix. */
  function GetOrdinal(n: nat): string {
    NatToString(n) + OrdinalSuffix(n)
  }

  /** The English rule: 11th-13th, otherwise 1st, 2nd, 3rd by the last digit, else th. */
  function EnglishSuffix(n: nat): string {
    if 11 <= n % 100 <= 13 then "th"
    else if n % 10 == 1 then "st"
    else if n % 10 == 2 then "nd"
    else if n % 10 == 3 then "rd"
    else "th"
  }

  /** The array-and-remainder trick agrees with the English rule for every natural number. */
  lemma OrdinalSuffixRule(n: nat)
    ensures OrdinalSuffix(n) == EnglishSuffix(n)
    ensures GetOrdinal(n) == NatToString(n) + EnglishSuffix(n)
  {
    var v := n % 100;
    LastTwoDigits(n, v);
    if v < 20 {
      LowSuffix(v);
    } else {
      HighSuffix(v);
    }
    assert EnglishSuffix(n) == EnglishSuffix(v);
  }

  lemma LastTwoDigits(n: nat, v: nat)
    requires v == n % 100
    ensures n % 10 == v % 10 && v % 100 == v
  {
    var q := n / 100;
    var q2 := v / 10;
    assert n == 10 * (10 * q + q2) + v % 10;
    DivModUnique(n, 10, 10 * q + q2, v % 10);
  }

  /** Below 20 the first read is `undefined` or `-0`, and the second settles 1st, 2nd, 3rd. */
  lemma LowSuffix(v: nat)
    requires v < 20
    ensures SuffixFor(v) == EnglishSuffix(v)
  {
    if v == 0 || v == 10 {
      ZeroRead(v);
    } else {
      NegativeRead(v);
    }
  }

  /** At 0 and 10 the first read is `-0`, which reads "th". */
  lemma ZeroRead(v: nat)
    requires v == 0 || v == 10
    ensures SuffixFor(v) == EnglishSuffix(v)
  {
    assert JsRem(v - 20, 10) == 0;
  }

  /** Elsewhere below 20 the first read is at a negative index, `undefined`. */
  lemma NegativeRead(v: nat)
    requires v < 20 && v != 0 && v != 10
    ensures SuffixFor(v) == EnglishSuffix(v)
  {
    assert JsRem(v - 20, 10) < 0;
  }

  /** From 20 on the first read is the last digit's suffix, or `undefined` past "rd". */
  lemma HighSuffix(v: nat)
    requires 20 <= v < 100
    ensures SuffixFor(v) == EnglishSuffix(v)
  {
    assert JsRem(v - 20, 10) == v % 10 by {
      DivModUnique(v - 20, 10, v / 10 - 2, v % 10);
    }
  }

  // ---------------------------------------------------------------------
  // The screen: input, Previous / Next / Reset

  datatype Visual = Visual(multiplicand: nat, multiplier: nat, steps: seq<CalcStep>,
                           currentStep: nat, isComplete: bool)

  datatype InputError = MissingInput | InvalidInput

  /** The index stays on a step, and the completion flag is only set on the last one. */
  predicate InRange(v: Visual) {
    && (|v.steps| == 0 ==> v.currentStep == 0)
    && (|v.steps| > 0 ==> v.currentStep < |v.steps|)
    && (v.isComplete ==> |v.steps| > 0 && v.currentStep == |v.steps| - 1)
  }

  /**
    `processMultiplication` on the two input boxes, whose contents the change
    handlers have already reduced to digits: an empty box is rejected (the screen
    keeps its state), otherwise the parsed numbers get a fresh step list at step 0.
   */
  function ProcessMultiplication(first: string, second: string): (r: Result<Visual, InputError>)
    requires IsDigitString(first) && IsDigitString(second)
    ensures r.Err? <==> |first| == 0 || |second| == 0
    ensures r.Err? ==> r.error == MissingInput
    ensures r.Ok? ==> && r.value.multiplicand == StrValue(first) && r.value.multiplier == StrValue(second)
                      && r.value.currentStep == 0 && !r.value.isComplete && InRange(r.value)
                      && |r.value.steps| >= 2 && r.value.steps[|r.value.steps| - 1].FinalSum?
                      && Value(r.value.steps[|r.value.steps| - 1].finalProduct)
                         == StrValue(first) * StrValue(second)
  {
    if |first| == 0 || |second| == 0 then Err(MissingInput)
    else
      ParseIntDigits(first);
      ParseIntDigits(second);
      match (ParseInt(first), ParseInt(second))
      case (Some(x), Some(y)) =>
        CalculationStepsEnds(x, y);
        Ok(Visual(x, y, GenerateCalculationSteps(x, y), 0, false))
      case _ => Err(InvalidInput)
  }

  /** `handleFirstInputChange` followed by processing: what the pupil types is filtered first. */
  lemma TypedInputProcessed(typed1: string, typed2: string)
    ensures var r := ProcessMultiplication(FilterDigits(typed1), FilterDigits(typed2));
      r.Ok? <==> |FilterDigits(typed1)| > 0 && |FilterDigits(typed2)| > 0
  {
  }

  /** `nextStep`. */
  function NextStep(v: Visual): (r: Visual)
    ensures InRange(v) ==> InRange(r)
    ensures r.steps == v.steps && r.multiplicand == v.multiplicand && r.multiplier == v.multiplier
  {
    if v.currentStep < |v.steps| - 1 then
      v.(currentStep := v.currentStep + 1, isComplete := v.currentStep + 1 == |v.steps| - 1)
    else v
  }

  /** `prevStep`. */
  function PrevStep(v: Visual): (r: Visual)
    ensures InRange(v) ==> InRange(r)
    ensures r.steps == v.steps && r.multiplicand == v.multiplicand && r.multiplier == v.multiplier
    ensures v.currentStep > 0 ==> !r.isComplete
  {
    if v.currentStep > 0 then v.(currentStep := v.currentStep - 1, isComplete := false) else v
  }

  /** `resetVisualization`. */
  function Reset(v: Visual): (r: Visual)
    ensures InRange(r) && r.currentStep == 0 && !r.isComplete
    ensures r.steps == v.steps
  {
    v.(currentStep := 0, isComplete := false)
  }

  function NextTimes(v: Visual, k: nat): Visual {
    if k == 0 then v else NextStep(NextTimes(v, k - 1))
  }

  /**
    From the start, `k` presses of Next land on step `min(k, length - 1)`, and the
    screen reports completion exactly once the last step is reached by a press.
   */
  lemma {:induction false} NextTimesFromStart(v: Visual, k: nat)
    requires |v.steps| > 0 && v.currentStep == 0 && !v.isComplete
    ensures var r := NextTimes(v, k);
      && r.currentStep == (if k < |v.steps| - 1 then k else |v.steps| - 1)
      && (r.isComplete <==> k >= 1 && |v.steps| >= 2 && k >= |v.steps| - 1)
      && r.steps == v.steps
  {
    if k > 0 {
      NextTimesFromStart(v, k - 1);
    }
  }

  /** Previous undoes Next, except that it clears the completion flag. */
  lemma PrevUndoesNext(v: Visual)
    requires v.currentStep < |v.steps| - 1
    ensures PrevStep(NextStep(v)) == v.(isComplete := false)
  {
  }
}

=== FILE: multiplication.dfy ===
/**
  The long-multiplication lesson: one partial product per digit of the multiplier,
  and the narrated steps.
 */
module MultiplicationOp {
  import opened Wrappers
  import opened Digits
  import opened Js
  import opened Columns
  import opened OperationCursor

  /** The `products` array after the first `n` iterations of `calculatePartialProducts`. */
  function ProductsUpTo(a: nat, b: nat, n: nat): (ps: seq<nat>)
    ensures |ps| == n
  {
    if n == 0 then [] else ProductsUpTo(a, b, n - 1) + [Times(Times(a, ColumnDigit(b, n - 1)), Pow10(n - 1))]
  }

  /** `calculatePartialProducts(a, b)`: one product per character of `b.toString()`. */
  function PartialProducts(a: nat, b: nat): seq<nat> {
    ProductsUpTo(a, b, NumDigits(b))
  }

  function Sum(s: seq<nat>): nat {
    if |s| == 0 then 0 else Sum(s[..|s| - 1]) + s[|s| - 1]
  }

  /** Entry `i` is `a` times the digit of `b` at place `i`, shifted to that place. */
  lemma {:induction false} ProductsEntries(a: nat, b: nat, n: nat)
    ensures forall i :: 0 <= i < n ==> ProductsUpTo(a, b, n)[i] == a * GetDigit(b, i) * Pow10(i)
  {
    if n > 0 {
      ProductsEntries(a, b, n - 1);
      ColumnDigitIsGetDigit(b, n - 1);
      assert ProductsUpTo(a, b, n)[..n - 1] == ProductsUpTo(a, b, n - 1);
    }
  }

  /** The first `n` partial products add up to `a` times the low `n` places of `b`. */
  lemma {:induction false} SumProductsUpTo(a: nat, b: nat, n: nat)
    ensures Sum(ProductsUpTo(a, b, n)) == a * (b % Pow10(n))
  {
    if n > 0 {
      var ps := ProductsUpTo(a, b, n);
      assert ps[..n - 1] == ProductsUpTo(a, b, n - 1);
      SumProductsUpTo(a, b, n - 1);
      ModSplit(b, n - 1);
      ColumnDigitIsGetDigit(b, n - 1);
      assert Sum(ps) == Sum(ProductsUpTo(a, b, n - 1)) + ps[n - 1];
      Distribute(a, b % Pow10(n - 1), GetDigit(b, n - 1), Pow10(n - 1),
        Sum(ProductsUpTo(a, b, n - 1)), ps[n - 1], b % Pow10(n));
    }
  }

  lemma Distribute(a: nat, lo: nat, d: nat, p: nat, low: int, last: int, m: int)
    requires low == a * lo && last == a * d * p && m == lo + d * p
    ensures low + last == a * m
  {
  }

  /**
    There is one partial product per digit of `b`, each the multiplicand times that
    digit at its place value, and together they add up to `a * b`.
   */
  lemma PartialProductsSpec(a: nat, b: nat)
    ensures |PartialProducts(a, b)| == NumDigits(b)
    ensures forall i :: 0 <= i < NumDigits(b) ==> PartialProducts(a, b)[i] == a * GetDigit(b, i) * Pow10(i)
    ensures Sum(PartialProducts(a, b)) == a * b
  {
    ProductsEntries(a, b, NumDigits(b));
    SumProductsUpTo(a, b, NumDigits(b));
    SmallMod(b, NumDigits(b));
  }

  // ---------------------------------------------------------------------
  // Narration

  /** One lesson step with the numbers it speaks; `None` is a read past the end of `partialProducts`. */
  datatype MulStep =
    | Intro
    | MultiplyOnes(num1: nat, digit: int, partial: Option<int>)
    | MultiplyTens(num1: nat, digit: int, times: int, partial: Option<int>)
    | MultiplyHundreds(num1: nat, digit: int, times: int, partial: Option<int>)
    | AddAll(partials: seq<nat>, product: int)
    | Final(product: int)

  /** The `steps` array, with `getDigit` the floating one of the source. */
  function Steps(num1: nat, num2: nat, product: int, partials: seq<nat>): seq<MulStep> {
    Layout(num1, num2 >= 10, num2 >= 100, JsGetDigit(num2, 0), JsGetDigit(num2, 1), JsGetDigit(num2, 2),
      partials, product)
  }

  /** The order of the steps, given the digits of the multiplier that are spoken. */
  function Layout(num1: nat, hasTens: bool, hasHundreds: bool, d0: int, d1: int, d2: int,
                  partials: seq<nat>, product: int): seq<MulStep>
  {
    [Intro, MultiplyOnes(num1, d0, Lookup(partials, 0))]
    + (if hasTens then [MultiplyTens(num1, d1, num1 * d1, Lookup(partials, 1))] else [])
    + (if hasHundreds then [MultiplyHundreds(num1, d2, num1 * d2, Lookup(partials, 2))] else [])
    + [AddAll(partials, product), Final(product)]
  }

  function Ind(b: bool): nat {
    if b then 1 else 0
  }

  /** Where each step sits in the list, whatever the digits and partial products. */
  lemma LayoutShape(num1: nat, hasTens: bool, hasHundreds: bool, d0: int, d1: int, d2: int,
                    partials: seq<nat>, product: int)
    ensures var s := Layout(num1, hasTens, hasHundreds, d0, d1, d2, partials, product);
      && |s| == 4 + Ind(hasTens) + Ind(hasHundreds)
      && s[0] == Intro
      && s[1] == MultiplyOnes(num1, d0, Lookup(partials, 0))
      && (hasTens ==> s[2] == MultiplyTens(num1, d1, num1 * d1, Lookup(partials, 1)))
      && (hasTens && hasHundreds ==> s[3] == MultiplyHundreds(num1, d2, num1 * d2, Lookup(partials, 2)))
      && s[|s| - 2] == AddAll(partials, product)
      && s[|s| - 1] == Final(product)
  {
  }

  /**
    With the partial products of the problem, the list has `4 + [b >= 10] + [b >= 100]`
    steps, opens with the intro, and its closing sum of the partial products is the product.
   */
  lemma StepsShape(a: nat, b: nat)
    ensures var s := Steps(a, b, a * b, PartialProducts(a, b));
      && |s| == 4 + Ind(b >= 10) + Ind(b >= 100)
      && s[0] == Intro
      && s[|s| - 2] == AddAll(PartialProducts(a, b), a * b)
      && s[|s| - 1] == Final(a * b)
      && Sum(s[|s| - 2].partials) == s[|s| - 1].product
  {
    var ps := PartialProducts(a, b);
    LayoutShape(a, b >= 10, b >= 100, JsGetDigit(b, 0), JsGetDigit(b, 1), JsGetDigit(b, 2), ps, a * b);
    PartialProductsSpec(a, b);
  }

  /** The ones step speaks the ones digit of `b` and the unshifted partial product `a` times it. */
  lemma NarratesOnes(a: nat, b: nat)
    ensures Steps(a, b, a * b, PartialProducts(a, b))[1]
      == MultiplyOnes(a, GetDigit(b, 0), Some(a * GetDigit(b, 0)))
  {
    var ps := PartialProducts(a, b);
    SpokenPartial(a, b, 0);
    LayoutShape(a, b >= 10, b >= 100, JsGetDigit(b, 0), JsGetDigit(b, 1), JsGetDigit(b, 2), ps, a * b);
  }

  /** The tens step, present when `b >= 10`, speaks the tens digit and a partial product shifted by 10. */
  lemma NarratesTens(a: nat, b: nat)
    ensures b >= 10 ==> (Steps(a, b, a * b, PartialProducts(a, b))[2]
      == MultiplyTens(a, GetDigit(b, 1), a * GetDigit(b, 1), Some(a * GetDigit(b, 1) * 10)))
  {
    if b >= 10 {
      var ps := PartialProducts(a, b);
      SpokenPartial(a, b, 1);
      LayoutShape(a, b >= 10, b >= 100, JsGetDigit(b, 0), JsGetDigit(b, 1), JsGetDigit(b, 2), ps, a * b);
    }
  }

  /** The hundreds step, present when `b >= 100`, speaks the hundreds digit and a partial product shifted by 100. */
  lemma NarratesHundreds(a: nat, b: nat)
    ensures b >= 100 ==> (Steps(a, b, a * b, PartialProducts(a, b))[3]
      == MultiplyHundreds(a, GetDigit(b, 2), a * GetDigit(b, 2), Some(a * GetDigit(b, 2) * 100)))
  {
    if b >= 100 {
      var ps := PartialProducts(a, b);
      SpokenPartial(a, b, 2);
      LayoutShape(a, b >= 10, b >= 100, JsGetDigit(b, 0), JsGetDigit(b, 1), JsGetDigit(b, 2), ps, a * b);
    }
  }

  /** The digit spoken for place `i` and the partial product read for it, when `b` has that place. */
  lemma SpokenPartial(a: nat, b: nat, i: nat)
    requires i == 0 || b >= Pow10(i)
    ensures JsGetDigit(b, i) == GetDigit(b, i)
    ensures Lookup(PartialProducts(a, b), i) == Some(a * GetDigit(b, i) * Pow10(i))
    ensures Pow10(1) == 10 && Pow10(2) == 100
  {
    JsGetDigitAgrees(b, i);
    if i > 0 {
      assert NumDigits(b) > i by {
        NumDigitsBound(b, i);
      }
    }
    PartialAt(a, b, i);
  }

  /** Reading `partialProducts[i]` for a place the multiplier has. */
  lemma PartialAt(a: nat, b: nat, i: nat)
    requires i < NumDigits(b)
    ensures Lookup(PartialProducts(a, b), i) == Some(a * GetDigit(b, i) * Pow10(i))
  {
    PartialProductsSpec(a, b);
  }

  // ---------------------------------------------------------------------
  // The screen

  datatype Screen = Screen(num1: nat, num2: nat, product: nat, partials: seq<nat>, cursor: Cursor)

  /** The effect run when a new problem arrives. */
  function NewProblem(num1: nat, num2: nat): (s: Screen)
    ensures s.product == num1 * num2 && s.cursor == Start()
    ensures |s.partials| == NumDigits(num2) && Sum(s.partials) == s.product
  {
    PartialProductsSpec(num1, num2);
    Screen(num1, num2, num1 * num2, PartialProducts(num1, num2), Start())
  }

  function ScreenSteps(s: Screen): seq<MulStep> {
    Steps(s.num1, s.num2, s.product, s.partials)
  }

  /**
    `handleNextStep` on the screen: below the end of the rendered list the cursor moves
    one step on, at or past the end nothing changes, and the problem is never touched.
   */
  function NextStep(s: Screen): (r: Screen)
    ensures Valid(s.cursor, |ScreenSteps(s)|) ==> Valid(r.cursor, |ScreenSteps(r)|)
    ensures r.num1 == s.num1 && r.num2 == s.num2 && r.partials == s.partials
    ensures r == s.(cursor := r.cursor)
    ensures s.cursor.currentStep < |ScreenSteps(s)| ==> r.cursor.currentStep == s.cursor.currentStep + 1
    ensures s.cursor.currentStep >= |ScreenSteps(s)| ==> r == s
  {
    NextPreservesValid(s.cursor, |ScreenSteps(s)|);
    s.(cursor := HandleNextStep(s.cursor, |ScreenSteps(s)|).cursor)
  }
}

=== FILE: op_cursor.dfy ===
/**
  The step cursor shared by the addition, subtraction, multiplication, division and
  factorial lesson screens: `currentStep` runs from 0 to `steps.length`, and the click made on
  the last step marks the lesson completed and fires `onComplete`.
 */
module OperationCursor {
  import opened Wrappers

  datatype Cursor = Cursor(currentStep: nat, completed: bool)

  /** The cursor after a click, the step whose narration is spoken, and whether `onComplete` fired. */
  datatype Click = Click(cursor: Cursor, spoken: Option<nat>, firedComplete: bool)

  /** The state a fresh problem starts in. */
  function Start(): Cursor {
    Cursor(0, false)
  }

  /** The reachable states: the cursor never passes the end, and it is completed exactly at the end. */
  predicate Valid(c: Cursor, len: nat) {
    c.currentStep <= len && (c.completed <==> c.currentStep == len)
  }

  /** `handleNextStep`. */
  function HandleNextStep(c: Cursor, len: nat): (k: Click)
    ensures k.spoken.Some? ==> k.spoken.value < len
    ensures k.firedComplete ==> k.cursor.completed && k.cursor.currentStep == len
    ensures c.currentStep < len ==>
      && k.cursor.currentStep == c.currentStep + 1
      && k.spoken == Some(c.currentStep)
      && (k.firedComplete <==> c.currentStep == len - 1)
    ensures c.currentStep >= len ==> k == Click(c, None, false)
  {
    if c.currentStep < len then
      var last := c.currentStep == len - 1;
      Click(Cursor(c.currentStep + 1, c.completed || last), Some(c.currentStep), last)
    else
      Click(c, None, false)
  }

  /** Clicking keeps a reachable cursor reachable. */
  lemma NextPreservesValid(c: Cursor, len: nat)
    ensures Valid(c, len) ==> Valid(HandleNextStep(c, len).cursor, len)
  {
  }

  /** `k` clicks from the start of a lesson of `len >= 1` steps. */
  function Clicks(len: nat, k: nat): (c: Cursor)
    decreases k
  {
    if k == 0 then Start() else HandleNextStep(Clicks(len, k - 1), len).cursor
  }

  /** How many of those `k` clicks fired `onComplete`. */
  function Fired(len: nat, k: nat): nat
    decreases k
  {
    if k == 0 then 0
    else Fired(len, k - 1) + (if HandleNextStep(Clicks(len, k - 1), len).firedComplete then 1 else 0)
  }

  /**
    After `k` clicks the cursor is at `min(k, len)`, the lesson is completed exactly when
    `k >= len`, and `onComplete` has fired once if so and never otherwise.
   */
  lemma {:induction false} ClicksTrace(len: nat, k: nat)
    requires len >= 1
    ensures Clicks(len, k).currentStep == (if k < len then k else len)
    ensures Clicks(len, k).completed <==> k >= len
    ensures Fired(len, k) == (if k >= len then 1 else 0)
  {
    if k > 0 {
      ClicksTrace(len, k - 1);
    }
  }

  /** The heading: `steps[currentStep]` while in range, else the last step's instruction. */
  function InstructionIndex(c: Cursor, len: nat): (i: nat)
    requires len >= 1
    ensures i < len
    ensures c.currentStep < len ==> i == c.currentStep
  {
    if c.currentStep < len then c.currentStep else len - 1
  }

  /** The speaker button: `steps[currentStep]?.voice || steps[0].voice`. */
  function SpeakerIndex(c: Cursor, len: nat): (i: nat)
    requires len >= 1
    ensures i < len
    ensures c.currentStep >= len ==> i == 0
  {
    if c.currentStep < len then c.currentStep else 0
  }
}

=== FILE: pattern_items.dfy ===
/**
  The shapes the pattern games draw and the periodic sequences they build by
  repeating a base block.
 */
module PatternItems {
  import opened Digits

  datatype ShapeType = Circle | Square | Triangle | Diamond

  datatype ShapeColor = Red | Blue | Green | Yellow | Purple | Orange

  /** A `PatternItem`; `isPatternItemEqual` is equality of both fields. */
  datatype Item = Item(shape: ShapeType, color: ShapeColor)

  /** The games' distractor loops reject a candidate only for equality, never for its kind. */
  function AnyItem(x: Item): bool {
    true
  }

  /** `shapeTypes[k]` in the order the games list them. */
  function TypeAt(k: nat): ShapeType
    requires k < 4
  {
    [Circle, Square, Triangle, Diamond][k]
  }

  /** `shapeColors[k]` in the order the games list them. */
  function ColorAt(k: nat): ShapeColor
    requires k < 6
  {
    [Red, Blue, Green, Yellow, Purple, Orange][k]
  }

  /** Every shape and every colour is some draw's result. */
  lemma DrawsCoverAll(t: ShapeType, c: ShapeColor)
    ensures exists k :: 0 <= k < 4 && TypeAt(k) == t
    ensures exists k :: 0 <= k < 6 && ColorAt(k) == c
  {
    match t {
      case Circle => assert TypeAt(0) == t;
      case Square => assert TypeAt(1) == t;
      case Triangle => assert TypeAt(2) == t;
      case Diamond => assert TypeAt(3) == t;
    }
    match c {
      case Red => assert ColorAt(0) == c;
      case Blue => assert ColorAt(1) == c;
      case Green => assert ColorAt(2) == c;
      case Yellow => assert ColorAt(3) == c;
      case Purple => assert ColorAt(4) == c;
      case Orange => assert ColorAt(5) == c;
    }
  }

  /** `for (i = 0; i < len; i++) pattern.push(base[i % base.length])`. */
  function Tile<T>(base: seq<T>, len: nat): (p: seq<T>)
    requires |base| > 0
    ensures |p| == len
    ensures forall i :: 0 <= i < len ==> p[i] == base[i % |base|]
  {
    seq(len, i requires 0 <= i < len => base[i % |base|])
  }

  /** A sequence repeats with period `r`: each entry equals the one in the first block at its offset. */
  ghost predicate Periodic<T>(p: seq<T>, r: nat) {
    r > 0 && forall i :: 0 <= i < |p| ==> p[i] == p[i % r]
  }

  /** A tiling longer than its base is periodic, and its first block is the base. */
  lemma TilePeriodic<T>(base: seq<T>, len: nat)
    requires |base| > 0 && len >= |base|
    ensures Periodic(Tile(base, len), |base|)
    ensures Tile(base, len)[..|base|] == base
  {
    var p := Tile(base, len);
    var r := |base|;
    forall i | 0 <= i < len
      ensures p[i] == p[i % r]
    {
      DivModUnique(i % r, r, 0, i % r);
    }
    forall i | 0 <= i < r
      ensures p[i] == base[i]
    {
      DivModUnique(i, r, 0, i);
    }
  }

  /** Extending a tiling by one entry appends the periodic continuation. */
  lemma TileExtends<T>(base: seq<T>, len: nat)
    requires |base| > 0
    ensures Tile(base, len + 1) == Tile(base, len) + [base[len % |base|]]
  {
  }
}

=== FILE: problems.dfy ===
/**
  The problem generators of the lesson screens. Every `Math.random()` call is a
  parameter `r` with `0 <= r < 1`, and `Math.floor(Math.random() * k)` is `Draw(r, k)`.
  Addition and subtraction switch on a numeric class level with strict equality;
  multiplication and division switch on a difficulty string.
 */
module Problems {
  import opened Js
  import opened Digits

  /** A value `Math.random()` can return. */
  predicate IsRandom(r: real) {
    0.0 <= r < 1.0
  }

  /** `Math.floor(r * k)`. */
  function Draw(r: real, k: int): int {
    (r * (k as real)).Floor
  }

  /** The values a draw can take: `[0, k)` for positive `k`, only 0 for `k = 0`, `[k, 0]` below. */
  lemma DrawRange(r: real, k: int)
    requires IsRandom(r)
    ensures k > 0 ==> 0 <= Draw(r, k) < k
    ensures k == 0 ==> Draw(r, k) == 0
    ensures k < 0 ==> k <= Draw(r, k) <= 0
  {
    var kr := k as real;
    Spread(r, kr);
    if k > 0 {
      NonNegative(r, kr);
      Positive(1.0 - r, kr);
    } else if k < 0 {
      NonNegative(r, -kr);
      Positive(1.0 - r, -kr);
    }
  }

  /** The two facts about `r * k` the draw bounds rest on. */
  lemma Spread(r: real, kr: real)
    ensures kr - r * kr == (1.0 - r) * kr
    ensures r * -kr == -(r * kr) && (1.0 - r) * -kr == -((1.0 - r) * kr)
  {
  }

  lemma NonNegative(a: real, b: real)
    requires a >= 0.0 && b >= 0.0
    ensures a * b >= 0.0
  {
  }

  lemma Positive(a: real, b: real)
    requires a > 0.0 && b > 0.0
    ensures a * b > 0.0
  {
  }

  /** Every value in `[0, k)` is drawn by some `Math.random()` result. */
  lemma DrawOnto(j: int, k: int)
    requires 0 <= j < k
    ensures IsRandom(j as real / k as real) && Draw(j as real / k as real, k) == j
  {
    assert (j as real / k as real) * (k as real) == j as real;
  }

  /** `Math.floor(x / 10) % 10` with JavaScript's `%`. */
  function Tens(x: int): int {
    JsRem(x / 10, 10)
  }

  // ---------------------------------------------------------------------
  // Addition

  /** The argument a generator is called with: a JavaScript number or a string. */
  datatype JsValue = Num(n: int) | Text(s: string)

  datatype AddProblem = AddProblem(num1: int, num2: int, sum: int)

  function AddLevel1(r1: real, r2: real): (p: AddProblem) {
    var num1 := Draw(r1, 9) + 1;
    var num2 := Draw(r2, 9 - num1) + 1;
    AddProblem(num1, num2, num1 + num2)
  }

  function AddLevel2(r1: real, r2: real): (p: AddProblem) {
    var a := Draw(r1, 90) + 10;
    var b := Draw(r2, 90) + 10;
    var a' := if JsRem(a, 10) + JsRem(b, 10) < 10 && Tens(a) + Tens(b) < 10
              then a - JsRem(a, 10) + (10 - JsRem(b, 10) + 1) else a;
    AddProblem(a', b, a' + b)
  }

  function AddLevel3(r1: real, r2: real): (p: AddProblem) {
    var target := Draw(r1, 1900) + 100;
    var a0 := Draw(r2, target - 100) + 100;
    var b0 := target - a0;
    var (a1, b1) := if b0 < 100 then (target - 100, 100) else (a0, b0);
    var (a2, b2) := if JsRem(a1, 10) + JsRem(b1, 10) < 10
                    then var a := a1 - JsRem(a1, 10) + (10 - (JsRem(a1, 10) + JsRem(b1, 10)) + 1);
                         (a, target - a)
                    else (a1, b1);
    var (a3, b3) := if Tens(a2) + Tens(b2) < 10
                    then var a := a2 - Tens(a2) * 10 + (10 - (Tens(a2) + Tens(b2)) + 1) * 10;
                         (a, target - a)
                    else (a2, b2);
    AddProblem(a3, b3, a3 + b3)
  }

  function AddDefault(r1: real, r2: real): (p: AddProblem) {
    var a := Draw(r1, 900) + 100;
    var b := Draw(r2, 900) + 100;
    AddProblem(a, b, a + b)
  }

  /** `generateAdditionProblem(classLevel)`: `switch` compares with `===`, so only the numbers 1-4 select a level. */
  function GenerateAddition(classLevel: JsValue, r1: real, r2: real): (p: AddProblem)
    requires IsRandom(r1) && IsRandom(r2)
    ensures p.sum == p.num1 + p.num2
  {
    if classLevel == Num(1) then AddLevel1(r1, r2)
    else if classLevel == Num(2) then AddLevel2(r1, r2)
    else if classLevel == Num(3) || classLevel == Num(4) then AddLevel3(r1, r2)
    else AddDefault(r1, r2)
  }

  /**
    Level 1 draws a first addend from 1 to 9 and a positive second one; the sum stays
    at most 10 (the code's comment promises below 10, which `9 + 1` breaks).
   */
  lemma AddLevel1Range(r1: real, r2: real)
    requires IsRandom(r1) && IsRandom(r2)
    ensures var p := GenerateAddition(Num(1), r1, r2);
      1 <= p.num1 <= 9 && 1 <= p.num2 && p.sum <= 10
  {
    DrawRange(r1, 9);
    DrawRange(r2, 9 - (Draw(r1, 9) + 1));
  }

  /** The sum 10 is reachable at level 1. */
  lemma AddLevel1ReachesTen()
    ensures GenerateAddition(Num(1), 8.0 / 9.0, 0.0) == AddProblem(9, 1, 10)
  {
    DrawOnto(8, 9);
  }

  /** Levels 3 and 4 keep the sum they drew first: it lies in `[100, 1999]`. */
  lemma AddLevel3Sum(level: int, r1: real, r2: real)
    requires level == 3 || level == 4
    requires IsRandom(r1) && IsRandom(r2)
    ensures var p := GenerateAddition(Num(level), r1, r2);
      p.sum == Draw(r1, 1900) + 100 && 100 <= p.sum <= 1999
  {
    DrawRange(r1, 1900);
  }

  /** The default branch: two three-digit addends. */
  lemma AddDefaultRange(classLevel: JsValue, r1: real, r2: real)
    requires IsRandom(r1) && IsRandom(r2)
    requires classLevel !in {Num(1), Num(2), Num(3), Num(4)}
    ensures var p := GenerateAddition(classLevel, r1, r2);
      100 <= p.num1 <= 999 && 100 <= p.num2 <= 999
  {
    DrawRange(r1, 900);
    DrawRange(r2, 900);
  }

  /**
    Level 2 means to force a carry in the ones column, but when the second addend ends
    in 0 the adjusted first addend ends in 1: `10 + 10` becomes `21 + 10`, which needs no carry.
   */
  lemma AddLevel2CarryNotForced()
    ensures GenerateAddition(Num(2), 0.0, 0.0) == AddProblem(21, 10, 31)
  {
  }

  /** Level 1 with the first addend drawn from 1 to 8, so the second always fits below 10. */
  function AddLevel1Fixed(r1: real, r2: real): (p: AddProblem) {
    var num1 := Draw(r1, 8) + 1;
    var num2 := Draw(r2, 9 - num1) + 1;
    AddProblem(num1, num2, num1 + num2)
  }

  /** The corrected level 1 keeps its promise: two positive one-digit addends with a sum below 10. */
  lemma AddLevel1FixedSpec(r1: real, r2: real)
    requires IsRandom(r1) && IsRandom(r2)
    ensures var p := AddLevel1Fixed(r1, r2);
      1 <= p.num1 && 1 <= p.num2 && p.sum == p.num1 + p.num2 && p.sum < 10
  {
    DrawRange(r1, 8);
    DrawRange(r2, 9 - (Draw(r1, 8) + 1));
  }

  /** Every sum below 10 of two positive addends is posed by the corrected level 1. */
  lemma AddLevel1FixedOnto(a: int, b: int)
    requires 1 <= a && 1 <= b && a + b < 10
    ensures IsRandom((a - 1) as real / 8 as real) && IsRandom((b - 1) as real / (9 - a) as real)
    ensures AddLevel1Fixed((a - 1) as real / 8 as real, (b - 1) as real / (9 - a) as real) == AddProblem(a, b, a + b)
  {
    DrawOnto(a - 1, 8);
    DrawOnto(b - 1, 9 - a);
  }

  /**
    Level 2 with the carry really forced: the first addend's ones digit is chosen as the
    code does when that gives a carry (`11 - d` for a second ones digit `d >= 2`), and
    otherwise as 9, with a second ones digit of 0 raised to 1.
   */
  function AddLevel2Fixed(r1: real, r2: real): (p: AddProblem) {
    ForceCarry(Draw(r1, 90) + 10, Draw(r2, 90) + 10)
  }

  /** The corrected adjustment applied to the two drawn addends. */
  function ForceCarry(a: int, b: int): AddProblem {
    if JsRem(a, 10) + JsRem(b, 10) < 10 && Tens(a) + Tens(b) < 10 then
      var d := JsRem(b, 10);
      var b' := if d == 0 then b + 1 else b;
      var a' := a - JsRem(a, 10) + (if d <= 1 then 9 else 10 - d + 1);
      AddProblem(a', b', a' + b')
    else AddProblem(a, b, a + b)
  }

  /** The corrected level 2 poses two two-digit addends and at least one column always carries. */
  lemma AddLevel2FixedCarries(r1: real, r2: real)
    requires IsRandom(r1) && IsRandom(r2)
    ensures var p := AddLevel2Fixed(r1, r2);
      && 10 <= p.num1 <= 99 && 10 <= p.num2 <= 99 && p.sum == p.num1 + p.num2
      && (p.num1 % 10 + p.num2 % 10 >= 10 || p.num1 / 10 + p.num2 / 10 >= 10)
  {
    DrawRange(r1, 90);
    DrawRange(r2, 90);
    ForceCarryCarries(Draw(r1, 90) + 10, Draw(r2, 90) + 10);
  }

  /** On any two two-digit addends the corrected adjustment leaves a column that carries. */
  lemma ForceCarryCarries(a: int, b: int)
    requires 10 <= a <= 99 && 10 <= b <= 99
    ensures var p := ForceCarry(a, b);
      && 10 <= p.num1 <= 99 && 10 <= p.num2 <= 99 && p.sum == p.num1 + p.num2
      && (p.num1 % 10 + p.num2 % 10 >= 10 || p.num1 / 10 + p.num2 / 10 >= 10)
  {
    TwoDigitTens(a);
    TwoDigitTens(b);
    if a % 10 + b % 10 < 10 && a / 10 + b / 10 < 10 {
      ForcedCarry(a, b);
    }
  }

  /** For a two-digit number `Math.floor(x / 10) % 10` is its tens digit. */
  lemma TwoDigitTens(x: int)
    requires 10 <= x <= 99
    ensures Tens(x) == x / 10 && JsRem(x, 10) == x % 10
  {
  }

  /** The corrected adjustment of two two-digit addends whose columns both stay below 10. */
  lemma ForcedCarry(a: int, b: int)
    requires 10 <= a <= 99 && 10 <= b <= 99
    requires a % 10 + b % 10 < 10 && a / 10 + b / 10 < 10
    ensures var d := b % 10;
      var b' := if d == 0 then b + 1 else b;
      var a' := a - a % 10 + (if d <= 1 then 9 else 10 - d + 1);
      10 <= a' <= 99 && 10 <= b' <= 99 && a' % 10 + b' % 10 >= 10
  {
    var d := b % 10;
    var x := if d <= 1 then 9 else 10 - d + 1;
    var e := if d == 0 then 1 else d;
    var b' := if d == 0 then b + 1 else b;
    var a' := a - a % 10 + x;
    assert a' == (a / 10) * 10 + x;
    DivModUnique(a', 10, a / 10, x);
    assert b' == (b / 10) * 10 + e;
    DivModUnique(b', 10, b / 10, e);
  }

  /**
    The corrected level 2 poses the problem the code poses exactly when the code's
    adjustment is not needed or works, that is, unless it fires on a second ones digit of 0 or 1.
   */
  lemma AddLevel2FixedAgrees(r1: real, r2: real)
    ensures var a := Draw(r1, 90) + 10;
      var b := Draw(r2, 90) + 10;
      var fires := JsRem(a, 10) + JsRem(b, 10) < 10 && Tens(a) + Tens(b) < 10;
      AddLevel2Fixed(r1, r2) == AddLevel2(r1, r2) <==> !(fires && JsRem(b, 10) <= 1)
  {
  }

  // ---------------------------------------------------------------------
  // Subtraction

  datatype SubProblem = SubProblem(num1: int, num2: int, difference: int)

  function SubLevel1(r1: real, r2: real): (p: SubProblem) {
    var b := Draw(r1, 9) + 1;
    var a := b + Draw(r2, 9 - b) + 1;
    SubProblem(a, b, a - b)
  }

  /** Level 2 draws the subtrahend from `num1` while `num1` is still 0. */
  function SubLevel2(r1: real, r2: real, r3: real): (p: SubProblem) {
    var a0 := 0;
    var b := Draw(r1, a0) + 10;
    var a1 := Draw(r2, 90) + 10;
    var a2 := if a1 <= b then b + Draw(r3, 10) + 1 else a1;
    var (a3, b3) := if JsRem(a2, 10) >= JsRem(b, 10)
                    then ((a2 / 10) * 10 + JsRem(b, 10), (b / 10) * 10 + JsRem(a2, 10))
                    else (a2, b);
    SubProblem(a3, b3, a3 - b3)
  }

  function SubLevel3(r1: real, r2: real, r3: real): (p: SubProblem) {
    var a0 := Draw(r1, 400) + 100;
    var b := Draw(r2, a0) + 1;
    var a1 := if a0 <= b then b + Draw(r3, 100) + 1 else a0;
    var a2 := if JsRem(a1, 10) >= JsRem(b, 10) then a1 - JsRem(a1, 10) + (JsRem(b, 10) - 1) else a1;
    var a3 := if Tens(a2) >= Tens(b) then a2 - Tens(a2) * 10 + (Tens(b) - 1) * 10 else a2;
    SubProblem(a3, b, a3 - b)
  }

  function SubDefault(r1: real, r2: real, r3: real): (p: SubProblem) {
    var a0 := Draw(r1, 400) + 100;
    var b := Draw(r2, a0) + 1;
    var a1 := if a0 <= b then b + Draw(r3, 100) + 1 else a0;
    SubProblem(a1, b, a1 - b)
  }

  /** `generateSubtractionProblem(classLevel)`. */
  function GenerateSubtraction(classLevel: JsValue, r1: real, r2: real, r3: real): (p: SubProblem)
    requires IsRandom(r1) && IsRandom(r2) && IsRandom(r3)
    ensures p.difference == p.num1 - p.num2
  {
    if classLevel == Num(1) then SubLevel1(r1, r2)
    else if classLevel == Num(2) then SubLevel2(r1, r2, r3)
    else if classLevel == Num(3) || classLevel == Num(4) then SubLevel3(r1, r2, r3)
    else SubDefault(r1, r2, r3)
  }

  /** Level 1: a subtrahend from 1 to 9 and a larger minuend of at most 10. */
  lemma SubLevel1Range(r1: real, r2: real, r3: real)
    requires IsRandom(r1) && IsRandom(r2) && IsRandom(r3)
    ensures var p := GenerateSubtraction(Num(1), r1, r2, r3);
      1 <= p.num2 < p.num1 <= 10 && p.difference >= 1
  {
    DrawRange(r1, 9);
    DrawRange(r2, 9 - (Draw(r1, 9) + 1));
  }

  /** The default branch keeps its promise: the minuend is larger, and both fit three digits. */
  lemma SubDefaultRange(classLevel: JsValue, r1: real, r2: real, r3: real)
    requires IsRandom(r1) && IsRandom(r2) && IsRandom(r3)
    requires classLevel !in {Num(1), Num(2), Num(3), Num(4)}
    ensures var p := GenerateSubtraction(classLevel, r1, r2, r3);
      1 <= p.num2 < p.num1 <= 599 && p.difference >= 1
  {
    DrawRange(r1, 400);
    DrawRange(r2, Draw(r1, 400) + 100);
  }

  /** Level 2 with a first draw of 15: the ones digits are swapped and the problem reads `10 - 15`. */
  lemma SubLevel2Negative()
    ensures GenerateSubtraction(Num(2), 0.0, 5.0 / 90.0, 0.0) == SubProblem(10, 15, -5)
  {
    DrawOnto(5, 90);
  }

  /** Levels 3 and 4 with draws 105 and 103: the digit adjustments leave `92 - 103`. */
  lemma SubLevel3Negative()
    ensures GenerateSubtraction(Num(3), 5.0 / 400.0, 102.0 / 105.0, 0.0) == SubProblem(92, 103, -11)
  {
    DrawOnto(5, 400);
    DrawOnto(102, 105);
    assert JsRem(105, 10) == 5 && JsRem(103, 10) == 3;
    assert Tens(102) == 0 && Tens(103) == 0;
    assert SubLevel3(5.0 / 400.0, 102.0 / 105.0, 0.0) == SubProblem(92, 103, -11);
  }

  /**
    Level 2's ones-digit swap keeps the two numbers apart: swapping ones digits between
    two different numbers whose tens already differ, or whose ones differ, cannot make them equal.
   */
  lemma SwapKeepsApart(a: int, b: int)
    requires 0 <= b < a
    ensures var (a3, b3) := if JsRem(a, 10) >= JsRem(b, 10)
                            then ((a / 10) * 10 + JsRem(b, 10), (b / 10) * 10 + JsRem(a, 10))
                            else (a, b);
      a3 != b3
  {
  }

  /**
    Level 3's digit adjustments keep the minuend's ones digit away from the subtrahend's,
    so the two numbers never coincide.
   */
  lemma AdjustKeepsApart(a1: int, b: int)
    requires 1 <= b < a1
    ensures var a2 := if JsRem(a1, 10) >= JsRem(b, 10) then a1 - JsRem(a1, 10) + (JsRem(b, 10) - 1) else a1;
      var a3 := if Tens(a2) >= Tens(b) then a2 - Tens(a2) * 10 + (Tens(b) - 1) * 10 else a2;
      a3 != b
  {
    var a2 := if JsRem(a1, 10) >= JsRem(b, 10) then a1 - JsRem(a1, 10) + (JsRem(b, 10) - 1) else a1;
    var a3 := if Tens(a2) >= Tens(b) then a2 - Tens(a2) * 10 + (Tens(b) - 1) * 10 else a2;
    assert a2 >= 0 && a2 % 10 != b % 10;
    var k := if Tens(a2) >= Tens(b) then Tens(b) - 1 - Tens(a2) else 0;
    assert a3 == a2 + k * 10;
    if a3 >= 0 {
      DivModUnique(a3, 10, a2 / 10 + k, a2 % 10);
    }
  }

  /** Level 2 never poses a number minus itself. */
  lemma SubLevel2Apart(r1: real, r2: real, r3: real)
    requires IsRandom(r1) && IsRandom(r2) && IsRandom(r3)
    ensures SubLevel2(r1, r2, r3).num1 != SubLevel2(r1, r2, r3).num2
  {
    DrawRange(r1, 0);
    DrawRange(r2, 90);
    DrawRange(r3, 10);
    var a1 := Draw(r2, 90) + 10;
    SwapKeepsApart(if a1 <= 10 then 10 + Draw(r3, 10) + 1 else a1, 10);
  }

  /** Levels 3 and 4 never pose a number minus itself. */
  lemma SubLevel3Apart(r1: real, r2: real, r3: real)
    requires IsRandom(r1) && IsRandom(r2) && IsRandom(r3)
    ensures SubLevel3(r1, r2, r3).num1 != SubLevel3(r1, r2, r3).num2
  {
    var a0 := Draw(r1, 400) + 100;
    DrawRange(r1, 400);
    DrawRange(r2, a0);
    DrawRange(r3, 100);
    var b := Draw(r2, a0) + 1;
    AdjustKeepsApart(if a0 <= b then b + Draw(r3, 100) + 1 else a0, b);
  }

  /** No level of the generator poses a number minus itself. */
  lemma GeneratedNumbersDiffer(classLevel: JsValue, r1: real, r2: real, r3: real)
    requires IsRandom(r1) && IsRandom(r2) && IsRandom(r3)
    ensures var q := GenerateSubtraction(classLevel, r1, r2, r3); q.num1 != q.num2
  {
    if classLevel == Num(1) {
      SubLevel1Range(r1, r2, r3);
    } else if classLevel == Num(2) {
      SubLevel2Apart(r1, r2, r3);
    } else if classLevel == Num(3) || classLevel == Num(4) {
      SubLevel3Apart(r1, r2, r3);
    } else {
      SubDefaultRange(classLevel, r1, r2, r3);
    }
  }

  /**
    The generator with the order the code's comments promise restored at the end: the
    larger number becomes the minuend, so the difference is never negative.
   */
  function GenerateSubtractionOrdered(classLevel: JsValue, r1: real, r2: real, r3: real): (p: SubProblem)
    requires IsRandom(r1) && IsRandom(r2) && IsRandom(r3)
  {
    var q := GenerateSubtraction(classLevel, r1, r2, r3);
    if q.num1 < q.num2 then SubProblem(q.num2, q.num1, q.num2 - q.num1) else q
  }

  /** The ordered generator poses the same two numbers, the minuend strictly larger than the subtrahend. */
  lemma OrderedSubtractionSound(classLevel: JsValue, r1: real, r2: real, r3: real)
    requires IsRandom(r1) && IsRandom(r2) && IsRandom(r3)
    ensures var p := GenerateSubtractionOrdered(classLevel, r1, r2, r3);
      var q := GenerateSubtraction(classLevel, r1, r2, r3);
      && p.difference == p.num1 - p.num2 && p.difference >= 0 && p.num1 > p.num2
      && multiset{p.num1, p.num2} == multiset{q.num1, q.num2}
  {
    GeneratedNumbersDiffer(classLevel, r1, r2, r3);
  }

  // ---------------------------------------------------------------------
  // What the operation page passes

  /**
    The addition and subtraction screens hand the page's difficulty string to
    generators that switch on a class-level number.
   */
  function PageAddition(difficulty: string, r1: real, r2: real): AddProblem
    requires IsRandom(r1) && IsRandom(r2)
  {
    GenerateAddition(Text(difficulty), r1, r2)
  }

  function PageSubtraction(difficulty: string, r1: real, r2: real, r3: real): SubProblem
    requires IsRandom(r1) && IsRandom(r2) && IsRandom(r3)
  {
    GenerateSubtraction(Text(difficulty), r1, r2, r3)
  }

  /**
    No string equals a number under `===`, so every difficulty gets the default
    three-digit problems: easy and hard pose the same problem for the same draws.
   */
  lemma PageIgnoresDifficulty(d1: string, d2: string, r1: real, r2: real, r3: real)
    requires IsRandom(r1) && IsRandom(r2) && IsRandom(r3)
    ensures PageAddition(d1, r1, r2) == PageAddition(d2, r1, r2)
    ensures PageSubtraction(d1, r1, r2, r3) == PageSubtraction(d2, r1, r2, r3)
    ensures 100 <= PageAddition(d1, r1, r2).num1 <= 999 && 100 <= PageAddition(d1, r1, r2).num2 <= 999
  {
    AddDefaultRange(Text(d1), r1, r2);
  }

  /** The class level a difficulty stands for. */
  function LevelOf(difficulty: string): (level: int)
    ensures difficulty == "easy" <==> level == 1
    ensures difficulty == "medium" <==> level == 2
    ensures difficulty == "hard" <==> level == 3
  {
    if difficulty == "easy" then 1
    else if difficulty == "medium" then 2
    else if difficulty == "hard" then 3
    else 0
  }

  /** The screens' call with the difficulty turned into its class level. */
  function PageAdditionLevelled(difficulty: string, r1: real, r2: real): AddProblem
    requires IsRandom(r1) && IsRandom(r2)
  {
    GenerateAddition(Num(LevelOf(difficulty)), r1, r2)
  }

  /** With levels passed, the difficulty matters: easy stays at sums up to 10, hard at three-digit sums. */
  lemma LevelledDifficultyMatters(r1: real, r2: real)
    requires IsRandom(r1) && IsRandom(r2)
    ensures PageAdditionLevelled("easy", r1, r2).sum <= 10
    ensures PageAdditionLevelled("hard", r1, r2).sum >= 100
    ensures PageAdditionLevelled("easy", r1, r2) != PageAdditionLevelled("hard", r1, r2)
  {
    AddLevel1Range(r1, r2);
    AddLevel3Sum(3, r1, r2);
  }

  /** Subtraction with both corrections: the level selects the branch and the minuend is the larger number. */
  function PageSubtractionLevelled(difficulty: string, r1: real, r2: real, r3: real): SubProblem
    requires IsRandom(r1) && IsRandom(r2) && IsRandom(r3)
  {
    GenerateSubtractionOrdered(Num(LevelOf(difficulty)), r1, r2, r3)
  }

  lemma LevelledSubtractionSound(difficulty: string, r1: real, r2: real, r3: real)
    requires IsRandom(r1) && IsRandom(r2) && IsRandom(r3)
    ensures var p := PageSubtractionLevelled(difficulty, r1, r2, r3);
      p.difference == p.num1 - p.num2 && p.difference >= 0
    ensures difficulty == "easy" ==>
      var p := PageSubtractionLevelled(difficulty, r1, r2, r3);
      1 <= p.num2 < p.num1 <= 10
  {
    OrderedSubtractionSound(Num(LevelOf(difficulty)), r1, r2, r3);
    SubLevel1Range(r1, r2, r3);
  }

  // ---------------------------------------------------------------------
  // Multiplication and division

  datatype MulProblem = MulProblem(num1: int, num2: int, product: int)

  /** `generateMultiplicationProblem(difficulty)`; an unknown difficulty leaves both factors 0. */
  function GenerateMultiplication(difficulty: string, r1: real, r2: real): (p: MulProblem)
    requires IsRandom(r1) && IsRandom(r2)
    ensures p.product == p.num1 * p.num2
  {
    var (a, b) :=
      if difficulty == "easy" then (Draw(r1, 10) + 1, Draw(r2, 10) + 1)
      else if difficulty == "medium" then (Draw(r1, 90) + 10, Draw(r2, 9) + 1)
      else if difficulty == "hard" then (Draw(r1, 90) + 10, Draw(r2, 90) + 10)
      else (0, 0);
    MulProblem(a, b, a * b)
  }

  /** The factor ranges of each difficulty: easy `[1,10]²`, medium `[10,99]×[1,9]`, hard `[10,99]²`. */
  lemma MultiplicationRanges(difficulty: string, r1: real, r2: real)
    requires IsRandom(r1) && IsRandom(r2)
    ensures var p := GenerateMultiplication(difficulty, r1, r2);
      && (difficulty == "easy" ==> 1 <= p.num1 <= 10 && 1 <= p.num2 <= 10)
      && (difficulty == "medium" ==> 10 <= p.num1 <= 99 && 1 <= p.num2 <= 9)
      && (difficulty == "hard" ==> 10 <= p.num1 <= 99 && 10 <= p.num2 <= 99)
      && (difficulty !in {"easy", "medium", "hard"} ==> p == MulProblem(0, 0, 0))
  {
    DrawRange(r1, 10);
    DrawRange(r2, 10);
    DrawRange(r1, 90);
    DrawRange(r2, 9);
    DrawRange(r2, 90);
  }

  datatype DivProblem = DivProblem(dividend: int, divisor: int, quotient: int, remainder: int)

  /** `generateDivisionProblem(difficulty)`: the divisor, the quotient and the remainder are drawn, and the dividend built from them. */
  function GenerateDivision(difficulty: string, r1: real, r2: real, r3: real): (p: DivProblem)
    requires IsRandom(r1) && IsRandom(r2) && IsRandom(r3)
    ensures p.dividend == p.divisor * p.quotient + p.remainder
  {
    var (divisor, quotient) :=
      if difficulty == "easy" then (Draw(r1, 9) + 2, Draw(r2, 9) + 1)
      else if difficulty == "medium" then (Draw(r1, 9) + 2, Draw(r2, 9) + 10)
      else if difficulty == "hard" then (Draw(r1, 9) + 6, Draw(r2, 10) + 20)
      else (0, 0);
    var remainder := if difficulty in {"easy", "medium", "hard"} then Draw(r3, divisor) else 0;
    DivProblem(divisor * quotient + remainder, divisor, quotient, remainder)
  }

  /** A division problem is consistent: the quotient and remainder are those of dividing the dividend. */
  predicate DivisionConsistent(p: DivProblem) {
    && p.divisor >= 2 && p.quotient >= 1 && 0 <= p.remainder < p.divisor
    && p.dividend == p.divisor * p.quotient + p.remainder
    && p.quotient == p.dividend / p.divisor && p.remainder == p.dividend % p.divisor
  }

  /**
    For the three difficulties the remainder is below a divisor of at least 2, so the
    quotient and remainder are exactly those of the dividend; the ranges are easy
    divisor `[2,10]`, quotient `[1,9]`; medium `[2,10]`, `[10,18]`; hard `[6,14]`, `[20,29]`.
   */
  lemma DivisionProblemSpec(difficulty: string, r1: real, r2: real, r3: real)
    requires IsRandom(r1) && IsRandom(r2) && IsRandom(r3)
    requires difficulty in {"easy", "medium", "hard"}
    ensures var p := GenerateDivision(difficulty, r1, r2, r3);
      && DivisionConsistent(p)
      && (difficulty == "easy" ==> 2 <= p.divisor <= 10 && 1 <= p.quotient <= 9)
      && (difficulty == "medium" ==> 2 <= p.divisor <= 10 && 10 <= p.quotient <= 18)
      && (difficulty == "hard" ==> 6 <= p.divisor <= 14 && 20 <= p.quotient <= 29)
  {
    var p := GenerateDivision(difficulty, r1, r2, r3);
    DrawRange(r1, 9);
    DrawRange(r2, 9);
    DrawRange(r2, 10);
    DrawRange(r3, p.divisor);
    Digits.DivModUnique(p.dividend, p.divisor, p.quotient, p.remainder);
  }
}

=== FILE: shapes_lesson.dfy ===
/**
  The shapes lesson: six shapes shown one at a time with their sides and corners; "Next
  Shape" walks through them and completes the lesson after the last.
 */
module ShapesLesson {
  import opened Wrappers

  datatype Shape = Shape(name: string, sides: nat, vertices: nat, description: string)

  /** How many shapes the lesson shows. */
  const ShapeCount: nat := 6

  function Shapes(): (s: seq<Shape>)
    ensures |s| == ShapeCount
    ensures forall i, j :: 0 <= i < j < |s| ==> s[i].name != s[j].name
  {
    [Shape("Triangle", 3, 3, "A shape with three sides and three corners"),
     Shape("Square", 4, 4, "A shape with four equal sides and four corners"),
     Shape("Rectangle", 4, 4, "A shape with four sides and four corners, where opposite sides are equal"),
     Shape("Circle", 0, 0, "A round shape with no corners or sides"),
     Shape("Pentagon", 5, 5, "A shape with five sides and five corners"),
     Shape("Hexagon", 6, 6, "A shape with six sides and six corners")]
  }

  /** A polygon has as many corners as sides; the circle has neither. */
  lemma SidesMatchVertices()
    ensures forall i :: 0 <= i < 6 ==> Shapes()[i].sides == Shapes()[i].vertices
    ensures forall i :: 0 <= i < 6 ==> (Shapes()[i].sides == 0 <==> Shapes()[i].name == "Circle")
    ensures forall i :: 0 <= i < 6 && Shapes()[i].name != "Circle" ==> Shapes()[i].sides >= 3
  {
  }

  datatype Lesson = Lesson(index: nat, showProperties: bool, completed: bool, showHint: bool, muted: bool)

  predicate Valid(l: Lesson) {
    l.index < ShapeCount
  }

  function Initial(): (l: Lesson)
    ensures Valid(l) && l.index == 0 && !l.completed
  {
    Lesson(0, false, false, false, false)
  }

  /** `speakInstruction(text)`: what is spoken, nothing when muted. */
  function Speak(l: Lesson, text: string): (spoken: Option<string>)
    ensures l.muted <==> spoken.None?
    ensures spoken.Some? ==> spoken.value == text
  {
    if l.muted then None else Some(text)
  }

  /** The effect's sentence for the shape on screen. */
  function Introduction(l: Lesson): string
    requires Valid(l)
  {
    "This is a " + Shapes()[l.index].name + ". " + Shapes()[l.index].description
  }

  /** What one click of "Next Shape" does, and whether it called `onComplete`. */
  datatype Click = Click(lesson: Lesson, firedComplete: bool, spoken: Option<string>)

  /**
    The state change of `handleNextShape`: before the last shape, the next one appears
    with its properties hidden; at the last, the lesson completes and `onComplete` runs.
   */
  function Advance(l: Lesson): (r: (Lesson, bool))
    requires Valid(l)
    ensures Valid(r.0)
    ensures l.index < ShapeCount - 1 ==> r.0 == l.(index := l.index + 1, showProperties := false) && !r.1
    ensures l.index == ShapeCount - 1 ==> r.0 == l.(completed := true) && r.1
  {
    if l.index < ShapeCount - 1 then (l.(index := l.index + 1, showProperties := false), false)
    else (l.(completed := true), true)
  }

  /** `handleNextShape`: the state change, and the new shape introduced when one appears. */
  function NextShape(l: Lesson): (c: Click)
    requires Valid(l)
    ensures (c.lesson, c.firedComplete) == Advance(l)
    ensures !c.firedComplete ==> c.spoken == Speak(l, Introduction(c.lesson))
    ensures c.firedComplete ==> c.spoken.None?
  {
    var (r, fired) := Advance(l);
    Click(r, fired, if fired then None else Speak(r, Introduction(r)))
  }

  /** The mute button: flips the flag; turning it on cancels any speech in progress. */
  function ToggleMute(l: Lesson): (r: (Lesson, bool))
    ensures r.0 == l.(muted := !l.muted)
    ensures r.1 <==> r.0.muted
  {
    (l.(muted := !l.muted), !l.muted)
  }

  /** Once muted, no click of "Next Shape" speaks. */
  lemma MutedIsSilent(l: Lesson)
    requires Valid(l) && l.muted
    ensures NextShape(l).spoken.None? && NextShape(l).lesson.muted
  {
  }

  /** `k` clicks of "Next Shape" while the button is shown (it is hidden once the lesson completes). */
  function Clicks(l: Lesson, k: nat): (r: (Lesson, nat))
    requires Valid(l)
    ensures Valid(r.0)
    decreases k
  {
    if k == 0 || l.completed then (l, 0)
    else
      var (next, fired) := Advance(l);
      var rest := Clicks(next, k - 1);
      (rest.0, rest.1 + (if fired then 1 else 0))
  }

  /**
    From the start, `k` clicks show shape `min(k, 5)`; the lesson completes exactly at
    the sixth click, and `onComplete` runs once then and never before.
   */
  lemma {:induction false} ClicksFromStart(l: Lesson, k: nat, r: (Lesson, nat))
    requires Valid(l) && !l.completed
    requires r == Clicks(l, k)
    ensures r.0.index == (if l.index + k < 5 then l.index + k else 5)
    ensures r.0.completed <==> l.index + k >= 6
    ensures r.1 == (if l.index + k >= 6 then 1 else 0)
    decreases k
  {
    if k > 0 {
      var a := Advance(l);
      var rest := Clicks(a.0, k - 1);
      assert r == (rest.0, rest.1 + (if a.1 then 1 else 0));
      if l.index < 5 {
        ClicksFromStart(a.0, k - 1, rest);
      } else {
        assert rest == (a.0, 0);
      }
    }
  }
}

=== FILE: shuffle.dfy ===
/**
  The two randomised loops the games share: the Fisher–Yates shuffle of an options
  list, and the rejection loop that draws candidates until three acceptable
  distractors are collected. Each `Math.floor(Math.random() * k)` draw is a
  parameter below `k`; each drawn candidate is a parameter.
 */
module Shuffle {
  import opened Wrappers

  function Swap<T>(s: seq<T>, i: nat, j: nat): (t: seq<T>)
    requires i < |s| && j < |s|
    ensures |t| == |s| && multiset(t) == multiset(s)
    ensures t[i] == s[j] && t[j] == s[i]
    ensures forall k :: 0 <= k < |s| && k != i && k != j ==> t[k] == s[k]
  {
    s[i := s[j]][j := s[i]]
  }

  /** The draws are valid: the one used when `i = n-1-k` is at most `i`. */
  predicate DrawsFit(n: nat, js: seq<nat>) {
    && |js| == (if n == 0 then 0 else n - 1)
    && forall k :: 0 <= k < |js| ==> js[k] <= n - 1 - k
  }

  /**
    `for (let i = s.length - 1; i > 0; i--) { j = draw(i + 1); swap s[i], s[j] }`:
    the last slot is settled by the first swap, the rest is the same loop on the prefix.
   */
  function FisherYates<T>(s: seq<T>, js: seq<nat>): (t: seq<T>)
    requires DrawsFit(|s|, js)
    ensures |t| == |s|
    decreases |s|
  {
    if |s| <= 1 then s
    else
      var u := Swap(s, |s| - 1, js[0]);
      FisherYates(u[..|s| - 1], js[1..]) + [u[|s| - 1]]
  }

  /** The shuffle is a permutation: every element keeps its multiplicity. */
  lemma {:induction false} FisherYatesPermutes<T>(s: seq<T>, js: seq<nat>)
    requires DrawsFit(|s|, js)
    ensures multiset(FisherYates(s, js)) == multiset(s)
    decreases |s|
  {
    if |s| > 1 {
      var u := Swap(s, |s| - 1, js[0]);
      FisherYatesPermutes(u[..|s| - 1], js[1..]);
      assert u == u[..|s| - 1] + [u[|s| - 1]];
    }
  }

  /** Drawing `j = i` every time swaps nothing. */
  function NoSwaps(n: nat): (js: seq<nat>)
    ensures DrawsFit(n, js)
  {
    if n <= 1 then [] else [n - 1] + NoSwaps(n - 1)
  }

  lemma {:induction false} FisherYatesIdentity<T>(s: seq<T>)
    ensures FisherYates(s, NoSwaps(|s|)) == s
    decreases |s|
  {
    if |s| > 1 {
      var u := Swap(s, |s| - 1, |s| - 1);
      assert u == s;
      assert NoSwaps(|s|)[1..] == NoSwaps(|s| - 1);
      FisherYatesIdentity(s[..|s| - 1]);
      assert s == s[..|s| - 1] + [s[|s| - 1]];
    }
  }

  /** Pairwise distinct. */
  ghost predicate Distinct<T>(s: seq<T>) {
    forall i, j :: 0 <= i < j < |s| ==> s[i] != s[j]
  }

  /**
    The distractor loop over a finite run of drawn candidates: a candidate is kept when
    `keep` allows it, it differs from the answer and it is not already collected; the
    loop stops at three. `None` means these draws were not enough to finish.
   */
  function Collect<T(==)>(answer: T, keep: T -> bool, draws: seq<T>, acc: seq<T>): (r: Option<seq<T>>)
    requires |acc| < 3
    ensures r.Some? ==> |r.value| == 3 && acc <= r.value
    decreases |draws|
  {
    if |draws| == 0 then None
    else
      var c := draws[0];
      var acc' := if keep(c) && c != answer && c !in acc then acc + [c] else acc;
      if |acc'| == 3 then Some(acc') else Collect(answer, keep, draws[1..], acc')
  }

  /**
    What the loop collects is three distinct kept candidates, none equal to the answer,
    each one of the draws.
   */
  lemma {:induction false} CollectSpec<T>(answer: T, keep: T -> bool, draws: seq<T>, acc: seq<T>)
    requires |acc| < 3 && Distinct(acc)
    requires forall k :: 0 <= k < |acc| ==> keep(acc[k]) && acc[k] != answer
    ensures var r := Collect(answer, keep, draws, acc);
      r.Some? ==>
        && Distinct(r.value)
        && (forall k :: 0 <= k < 3 ==> keep(r.value[k]) && r.value[k] != answer)
        && (forall k :: |acc| <= k < 3 ==> r.value[k] in draws)
    decreases |draws|
  {
    if |draws| > 0 {
      var c := draws[0];
      var acc' := if keep(c) && c != answer && c !in acc then acc + [c] else acc;
      if |acc'| < 3 {
        CollectSpec(answer, keep, draws[1..], acc');
        var r := Collect(answer, keep, draws, acc);
        if r.Some? {
          forall k | |acc| <= k < 3
            ensures r.value[k] in draws
          {
            if k < |acc'| {
              assert r.value[k] == acc'[k] == c;
            } else {
              assert r.value[k] in draws[1..];
            }
          }
        }
      }
    }
  }

  /** Three acceptable, distinct candidates drawn in a row finish the loop with exactly them. */
  lemma CollectFinishes<T>(answer: T, keep: T -> bool, a: T, b: T, c: T)
    requires keep(a) && keep(b) && keep(c)
    requires a != answer && b != answer && c != answer
    requires a != b && b != c && a != c
    ensures Collect(answer, keep, [a, b, c], []) == Some([a, b, c])
  {
    var abc, bc, cOnly := [a, b, c], [b, c], [c];
    assert abc[1..] == bc && bc[1..] == cOnly;
    var one, two := [a], [a, b];
    assert b !in one && c !in two;
    assert one + [b] == two && two + [c] == abc && [] + [a] == one;
    assert Collect(answer, keep, cOnly, two) == Some(abc);
    assert Collect(answer, keep, bc, one) == Some(abc);
    assert Collect(answer, keep, abc, []) == Some(abc);
  }

  /** The options: the distractors then the answer, shuffled. */
  function Options<T>(distractors: seq<T>, answer: T, js: seq<nat>): (o: seq<T>)
    requires DrawsFit(|distractors| + 1, js)
    ensures |o| == |distractors| + 1
    ensures multiset(o) == multiset(distractors + [answer])
  {
    FisherYatesPermutes(distractors + [answer], js);
    FisherYates(distractors + [answer], js)
  }

  /**
    With three distinct distractors other than the answer, the four options contain the
    answer exactly once and are pairwise distinct.
   */
  lemma OptionsSpec<T>(distractors: seq<T>, answer: T, js: seq<nat>)
    requires |distractors| == 3 && Distinct(distractors)
    requires forall k :: 0 <= k < 3 ==> distractors[k] != answer
    requires DrawsFit(4, js)
    ensures var o := Options(distractors, answer, js);
      && Distinct(o)
      && answer in o
      && multiset(o)[answer] == 1
  {
    var o := Options(distractors, answer, js);
    var all := distractors + [answer];
    assert Distinct(all);
    DistinctMultiset(all);
    MultisetDistinct(o, all);
    assert answer in multiset(o) by { assert all[3] == answer; }
  }

  /** A distinct sequence holds each of its elements once. */
  lemma {:induction false} DistinctMultiset<T>(s: seq<T>)
    requires Distinct(s)
    ensures forall x :: x in multiset(s) ==> multiset(s)[x] == 1
  {
    if |s| > 0 {
      var init := s[..|s| - 1];
      assert s == init + [s[|s| - 1]];
      DistinctMultiset(init);
      assert s[|s| - 1] !in init;
    }
  }

  /** Distinctness depends only on the multiset. */
  lemma MultisetDistinct<T>(o: seq<T>, s: seq<T>)
    requires multiset(o) == multiset(s)
    requires forall x :: x in multiset(s) ==> multiset(s)[x] == 1
    ensures Distinct(o)
  {
    forall i, j | 0 <= i < j < |o|
      ensures o[i] != o[j]
    {
      if o[i] == o[j] {
        TwoCopies(o, i, j);
        assert false;
      }
    }
  }

  lemma TwoCopies<T>(o: seq<T>, i: nat, j: nat)
    requires i < j < |o| && o[i] == o[j]
    ensures multiset(o)[o[i]] >= 2
  {
    var rest := o[..i] + o[i + 1..];
    assert o == o[..i] + [o[i]] + o[i + 1..];
    assert rest[j - 1] == o[j];
    assert multiset(o) == multiset(rest) + multiset{o[i]};
  }
}

=== FILE: sidebar.dfy ===
/**
  The sidebar: eight collapsible class headings, each listing the operations of that
  class as links "/operation/class".
 */
module Sidebar {
  import opened Digits
  import opened Shuffle

  // ---------------------------------------------------------------------
  // Expanding and collapsing classes

  /** `prev.filter((c) => c !== className)`. */
  function Remove(s: seq<string>, c: string): (r: seq<string>)
    ensures forall x :: x in r <==> x in s && x != c
    ensures c !in s ==> r == s
    decreases |s|
  {
    if |s| == 0 then []
    else (if s[0] == c then [] else [s[0]]) + Remove(s[1..], c)
  }

  /** `toggleClass`: an expanded class collapses, any other is appended to the expanded list. */
  function Toggle(prev: seq<string>, c: string): (r: seq<string>)
    ensures c in r <==> c !in prev
    ensures forall x :: x != c ==> (x in r <==> x in prev)
  {
    if c in prev then Remove(prev, c) else prev + [c]
  }

  /** Removing from a list without repeats leaves a list without repeats. */
  lemma {:induction false} RemoveDistinct(s: seq<string>, c: string)
    requires Distinct(s)
    ensures Distinct(Remove(s, c))
    decreases |s|
  {
    if |s| > 0 {
      var tail := s[1..];
      assert Distinct(tail) by {
        forall i, j | 0 <= i < j < |tail|
          ensures tail[i] != tail[j]
        {
          assert tail[i] == s[i + 1] && tail[j] == s[j + 1];
        }
      }
      RemoveDistinct(tail, c);
      var rest := Remove(tail, c);
      if s[0] != c {
        assert s[0] !in tail by {
          forall j | 0 <= j < |tail|
            ensures tail[j] != s[0]
          {
            assert tail[j] == s[j + 1];
          }
        }
        assert s[0] !in rest;
        var r := [s[0]] + rest;
        forall i, j | 0 <= i < j < |r|
          ensures r[i] != r[j]
        {
          if i == 0 {
            assert r[j] == rest[j - 1];
            assert r[j] in rest;
          } else {
            assert r[i] == rest[i - 1] && r[j] == rest[j - 1];
          }
        }
      } else {
        assert Remove(s, c) == rest;
      }
    }
  }

  /** The expanded list never holds a class twice. */
  lemma ToggleDistinct(prev: seq<string>, c: string)
    requires Distinct(prev)
    ensures Distinct(Toggle(prev, c))
  {
    if c in prev {
      RemoveDistinct(prev, c);
    } else {
      var r := prev + [c];
      forall i, j | 0 <= i < j < |r|
        ensures r[i] != r[j]
      {
        if j == |prev| {
          assert r[i] == prev[i];
          assert r[i] in prev;
        } else {
          assert r[i] == prev[i] && r[j] == prev[j];
        }
      }
    }
  }

  /** Expanding a collapsed class and collapsing it again restores the list exactly. */
  lemma ToggleTwice(prev: seq<string>, c: string)
    requires c !in prev
    ensures Toggle(Toggle(prev, c), c) == prev
  {
    RemoveAppend(prev, c);
  }

  lemma {:induction false} RemoveAppend(s: seq<string>, c: string)
    requires c !in s
    ensures Remove(s + [c], c) == s
    decreases |s|
  {
    if |s| == 0 {
      assert s + [c] == [c];
      assert Remove([c], c) == [] + Remove([c][1..], c);
    } else {
      assert (s + [c])[1..] == s[1..] + [c];
      assert s[0] != c;
      RemoveAppend(s[1..], c);
    }
  }

  /** Collapsing then expanding an expanded class moves it to the end of the list. */
  lemma ToggleTwiceExpanded(prev: seq<string>, c: string)
    requires c in prev
    ensures Toggle(Toggle(prev, c), c) == Remove(prev, c) + [c]
  {
  }

  // ---------------------------------------------------------------------
  // The route table

  datatype OpKind = Addition | Subtraction | Counting | Numbers | Multiplication | Shapes
                  | Division | Factorial | Decimal

  /** The path segment of each operation. */
  function Slug(k: OpKind): string {
    match k
    case Addition => "addition"
    case Subtraction => "subtraction"
    case Counting => "counting"
    case Numbers => "numbers"
    case Multiplication => "multiplication"
    case Shapes => "shapes"
    case Division => "division"
    case Factorial => "factorial"
    case Decimal => "decimal"
  }

  /** The label of each operation. */
  function Name(k: OpKind): string {
    match k
    case Addition => "Addition"
    case Subtraction => "Subtraction"
    case Counting => "Counting"
    case Numbers => "Numbers"
    case Multiplication => "Multiplication"
    case Shapes => "Shapes"
    case Division => "Division"
    case Factorial => "Factorial"
    case Decimal => "Decimal"
  }

  /** Different operations have different labels. */
  lemma NameInjective()
    ensures forall a: OpKind, b: OpKind :: Name(a) == Name(b) ==> a == b
  {
  }

  /** Different operations have different path segments. */
  lemma SlugInjective(a: OpKind, b: OpKind)
    requires Slug(a) == Slug(b)
    ensures a == b
  {
  }

  /** The operations under "Class k", in the table's order. */
  function Kinds(level: nat): (ks: seq<OpKind>)
    requires 1 <= level <= 8
    ensures 4 <= |ks| <= 6 && ks[0] == Addition && ks[1] == Subtraction
  {
    if level == 1 then [Addition, Subtraction, Counting, Numbers]
    else if level == 2 then [Addition, Subtraction, Multiplication, Shapes]
    else if level == 3 then [Addition, Subtraction, Multiplication, Division]
    else if level == 4 then [Addition, Subtraction, Multiplication, Division, Factorial]
    else [Addition, Subtraction, Multiplication, Division, Factorial, Decimal]
  }

  /** No class lists an operation twice. */
  lemma KindsDistinct(level: nat)
    requires 1 <= level <= 8
    ensures Distinct(Kinds(level))
  {
  }

  datatype Operation = Operation(name: string, path: string)

  function Path(k: OpKind, level: nat): string {
    "/" + Slug(k) + "/" + NatToString(level)
  }

  function Operations(level: nat): (ops: seq<Operation>)
    requires 1 <= level <= 8
    ensures |ops| == |Kinds(level)|
    ensures ops[0].name == "Addition" && ops[1].name == "Subtraction"
    ensures forall i, j :: 0 <= i < j < |ops| ==> ops[i].name != ops[j].name
  {
    var ks := Kinds(level);
    KindsDistinct(level);
    NameInjective();
    seq(|ks|, i requires 0 <= i < |ks| => Operation(Name(ks[i]), Path(ks[i], level)))
  }

  /** `classOperations` in `Object.entries` order: "Class 1" to "Class 8". */
  function ClassOperations(): (t: seq<(string, seq<Operation>)>)
    ensures |t| == 8
  {
    seq(8, i requires 0 <= i < 8 => ("Class " + NatToString(i + 1), Operations(i + 1)))
  }

  lemma OneDigit(level: nat)
    requires 1 <= level <= 8
    ensures |NatToString(level)| == 1
  {
  }

  /** The two segments of a path "/x/y" can be read back from it. */
  lemma PathParts(x: string, y: string, p: string)
    requires p == "/" + x + "/" + y
    ensures |p| == |x| + |y| + 2
    ensures p[1..|x| + 1] == x && p[|x| + 2..] == y
  {
    assert p == ("/" + x) + ("/" + y);
    assert p[1..|x| + 1] == ("/" + x)[1..];
  }

  /** A path determines both its operation and its class. */
  lemma PathInjective(a: OpKind, l1: nat, b: OpKind, l2: nat)
    requires 1 <= l1 <= 8 && 1 <= l2 <= 8
    requires Path(a, l1) == Path(b, l2)
    ensures a == b && l1 == l2
  {
    var p := Path(a, l1);
    OneDigit(l1);
    OneDigit(l2);
    PathParts(Slug(a), NatToString(l1), p);
    PathParts(Slug(b), NatToString(l2), p);
    SlugInjective(a, b);
    StrValueOfNatToString(l1);
    StrValueOfNatToString(l2);
  }

  /**
    Every link's path is unique across the whole sidebar, so it is a valid React key
    within its class, and it names the class it is listed under.
   */
  lemma PathsUnique(l1: nat, i: nat, l2: nat, j: nat)
    requires 1 <= l1 <= 8 && 1 <= l2 <= 8 && i < |Operations(l1)| && j < |Operations(l2)|
    requires Operations(l1)[i].path == Operations(l2)[j].path
    ensures l1 == l2 && i == j
  {
    PathInjective(Kinds(l1)[i], l1, Kinds(l2)[j], l2);
    KindsDistinct(l1);
  }

  /** The headings are distinct, so toggling one never affects another. */
  lemma ClassNamesDistinct()
    ensures Distinct(seq(8, i requires 0 <= i < 8 => ClassOperations()[i].0))
  {
    var names := seq(8, i requires 0 <= i < 8 => ClassOperations()[i].0);
    forall i, j | 0 <= i < j < 8
      ensures names[i] != names[j]
    {
      HeadingSuffix(NatToString(i + 1), names[i]);
      HeadingSuffix(NatToString(j + 1), names[j]);
      StrValueOfNatToString(i + 1);
      StrValueOfNatToString(j + 1);
    }
  }

  /** The class number can be read back from its heading. */
  lemma HeadingSuffix(x: string, h: string)
    requires h == "Class " + x
    ensures h[6..] == x
  {
  }
}

=== FILE: subtraction.dfy ===
/**
  The column-subtraction lesson: which columns borrow, and the narrated steps.
 */
module SubtractionOp {
  import opened Digits
  import opened Js
  import opened Columns
  import opened OperationCursor

  /**
    The `borrowing` flag when the loop of `calculateBorrowedPlaces` reaches place `i`:
    a column borrows when its top digit is smaller, or equal while the column to its
    right borrowed.
   */
  function Borrowing(a: nat, b: nat, i: nat): bool {
    if i == 0 then false
    else
      var da, db := ColumnDigit(a, i - 1), ColumnDigit(b, i - 1);
      da < db || (da == db && Borrowing(a, b, i - 1))
  }

  /** The places pushed during the first `n` iterations, given the `borrowing` flag at each place. */
  function PlacesWhere(borrowing: nat -> bool, n: nat): (r: seq<nat>)
    ensures |r| <= n
  {
    if n == 0 then []
    else PlacesWhere(borrowing, n - 1) + (if borrowing(n) then [n - 1] else [])
  }

  /** `calculateBorrowedPlaces(a, b)`. */
  function BorrowedPlaces(a: nat, b: nat): seq<nat> {
    PlacesWhere((i: nat) => Borrowing(a, b, i), MaxLength(a, b))
  }

  predicate StrictlyIncreasing(r: seq<nat>) {
    forall j, k :: 0 <= j < k < |r| ==> r[j] < r[k]
  }

  /** The list holds exactly the places below `n` whose flag is set, in increasing order. */
  lemma {:induction false} PlacesWhereSpec(borrowing: nat -> bool, n: nat, r: seq<nat>)
    requires r == PlacesWhere(borrowing, n)
    ensures StrictlyIncreasing(r)
    ensures forall k: nat :: k in r <==> k < n && borrowing(k + 1)
  {
    if n > 0 {
      var pre := PlacesWhere(borrowing, n - 1);
      PlacesWhereSpec(borrowing, n - 1, pre);
      if borrowing(n) {
        assert r == pre + [n - 1];
        AppendLarger(pre, n - 1);
      } else {
        assert r == pre;
      }
    }
  }

  /** Appending a place above every listed one keeps the list increasing. */
  lemma AppendLarger(pre: seq<nat>, x: nat)
    requires StrictlyIncreasing(pre)
    requires forall k: nat :: k in pre ==> k < x
    ensures StrictlyIncreasing(pre + [x])
    ensures forall k: nat :: k in pre + [x] <==> k in pre || k == x
  {
    var r := pre + [x];
    forall j, k | 0 <= j < k < |r|
      ensures r[j] < r[k]
    {
      assert r[j] == pre[j] && r[j] in pre;
      if k < |pre| {
        assert r[k] == pre[k];
      }
    }
  }

  /** Returned places are increasing, below `maxLength`, and are exactly the columns that borrow. */
  lemma BorrowedPlacesSpec(a: nat, b: nat)
    ensures StrictlyIncreasing(BorrowedPlaces(a, b))
    ensures forall k: nat :: k in BorrowedPlaces(a, b) <==> k < MaxLength(a, b) && Borrowing(a, b, k + 1)
  {
    PlacesWhereSpec((i: nat) => Borrowing(a, b, i), MaxLength(a, b), BorrowedPlaces(a, b));
  }

  function Ind(b: bool): nat {
    if b then 1 else 0
  }

  /** The written rule is the textbook one: a column borrows when its top digit, less the borrow in, is below the bottom digit. */
  lemma BorrowRuleStandard(a: nat, b: nat, i: nat)
    ensures Borrowing(a, b, i + 1) <==> ColumnDigit(a, i) - Ind(Borrowing(a, b, i)) < ColumnDigit(b, i)
  {
  }

  /** The borrow into place `i` happens exactly when the low `i` places of `a` are below those of `b`. */
  lemma {:induction false} BorrowingArith(a: nat, b: nat, i: nat)
    ensures Borrowing(a, b, i) <==> a % Pow10(i) < b % Pow10(i)
  {
    if i > 0 {
      var j := i - 1;
      BorrowingArith(a, b, j);
      var p := Pow10(j);
      ModSplit(a, j);
      ModSplit(b, j);
      ColumnDigitIsGetDigit(a, j);
      ColumnDigitIsGetDigit(b, j);
      CompareColumns(p, a % p, b % p, GetDigit(a, j), GetDigit(b, j));
    }
  }

  /** Comparing two numbers split at weight `p`: the digits at `p` decide unless they tie. */
  lemma CompareColumns(p: nat, ra: nat, rb: nat, da: nat, db: nat)
    requires ra < p && rb < p
    ensures ra + da * p < rb + db * p <==> da < db || (da == db && ra < rb)
  {
    if da < db {
      MulLe(da + 1, db, p);
    } else if da > db {
      MulLe(db + 1, da, p);
    }
  }

  /** When `a >= b` the leftmost column never borrows. */
  lemma TopNeverBorrowed(a: nat, b: nat)
    requires a >= b
    ensures MaxLength(a, b) - 1 !in BorrowedPlaces(a, b)
  {
    var n := MaxLength(a, b);
    BorrowedPlacesSpec(a, b);
    BorrowingArith(a, b, n);
    BelowMaxLength(a, b);
    SmallMod(a, n);
    SmallMod(b, n);
  }

  /**
    The digit of `a - b` at place `i`: top digit, less the borrow in, less the bottom
    digit, plus ten when the column borrows.
   */
  lemma DifferenceDigit(a: nat, b: nat, i: nat)
    requires a >= b
    ensures GetDigit(a - b, i) == ColumnDigit(a, i) - Ind(Borrowing(a, b, i)) - ColumnDigit(b, i)
      + 10 * Ind(Borrowing(a, b, i + 1))
  {
    var p := Pow10(i);
    var bin := Ind(Borrowing(a, b, i));
    BorrowingArith(a, b, i);
    SplitDifference(a, b, p, bin);
    var x: int, y: int := a / p, b / p;
    assert GetDigit(a - b, i) == (x - y - bin) % 10;
    ModSub(x, y, bin);
    ColumnDigitIsGetDigit(a, i);
    ColumnDigitIsGetDigit(b, i);
    assert ColumnDigit(a, i) == x % 10 && ColumnDigit(b, i) == y % 10;
    BorrowRuleStandard(a, b, i);
  }

  /** Subtracting two numbers split at weight `p`: the high parts differ by the borrow of the low parts. */
  lemma SplitDifference(a: nat, b: nat, p: nat, bin: nat)
    requires p > 0 && a >= b
    requires bin == Ind(a % p < b % p)
    ensures (a - b) / p == a / p - b / p - bin
  {
    var r := a % p - b % p + bin * p;
    assert a - b == (a / p - b / p - bin) * p + r;
    DivModUnique(a - b, p, a / p - b / p - bin, r);
  }

  /** The units of a difference, with its borrow made explicit. */
  lemma ModSub(x: int, y: int, bin: int)
    requires 0 <= bin <= 1
    ensures (x - y - bin) % 10 == x % 10 - bin - y % 10 + 10 * Ind(x % 10 - bin < y % 10)
  {
    var d := x % 10 - bin - y % 10;
    var k := x / 10 - y / 10;
    assert x - y - bin == 10 * k + d;
    if d < 0 {
      DivModUnique(x - y - bin, 10, k - 1, d + 10);
    } else {
      DivModUnique(x - y - bin, 10, k, d);
    }
  }

  // ---------------------------------------------------------------------
  // Narration

  /** One lesson step with the numbers it speaks: the top figure, the bottom digit and the result digit. */
  datatype SubStep =
    | Intro
    | BorrowFromTens(top: int, bottom: int)
    | OnesPlace(top: int, bottom: int, result: int)
    | BorrowFromHundreds(top: int, bottom: int)
    | TensPlace(top: int, bottom: int, result: int)
    | HundredsPlace(top: int, bottom: int, result: int)
    | Final(difference: int)

  /** The `steps` array, with `getDigit` the floating one of the source. */
  function Steps(num1: nat, num2: nat, difference: int, borrowed: seq<nat>): seq<SubStep> {
    Layout(0 in borrowed, 1 in borrowed,
      JsGetDigit(num1, 0), JsGetDigit(num1, 1), JsGetDigit(num1, 2),
      JsGetDigit(num2, 0), JsGetDigit(num2, 1), JsGetDigit(num2, 2),
      JsGetDigit(difference, 0), JsGetDigit(difference, 1), JsGetDigit(difference, 2), difference)
  }

  /**
    The order of the steps, given which of the two low columns borrow and the digits
    spoken: `a0..a2` of the top number, `c0..c2` of the bottom one, `r0..r2` of the difference.
   */
  function Layout(b0: bool, b1: bool, a0: int, a1: int, a2: int, c0: int, c1: int, c2: int,
                  r0: int, r1: int, r2: int, difference: int): seq<SubStep>
  {
    [Intro]
    + (if b0 then [BorrowFromTens(a0, c0)] else [])
    + [OnesPlace(if b0 then a0 + 10 else a0, c0, r0)]
    + (if b1 then [BorrowFromHundreds(a1 - Ind(b0), c1)] else [])
    + [TensPlace(if b1 then a1 + 10 - Ind(b0) else a1 - Ind(b0), c1, r1)]
    + [HundredsPlace(a2 - Ind(b1), c2, r2)]
    + [Final(difference)]
  }

  /** The step list has `5 + [0 borrowed] + [1 borrowed]` steps, from the intro to the final difference. */
  lemma StepsShape(num1: nat, num2: nat, difference: int, borrowed: seq<nat>)
    ensures var s := Steps(num1, num2, difference, borrowed);
      |s| == 5 + Ind(0 in borrowed) + Ind(1 in borrowed) && s[0] == Intro && s[|s| - 1] == Final(difference)
  {
  }

  /** A spoken column subtraction is true, and a spoken borrow is justified. */
  predicate StepSound(st: SubStep) {
    && ((st.OnesPlace? || st.TensPlace? || st.HundredsPlace?) ==> st.top - st.bottom == st.result)
    && ((st.BorrowFromTens? || st.BorrowFromHundreds?) ==> st.top < st.bottom)
  }

  /**
    For `b <= a < 1000` every spoken column subtraction is true, and every announced
    borrow is justified: the top figure is below the bottom digit.
   */
  lemma NarrationSound(a: nat, b: nat)
    requires b <= a < 1000
    ensures forall st :: st in Steps(a, b, a - b, BorrowedPlaces(a, b)) ==> StepSound(st)
  {
    var bp := BorrowedPlaces(a, b);
    NarrationArith(a, b);
    LayoutSound(0 in bp, 1 in bp, JsGetDigit(a, 0), JsGetDigit(a, 1), JsGetDigit(a, 2),
      JsGetDigit(b, 0), JsGetDigit(b, 1), JsGetDigit(b, 2),
      JsGetDigit(a - b, 0), JsGetDigit(a - b, 1), JsGetDigit(a - b, 2), a - b);
  }

  /** When the column arithmetic holds, every step of the layout is sound. */
  lemma LayoutSound(b0: bool, b1: bool, a0: int, a1: int, a2: int, c0: int, c1: int, c2: int,
                    r0: int, r1: int, r2: int, difference: int)
    requires b0 ==> a0 < c0
    requires a0 + 10 * Ind(b0) - c0 == r0
    requires b1 ==> a1 - Ind(b0) < c1
    requires a1 + 10 * Ind(b1) - Ind(b0) - c1 == r1
    requires a2 - Ind(b1) - c2 == r2
    ensures forall st :: st in Layout(b0, b1, a0, a1, a2, c0, c1, c2, r0, r1, r2, difference) ==> StepSound(st)
  {
  }

  /** The column arithmetic behind each spoken step, in terms of the floating `getDigit`. */
  lemma NarrationArith(a: nat, b: nat)
    requires b <= a < 1000
    ensures var bp := BorrowedPlaces(a, b);
      var b0, b1 := Ind(0 in bp), Ind(1 in bp);
      && (0 in bp ==> JsGetDigit(a, 0) < JsGetDigit(b, 0))
      && JsGetDigit(a, 0) + 10 * b0 - JsGetDigit(b, 0) == JsGetDigit(a - b, 0)
      && (1 in bp ==> JsGetDigit(a, 1) - b0 < JsGetDigit(b, 1))
      && JsGetDigit(a, 1) + 10 * b1 - b0 - JsGetDigit(b, 1) == JsGetDigit(a - b, 1)
      && JsGetDigit(a, 2) - b1 - JsGetDigit(b, 2) == JsGetDigit(a - b, 2)
  {
    BorrowFacts(a, b);
    PlaceArith(a, b, 0);
    PlaceArith(a, b, 1);
    PlaceArith(a, b, 2);
  }

  /** One column of the narration: the borrow rule and the spoken digit, with the floating `getDigit`. */
  lemma PlaceArith(a: nat, b: nat, i: nat)
    requires a >= b
    ensures var bin, bout := Ind(Borrowing(a, b, i)), Ind(Borrowing(a, b, i + 1));
      && (Borrowing(a, b, i + 1) <==> JsGetDigit(a, i) - bin < JsGetDigit(b, i))
      && JsGetDigit(a, i) + 10 * bout - bin - JsGetDigit(b, i) == JsGetDigit(a - b, i)
  {
    PlaceStandard(a, b, i);
    JsGetDigitAgrees(a, i);
    JsGetDigitAgrees(b, i);
    JsGetDigitAgrees(a - b, i);
  }

  /** The same column facts with the exact decimal digit. */
  lemma PlaceStandard(a: nat, b: nat, i: nat)
    requires a >= b
    ensures Borrowing(a, b, i + 1) <==> GetDigit(a, i) - Ind(Borrowing(a, b, i)) < GetDigit(b, i)
    ensures GetDigit(a, i) + 10 * Ind(Borrowing(a, b, i + 1)) - Ind(Borrowing(a, b, i)) - GetDigit(b, i)
      == GetDigit(a - b, i)
  {
    ColumnDigitIsGetDigit(a, i);
    ColumnDigitIsGetDigit(b, i);
    DifferenceDigit(a, b, i);
    BorrowRuleStandard(a, b, i);
  }

  /** Which of the three columns borrow, read from the returned places. */
  lemma BorrowFacts(a: nat, b: nat)
    requires b <= a < 1000
    ensures 0 in BorrowedPlaces(a, b) <==> Borrowing(a, b, 1)
    ensures 1 in BorrowedPlaces(a, b) <==> Borrowing(a, b, 2)
    ensures !Borrowing(a, b, 0) && !Borrowing(a, b, 3)
  {
    BorrowedPlacesSpec(a, b);
    NoBorrowOutOfHundreds(a, b);
    if MaxLength(a, b) <= 1 {
      NoBorrowPastLength(a, b, 1);
    }
  }

  lemma NoBorrowOutOfHundreds(a: nat, b: nat)
    requires b <= a < 1000
    ensures !Borrowing(a, b, 3)
  {
    BorrowingArith(a, b, 3);
    assert Pow10(3) == 1000;
    SmallMod(a, 3);
    SmallMod(b, 3);
  }

  /** For `a >= b` no place beyond the written columns borrows. */
  lemma NoBorrowPastLength(a: nat, b: nat, i: nat)
    requires a >= b && i >= MaxLength(a, b)
    ensures !Borrowing(a, b, i + 1)
  {
    BelowPow(a, b, i + 1);
    ModsOrdered(a, b, i + 1);
    BorrowingArith(a, b, i + 1);
  }

  /** Both numbers fit in any number of places at least as wide as the written columns. */
  lemma BelowPow(a: nat, b: nat, k: nat)
    requires k >= MaxLength(a, b)
    ensures a < Pow10(k) && b < Pow10(k)
  {
    BelowMaxLength(a, b);
    Pow10Monotone(MaxLength(a, b), k);
  }

  /** Numbers below `10^k` are their own remainders, so their order is kept. */
  lemma ModsOrdered(a: nat, b: nat, k: nat)
    requires a >= b && a < Pow10(k) && b < Pow10(k)
    ensures !(a % Pow10(k) < b % Pow10(k))
  {
    SmallMod(a, k);
    SmallMod(b, k);
  }

  // ---------------------------------------------------------------------
  // The screen

  datatype Screen = Screen(num1: nat, num2: nat, difference: int, borrowed: seq<nat>, cursor: Cursor)

  /** The effect run when a new problem arrives. */
  function NewProblem(num1: nat, num2: nat): (s: Screen)
    ensures s.difference == num1 - num2 && s.cursor == Start()
    ensures forall k: nat :: k in s.borrowed <==> k < MaxLength(num1, num2) && Borrowing(num1, num2, k + 1)
  {
    BorrowedPlacesSpec(num1, num2);
    Screen(num1, num2, num1 - num2, BorrowedPlaces(num1, num2), Start())
  }

  function ScreenSteps(s: Screen): seq<SubStep> {
    Steps(s.num1, s.num2, s.difference, s.borrowed)
  }

  /**
    `handleNextStep` on the screen: below the end of the rendered list the cursor moves
    one step on, at or past the end nothing changes, and the problem is never touched.
   */
  function NextStep(s: Screen): (r: Screen)
    ensures Valid(s.cursor, |ScreenSteps(s)|) ==> Valid(r.cursor, |ScreenSteps(r)|)
    ensures r.num1 == s.num1 && r.num2 == s.num2 && r.borrowed == s.borrowed
    ensures r == s.(cursor := r.cursor)
    ensures s.cursor.currentStep < |ScreenSteps(s)| ==> r.cursor.currentStep == s.cursor.currentStep + 1
    ensures s.cursor.currentStep >= |ScreenSteps(s)| ==> r == s
  {
    NextPreservesValid(s.cursor, |ScreenSteps(s)|);
    s.(cursor := HandleNextStep(s.cursor, |ScreenSteps(s)|).cursor)
  }
}

=== FILE: wrappers.dfy ===
/** Failure-compatible result types shared by every screen model. */
module Wrappers {

  /** A value that may be absent: JavaScript `undefined`, `null` or `NaN`. */
  datatype Option<T> = None | Some(value: T)

  /** The outcome of an input check: the new value, or the reason it was rejected. */
  datatype Result<T, E> = Ok(value: T) | Err(error: E)
}
